=== FILE: README.md ===
# service-url, modelled in Dafny

`service-url` is a small Node.js library for describing REST resources, in the
style of AngularJS `$resource`. A service holds defaults and a table of
actions (`get`, `save`, `query`, `remove`, `delete`). `service.resource(url,
paramDefaults, actions, options)` builds a resource. Each call of an action
turns the URL template, the parameter defaults, the action's own entries and
up to four loosely typed call arguments into a request configuration
`{url, params, data, method, ...}`. `Resource.getConfig` returns that
configuration and `Resource.getUrl` the full URL with its query string.

This project models that pipeline in `index.js` as pure functions over an
immutable value type, and proves what each stage promises. The modules are:

- `JsValues` (values.dfy): JavaScript values. An object is a list of entries
  in insertion order. Reading a key takes its last entry. Writing a key
  replaces it in place or appends it, so a repeated key keeps its first
  position and its last value (`JsValues.Properties`). `for-in` does not
  visit in insertion order: array-index keys such as `0` come first, in
  ascending numeric order, and only then the other keys in insertion order
  (`JsValues.Enumerate`, the [[OwnPropertyKeys]] order of section 9.1.12 of
  ECMA-262, 2015 edition). A string is visited by for-in as its characters
  under the keys `0`, `1`, .... lodash 2.x's `forEach` walks any value with a
  numeric `length` like an array: a string, a function (whose `length` is its
  declared parameter count) or an object with an integer `length` entry gives
  the keys `0` to `length - 1`, each with `value[i]`, and no other key. Any
  other object is walked in for-in order, and numbers, booleans, `null` and
  `undefined` give nothing (`JsValues.ForEachEntries`). All four `forEach`
  loops of the core use this walk: the leftover parameters, `extractParams`,
  the action copy and the action wrappers. `objToUrl` and `extractParams`
  iterate in that order, because there the order is visible: in the query
  string, and in which `badmember` error is raised. `extend` and
  `shallowClearAndCopy` copy in list order. The copy then enumerates exactly
  as a copy made in for-in order would, since named keys keep their
  first-insertion order and array indices are re-sorted.
- `Chars`, `Text`, `Results` (chars.dfy, text.dfy, results.dfy): character
  classes, `split`, `join`, `indexOf`, a literal global replace, and the
  `Result`/`Option` types that carry the library's errors (`badmember`,
  `badname`, `badargs`, and a `TypeError` where JavaScript would throw one).
- `DottedPath` (dotted_path.dfy): the `@a.b.c` grammar and the lookup walk.
- `UriEncoding` and `UriProperties` (uri_encoding.dfy, uri_properties.dfy):
  `encodeURIComponent` (ECMA-262 5.1, section 15.1.3.4) with UTF-8
  percent-escapes, and the two repair chains that build the query and
  segment encoders. Each encoder is proved equal to a per-character reference
  definition. Its output is proved to consist of `pchar` characters (RFC
  3986, section 3.3) and to decode back to the input.
- `Template` (template.dfy): one hand-written scanner for each regular
  expression of `setUrlParams`. These cover splitting on `\W`, placeholder
  discovery, colon unescaping, substitution, removal, trailing-slash
  stripping, the `/.` collapse and the `/\.` restore.
- `Routes` (route.dfy): `Route` and `setUrlParams`, with leftover parameters
  forwarded into `config.params`.
- `QueryString` (query_string.dfy): `objToUrl` with bracketed nested keys, its
  round trip through a query parser, and the `?`/`&` joiner of `getUrl`.
- `Arguments` (arguments.dfy): the fall-through `switch` of `processMethod`,
  and the argument slots the wrappers and `getConfig` actually pass.
- `Resources` (resource.dfy): service defaults, the action table and
  `hasBody`, the resource factory, `extractParams`, `processMethod`,
  `getConfig`, `getUrl`, the action wrappers and `shallowClearAndCopy`.
- `Scenario` (scenario.dfy): the repository's `getUrl` test, proved end to
  end. The resource built from the test's template, defaults and actions
  answers `getUrl('get')` with
  `http://posttestserver.com/post.php?dir=nodejs%2Fservice-url%2F`.

Some behaviours of the code that are easy to misread:

- Leftover parameters overwrite existing `config.params` entries of the same
  name (index.js:190-195; `Routes.ForwardedParams`).
- A placeholder missing from the parameters falls back to `Route.defaults`.
  These are the service defaults overlaid by the factory's `options`
  (index.js:135, 160, 201). Resource `paramDefaults` reach the URL only
  through `extractParams` (`Resources.ParamPrecedence`).
- Removing an absent placeholder drops the slash before it only when the
  character after the placeholder is `/`. Otherwise the slash stays, and the
  trailing-slash stripping handles it (index.js:167-173;
  `Template.RemoveSingle`).
- With two or three arguments where only the second is a function, the
  fall-through into the one-argument case sends the first argument to `data`
  for an action with a body (index.js:241-253; `Arguments.Classify`).
- An action's own `params` override the resource's parameter defaults
  (index.js:208; `Resources.ParamPrecedence`). For the test's `data` action,
  with `path: 'data'` and `format: null`, the path segment is therefore
  `data`.
- lodash 2.x's `extend` with three arguments takes a function in last
  position as its assign callback, not as a source (`JsValues.Extend`). The
  core calls it that way at index.js:135, 202, 208 and 274. So
  `Resource.getUrl(fn)` or `Resource.get(cb)` replaces every extracted
  parameter by the function's return value.

## Model

| member | source | states |
|---|---|---|
| JsValues.AssignGet | index.js:111-123 | `extend(dst, src)` lets the source win: a key the source has reads the source's value, any other key reads the destination's, and the key set is the union |
| JsValues.OverlayGet | index.js:111-123 | in the two-argument `extend`, a source that is not an object adds nothing; an object source follows `JsValues.AssignGet` and keeps keys unique |
| JsValues.Extend | index.js:274 | `extend({}, first, last)` has the keys of both objects, each read from `last` where it has it and from `first` otherwise; a function `last` is the callback, so only `first`'s keys appear, each with the function's return value |
| JsValues.ExtendCallback | index.js:274 | with a function last, the result is `first` with every value replaced by the function's return value |
| JsValues.ExtendCallbackExample | index.js:274 | `extend({}, {a: 1, b: 'x'}, function () {})` is `{a: undefined, b: undefined}` |
| JsValues.GetSetSame | index.js:153 | after `obj[k] = v`, `obj[k]` reads `v` |
| JsValues.GetSetOther | index.js:193 | `obj[k] = v` changes no other key and its presence |
| JsValues.SetSet | index.js:193 | a second assignment to the same key overwrites the first in place |
| Text.SplitJoin | index.js:33 | `split('.')` recovers the pieces that were joined by `.`, when no piece contains a dot |
| Text.IndexOf | index.js:310 | `indexOf` finds the first match at or after the start, and reports none exactly when nothing matches |
| DottedPath.ScanMatchesGrammar | index.js:15 | the character scanner standing in for `MEMBER_NAME_REGEX` accepts exactly a list of identifiers separated by dots |
| DottedPath.ValidDottedPathGrammar | index.js:24-27 | a path is valid exactly when it is not `hasOwnProperty` and every dot-separated part is an ASCII identifier (so `''` is rejected) |
| DottedPath.LookupDottedPath | index.js:29-32 | the lookup fails with `badmember`, naming the path, exactly when the path is invalid |
| DottedPath.WalkShortCircuits | index.js:34-37 | once an intermediate value is `undefined` or `null`, the result is `undefined` whatever keys follow |
| DottedPath.WalkFollowsKeys | index.js:33-38 | when every intermediate value is an object, the result is the value reached by following the keys in order |
| DottedPath.LookupOnNothing | index.js:29-38 | a valid path on an `undefined` or `null` root gives `undefined` and never fails |
| UriEncoding.Utf8 | index.js:71 | the UTF-8 encoding of a character takes one to four bytes, and one byte exactly for ASCII |
| UriEncoding.TokenizeRenders | index.js:71 | `encodeURIComponent` is a sequence of literal characters and `%XX` escapes, with no literal `%` |
| UriEncoding.ReplaceAllRender | index.js:72-76 | replacing one escape pattern over the whole output, case-sensitively or not, rewrites exactly the escapes of that byte and nothing else |
| UriEncoding.QueryMatchesReference | index.js:59-77 | `encodeUriQuery` equals the per-character definition: unreserved characters and `@ : $ ,` kept, a space as `+` or `%20`, everything else percent-encoded |
| UriEncoding.SegmentMatchesReference | index.js:41-57 | `encodeUriSegment` equals the per-character definition: unreserved characters and `@ : $ , & = +` kept, everything else (a space included) percent-encoded |
| UriProperties.SegmentOutputIsPchar | index.js:41-57 | the segment encoder's output consists only of RFC 3986 `pchar` characters and well-formed `%XX` escapes |
| UriProperties.QueryOutputIsPchar | index.js:59-77 | the query encoder's output is `pchar` too, and never contains `&`, `=` or `#` |
| UriProperties.ComponentAlphabet | index.js:71 | every character `encodeURIComponent` writes is unreserved or `%` |
| UriProperties.SpaceEncodings | index.js:76 | a space is `%20` in a segment, and `+` or `%20` in a query depending on `pctEncodeSpaces` |
| UriProperties.SegmentKeepsLiterals | index.js:52-57 | a string of unreserved characters and `@ : $ , & = +` is its own segment encoding |
| UriProperties.QueryKeepsLiterals | index.js:70-75 | a string of unreserved characters and `@ : $ ,` is its own query encoding |
| UriProperties.QueryEscapesDelimiter | index.js:70-77 | the query encoder leaves `&`, `=` and `+` percent-encoded as `%26`, `%3D` and `%2B` |
| UriProperties.QueryRoundTrip | index.js:59-77 | percent-decoding the query encoding, with `+` read as a space, gives back the input |
| UriProperties.SegmentRoundTrip | index.js:41-57 | percent-decoding the segment encoding gives back the input |
| UriProperties.ComponentRoundTrip | index.js:71 | percent-decoding `encodeURIComponent` gives back the input |
| UriProperties.SegmentInjective | index.js:52-57 | two different values never encode to the same path segment |
| UriProperties.QueryInjective | index.js:70-77 | two different values never encode to the same query value, with either treatment of spaces |
| JsValues.Properties | index.js:207 | the object a list of entries stands for has each key once, and every property is one of the entries |
| JsValues.PropertiesGet | index.js:207 | every key reads the same value, and is present or absent alike, in the object and in its entries |
| JsValues.PropertiesAppend | index.js:193 | one more entry is an assignment: a repeated key keeps its position and takes the new value, a new key goes last |
| JsValues.Enumerate | index.js:100 | `for-in` visits exactly the object's properties |
| JsValues.EnumerateGet | index.js:100-101 | the visit sees each key once, and `obj[p]` reads the value the entries give it |
| JsValues.EnumerateOrder | index.js:100 | array-index keys are visited first, in strictly ascending numeric order, and the other keys after them in insertion order |
| JsValues.EnumerateNamed | index.js:100 | an object without array-index keys is visited in insertion order |
| JsValues.ForEachEntries | index.js:189 | lodash's `forEach` (here and at index.js:208, 266 and 321) visits each key once; a value with a numeric `length` gives the keys `0` to `length - 1` in order, each with `value[i]`; any other object gives its properties; anything else gives nothing |
| JsValues.ForEachGet | index.js:208 | a key is visited exactly when it is an index below `length` for an array-like value, or an own key of any other object, and it is visited with `value[key]` |
| JsValues.ArrayLikeSkipsNames | index.js:266 | an array-like value's named keys, its `length` among them, are never visited |
| QueryString.ObjToUrlLeaves | index.js:98-107 | `objToUrl` is the `&`-joined `enc(key)=enc(value)` of every leaf, with nested objects giving `k[sub]` keys, each property once, in `for-in` order |
| QueryString.QueryRoundTrip | index.js:98-107 | parsing the serialised query gives back exactly the flattened key/value pairs, in order |
| QueryString.NestedKeysExample | index.js:101-103 | `{a: {b: 'c', d: true}}` flattens to `a[b]=c` and `a[d]=true`, and the brackets are percent-encoded |
| QueryString.IndexKeyFirstExample | index.js:100-106 | `{b: 'x', 0: 'y'}` serialises as `0=y&b=x`: the array-index key comes first |
| QueryString.AppendQuery | index.js:309-318 | an empty query leaves the URL alone; otherwise the joiner is `?` without a `?` in the URL, `&` after an earlier `?`, and nothing after a final `?` |
| QueryString.AppendQueryFrames | index.js:309-318 | an empty query leaves the URL unchanged; otherwise the result starts with the URL, ends with the query, and adds at most one character between them |
| QueryString.AppendQueryOneQuestionMark | index.js:309-318 | a URL without `?` gains exactly one, directly after the URL |
| Template.SplitNonWordRuns | index.js:147 | the pieces of `split(/\W/)` are exactly the maximal runs of word characters |
| Template.Placeholders | index.js:147-155 | discovery fails with `badname` exactly when a piece is `hasOwnProperty`; otherwise it returns each qualifying piece once |
| Template.PlaceholdersCharacterised | index.js:151-152 | a name is a placeholder exactly when it is a non-empty, not all-digit run of word characters that occurs as `:name` with no backslash before the colon and a non-word character or the end after the name |
| Template.PlaceholderIsPiece | index.js:147-152 | every unescaped `:name` occurrence is also one of the split pieces |
| Template.UnescapeColonsDropsBackslashes | index.js:156 | unescaping removes exactly the backslashes that stand before a colon |
| Template.SubstituteSingle | index.js:163-165 | binding a placeholder that occurs once replaces `:name` by the encoded value and keeps the following character |
| Template.SubstituteNoMatch | index.js:163 | a URL without `:name` at a word boundary is left unchanged |
| Template.NoPrefixMatch | index.js:163 | `:id` never matches where `:identity` starts |
| Template.LongerNameUntouched | index.js:163-173 | binding or removing `id` leaves `/:identity` unchanged |
| Template.RemoveSingle | index.js:167-173 | removing an absent placeholder deletes `:name` and keeps the following character; the slash before it goes only when that character is `/` |
| Template.AdjacentRepeatSurvives | index.js:163-173 | the character a match consumes is not searched again, so `/:a:a` binds only the first `:a` |
| Template.StripTrailingSlashes | index.js:178-179 | the result is `/` exactly when the input was all slashes; otherwise it is the input without its trailing slashes and does not end in `/` |
| Template.StripIdempotent | index.js:179 | stripping twice is stripping once |
| Template.StripKeepsUnslashed | index.js:179 | a URL that does not end in `/` is not changed |
| Template.LookaheadByRunEnd | index.js:184 | the `(?=\w+($|\?))` lookahead holds exactly when a non-empty word run follows and ends at the end or at `?` |
| Template.CollapseDot | index.js:184 | only the first `/.` before a final word run loses its slash; without one the URL is unchanged |
| Template.RestoreEscapedDot | index.js:186 | only the first `/\.` loses its backslash; without one the URL is unchanged |
| Routes.NewRoute | index.js:133-137 | the route keeps the template, and its defaults read the option's value where the options have the key, the service default otherwise; a function `options` turns every service default into its return value |
| Routes.EffectiveUrl | index.js:142 | a truthy action URL replaces the template; a value that is not a string fails as `.split` would |
| Routes.Leftovers | index.js:189-191 | the leftover parameters are exactly the keys `forEach` visits that are not placeholders, each with the value visited |
| Routes.SetUrlParams | index.js:140-196 | `setUrlParams` fails exactly when the URL is not a string or a split piece is `hasOwnProperty`, with the matching error |
| Routes.SetUrlParamsUrl | index.js:140-186 | `config.url` is the unescaped template with every placeholder bound, then stripped (when the route says so), dot-collapsed and restored |
| Routes.BindSinglePlaceholder | index.js:159-175 | a placeholder reads `params[name]` when the key is present, even if it is `null`, and `Route.defaults` otherwise; a present value is segment-encoded into place and an absent one is removed |
| Routes.ForwardedParams | index.js:189-195 | every visited non-placeholder key is written into `config.params` with its visited value, overwriting; other keys of `params` keep their value, and nothing else in the configuration changes |
| Routes.ForwardIntoFresh | index.js:189-195 | starting without `params`, `config.params` appears exactly when `forEach` visits a non-placeholder key, and holds exactly those keys with their visited values |
| Routes.LeftoversExist | index.js:189-193 | there is a leftover exactly when `forEach` visits some key that is not a placeholder |
| Routes.ArrayLikeParamsForwarded | index.js:189-195 | parameters `{length: 2}` forward `0` and `1`, both `undefined`, and not `length` |
| Routes.SetUrlParamsForwards | index.js:140-196 | after `setUrlParams` the configuration has a `url`, its `params` hold exactly the visited non-placeholder parameters, and every other entry is unchanged |
| Routes.ForwardKeepsOthers | index.js:190-195 | forwarding leftovers changes no key other than `params` |
| Arguments.Classify | index.js:219-260 | the `switch`, case by case: more than four arguments fail with `badargs` naming the count; two callbacks first go to success and error; a value then a callback goes to data (with a body) or params; otherwise params, data, success and error in order |
| Arguments.WrapperSlots | index.js:323-324 | the wrappers always pass four slots, so classification never fails, and it reads the slots positionally unless the second one is a function |
| Arguments.GetConfigSlots | index.js:296 | `getConfig` passes two slots and no body flag, so they become params and data unless the second one is a function |
| Arguments.WrapperClassifyAsWritten | index.js:323-324 | the wrapper's classification never fails, and with a non-function second slot the first slot is the parameters |
| Arguments.LoneCallbackLost | index.js:323-324 | `Resource.get(cb)` as written makes `cb` the parameters and leaves success undefined |
| Arguments.LoneBodyLost | index.js:323-324 | `Resource.save(obj)` as written makes `obj` the parameters and sends no body |
| Arguments.WrapperClassify | index.js:227-260 | classifying the arguments actually passed fails only beyond four and keeps a lone callback as success |
| Arguments.WrapperClassifyAgrees | index.js:323-324 | with four arguments, or two leading callbacks, both wrapper readings agree |
| Resources.ServiceDefaults | index.js:109-123 | a provider's entries win over the built-in defaults, one level deep |
| Resources.BuiltinServiceDefaults | index.js:111-123 | without provider defaults, slashes are stripped and the five built-in actions are used |
| Resources.HasBodyByUpperCase | index.js:322 | an action has a body exactly when its method, upper-cased, is `POST`, `PUT` or `PATCH` |
| Resources.DefaultActionBodies | index.js:116-122 | of the built-in actions, only `save` has a body |
| Resources.HasBodyCaseExamples | index.js:322 | the method match ignores case and is anchored: `patch` has a body, `POSTS` and a missing method do not |
| Resources.MergeActions | index.js:202 | the merged table has each name once: the caller's action where it has one, the service's otherwise; a function in place of the caller's actions turns every service action into its return value |
| Resources.ResourceFactory | index.js:200-322 | the factory fails exactly when the wrappers loop visits a `null` or `undefined` action (reading its `method` throws), which without a numeric `length` means some merged action; otherwise the resource keeps the template, the parameter defaults and route defaults from the options (or a function option's return value) |
| Resources.FactoryActions | index.js:202 | the action table `getConfig` reads holds a name exactly when the caller or the built-in table names it, and the caller's one wins; a function in place of the actions makes every built-in action its return value |
| Resources.ResolveParam | index.js:209-214 | a function default is called; a string starting with `@` is looked up in the body and fails only on an invalid path; any other value stands |
| Resources.ExtractorReadsBody | index.js:213-214 | `@key` reads `data[key]` |
| Resources.ResolveIntoGet | index.js:208-215 | each resolved entry reads the resolution of its raw value, and no key is added or lost |
| Resources.ExtractParams | index.js:205-217 | extraction fails with `badmember` exactly when some parameter `forEach` visits names an invalid path, and the error is that of the first such parameter in `forEach` order |
| Resources.ResolveIntoFirstFailure | index.js:208-215 | the loop stops at the first parameter that does not resolve, with that parameter's error |
| Resources.ExtractParamsGet | index.js:205-217 | the extracted keys are the visited ones, which without a numeric `length` are those of the action's params and the parameter defaults; each is resolved from the action's value, else the default, or from a function `action.params`'s return value for each default |
| Resources.CopyAction | index.js:266-270 | the request configuration starts with every key `forEach` visits in the action except `params` and `interceptor`, with its visited value |
| Resources.ParamPrecedence | index.js:205-274 | a call-site parameter wins; otherwise a visited key takes the action's params, then the parameter defaults, resolved against the body; a key extraction does not visit is absent; a function call-site `params` gives every extracted key its return value |
| Resources.BuildRequest | index.js:264-277 | an assembled request carries the classified callbacks and a string URL; failures are only extraction, URL or name errors |
| Resources.ForwardedRequestParams | index.js:273-275 | `config.params` holds exactly the visited merged parameters that are not placeholders |
| Resources.RequestConfig | index.js:264-272 | every other configuration entry is what `forEach` visits in the action, except `data`, which is the call's body for an action with a body |
| Resources.ProcessMethod | index.js:219-278 | `processMethod` fails with `badargs` beyond four arguments and otherwise passes on the classified callbacks with a string URL |
| Resources.ProcessMethodConfig | index.js:219-278 | the configuration's entries other than `url` and `params` come from the action, with the classified body as `data` for an action with a body |
| Resources.GetConfig | index.js:284-302 | `getConfig` never fails with `badargs`, yields a string URL, and fails on a `null` action entry |
| Resources.GetConfigFromAction | index.js:285-296 | the configuration carries what `forEach` visits in the named action; an unknown or missing name gives an empty action |
| Resources.GetUrl | index.js:304-319 | `getUrl` fails exactly when `getConfig` does; it is `config.url` alone when `objToUrl(config.params)` is empty (in particular when there are no parameters), and otherwise `config.url`, at most one joining character, and that query string |
| Resources.InvokeAsWritten | index.js:321-326 | only a name the wrappers loop visits has a wrapper; a call as written never fails with `badargs` and takes its callbacks from the four-slot classification |
| Resources.Invoke | index.js:321-326 | only a name the wrappers loop visits has a wrapper; the corrected call fails with `badargs` beyond four arguments and takes its callbacks from the arguments actually passed |
| Resources.LoneCallbackRequest | index.js:323-324 | a single callback to a body-less action is lost as written and kept by the corrected call |
| Resources.InvokeAgreesOnFour | index.js:323-324 | with four arguments the as-written and corrected calls agree |
| Resources.ShallowClearAndCopy | index.js:82-96 | the copy holds exactly the value's own enumerable properties (an object's entries, a string's character indices) whose key does not start with `$$`, each with its value |
| Resources.ShallowCopyIdempotent | index.js:82-96 | copying a copy changes nothing |
| Scenario.ExampleUrlText | test/index.js:5 | the template the scenario uses is the test's `http://posttestserver.com/:path:format` |
| Scenario.ExampleGetConfig | test/index.js:80-83 | `getConfig('get')` on the test's resource gives method `GET`, the bound URL and `params` holding only `dir` |
| Scenario.ExampleGetUrl | test/index.js:86 | any resource with the test's template, defaults and `get` action answers `getUrl('get')` with `http://posttestserver.com/post.php?dir=nodejs%2Fservice-url%2F` |
| Scenario.RepositoryGetUrl | test/index.js:1-62 | the resource the test builds from its URL, defaults and actions exists and gives that URL |

## Left out

- `this.sync` and the `restling` request (index.js:125-131) are network I/O. The model stops at the configuration and the callbacks that would be passed to them.
- The action wrappers' call into `sync` (index.js:325) and `getConfig`'s callback (index.js:298-300) are left out. The callback is an effect on code outside the model. `Resources.GetConfig` takes only the first three arguments for this reason.
- `route.urlParams` is shared mutable state (index.js:136, 146). The model returns the placeholder list as a value instead.
- lodash is assumed to be a 2.x release. Its `clone` and `isFunction` are modelled as the value itself (values are immutable) and a tag test. Its `extend` is modelled as entry-wise assignment, with a trailing function taken as the assign callback (`JsValues.Extend`), and its `forEach` as `JsValues.ForEachEntries`.
- Arrays are not a separate kind of value. An index-keyed object converts to a string as `[object Object]`, not as the comma-joined elements, so `getUrl({id: [1, 2]})`, whose URL segment JavaScript writes as `1,2`, is not modelled.
- Properties that are not enumerable are not readable: a string's or a function's `length` reads as `undefined` in `@length` lookups and placeholders. The walk of `forEach` does use that `length`.
- A `length` that is a non-integer number is not modelled, because numbers are integers.
- An action named like a property the `Resource` function already has (`getConfig`, `getUrl`, or the read-only `length` and `name`) is not modelled. Its wrapper would replace the method, or the assignment would be ignored.
- Resources.CopyAction: a function-valued action entry is copied as the function, as lodash 2.x's `_.clone` returns it. From lodash 3 on, `_.clone` of a function gives `{}`; that behaviour is not modelled.
- Numbers are integers, converted with their decimal digits. Floating-point formatting is left out.
- A function value is its source text, its parameter count and one return value. It returns that value whatever the arguments, so an `extend` callback that computes from `(objectValue, sourceValue)` is not modelled. Calling it has no other effect.
- `isValidDottedPath`'s `null` check (index.js:25) has no counterpart: `lookupDottedPath` only ever receives `value.substr(1)`, which is a string.
- Lone UTF-16 surrogates cannot be written as Dafny characters, so the `URIError` that `encodeURIComponent` throws for them is not modelled.
- Only own, enumerable entries exist. Prototype properties and `hasOwnProperty` overridden by data are not modelled.
- The module and IIFE wiring (index.js:1-10, 332-337) is left out.
- The request tests against the live server (test/index.js:91-113) depend on the network and are left out.
- Resources.GetConfig: its contract states only the failure modes and the string URL. The full content of the configuration is stated by `Resources.GetConfigFromAction`, `Resources.ProcessMethodConfig` and `Resources.ForwardedRequestParams`.
- Resources.ProcessMethod: the same holds. Its configuration is described by `Resources.ProcessMethodConfig`, `Resources.ParamPrecedence` and `Resources.ForwardedRequestParams`.
- QueryString.QueryRoundTrip: the round trip is stated for objects with no `null` values and no empty nested objects. Those serialise to an empty piece (index.js:102-104) that a parser cannot attribute to a key.
- Routes.ForwardedParams: it assumes `config.params` is absent, falsy or an object. The configuration `processMethod` builds never has a `params` entry before forwarding (`Resources.BaseConfigHasNoParams`).
- Scenario.ExampleGetUrl: the scenario is proved for the `get` action only. The other test actions are part of the resource but are not evaluated.

## Findings

| source | as written | input that shows it | evidently intended | confidence | as-written member | corrected member |
|---|---|---|---|---|---|---|
| index.js:323-324 | each action wrapper is `function (a1, a2, a3, a4)` and passes all four slots to `processMethod`, so the `switch` on the argument count always takes the four-argument case | `Resource.get(cb)` makes `cb` the parameters, so `extend` at index.js:274 calls it as its callback, and the success callback is lost; `Resource.save(obj)` sends `obj` as parameters and no body | the one-, two- and three-argument cases of the `switch` (index.js:232-254) apply to calls with that many arguments | high, not executed | Resources.InvokeAsWritten, Arguments.WrapperClassifyAsWritten, Arguments.LoneCallbackLost, Arguments.LoneBodyLost | Resources.Invoke, Arguments.WrapperClassify, Resources.LoneCallbackRequest |

=== FILE: arguments.dfy ===
/** The argument classifier at the top of `processMethod` (index.js:219-260): a
    fall-through `switch` on the number of call arguments that sorts up to four
    loosely typed arguments into parameters, body, success and error callbacks. */
module Arguments {
  import opened Results
  import opened JsValues

  /** What the classifier hands on: `params`, `data`, `success`, `error`. */
  datatype Call = Call(params: Value, data: Value, success: Value, error: Value)

  /** `_.isFunction`. */
  predicate IsFunction(v: Value) {
    v.Fn?
  }

  /** The state before the `switch`: `params = {}`, the others undefined. */
  const Initial := Call(Obj([]), Undefined, Undefined, Undefined)

  /** The `i`-th named argument: `undefined` when fewer were passed. */
  function Slot(args: seq<Value>, i: nat): Value {
    if i < |args| then args[i] else Undefined
  }

  /** The labels of the `switch`, in source order. */
  datatype Label = Case4 | Case3Or2 | Case1 {
    /** How many labels follow this one. */
    function Below(): nat {
      match this
      case Case4 => 2
      case Case3Or2 => 1
      case Case1 => 0
    }
  }

  /** Running the `switch` from a label: each case's statements, then either a
      `break` or the fall-through into the next case. */
  function RunFrom(entry: Label, hasBody: bool, a1: Value, a2: Value, a3: Value, a4: Value, c: Call): Call
    decreases entry.Below()
  {
    match entry
    case Case4 =>
      RunFrom(Case3Or2, hasBody, a1, a2, a3, a4, c.(error := a4, success := a3))
    case Case3Or2 =>
      if IsFunction(a2) then
        if IsFunction(a1) then c.(success := a1, error := a2)
        else RunFrom(Case1, hasBody, a1, a2, a3, a4, c.(success := a2, error := a3))
      else c.(params := a1, data := a2, success := a3)
    case Case1 =>
      if IsFunction(a1) then c.(success := a1)
      else if hasBody then c.(data := a1)
      else c.(params := a1)
  }

  /** The classifier for an explicit argument list. */
  function Classify(hasBody: bool, args: seq<Value>): (r: Result<Call>)
    ensures r.Err? <==> |args| > 4
    ensures r.Err? ==> r.error == BadArgs(|args|)
    // no arguments: the defaults
    ensures |args| == 0 ==> r == Ok(Initial)
    // one argument: a callback, or else the body (for a body-bearing action) or the parameters
    ensures |args| == 1 && IsFunction(args[0]) ==> r == Ok(Initial.(success := args[0]))
    ensures |args| == 1 && !IsFunction(args[0]) && hasBody ==> r == Ok(Initial.(data := args[0]))
    ensures |args| == 1 && !IsFunction(args[0]) && !hasBody ==> r == Ok(Initial.(params := args[0]))
    // two callbacks first
    ensures 2 <= |args| <= 4 && IsFunction(args[0]) && IsFunction(args[1])
      ==> r == Ok(Initial.(success := args[0], error := args[1]))
    // one value, then callbacks
    ensures 2 <= |args| <= 4 && !IsFunction(args[0]) && IsFunction(args[1])
      ==> r.Ok? && r.value.success == args[1] && r.value.error == Slot(args, 2)
          && (if hasBody then r.value.data == args[0] && r.value.params == Obj([])
              else r.value.params == args[0] && r.value.data == Undefined)
    // parameters and body, then callbacks
    ensures 2 <= |args| <= 4 && !IsFunction(args[1])
      ==> r == Ok(Call(args[0], args[1], Slot(args, 2), if |args| == 4 then args[3] else Undefined))
  {
    var n := |args|;
    var a1, a2, a3, a4 := Slot(args, 0), Slot(args, 1), Slot(args, 2), Slot(args, 3);
    if n == 4 then
      assert RunFrom(Case4, hasBody, a1, a2, a3, a4, Initial)
        == RunFrom(Case3Or2, hasBody, a1, a2, a3, a4, Initial.(error := a4, success := a3));
      Ok(RunFrom(Case4, hasBody, a1, a2, a3, a4, Initial))
    else if n == 3 || n == 2 then Ok(RunFrom(Case3Or2, hasBody, a1, a2, a3, a4, Initial))
    else if n == 1 then Ok(RunFrom(Case1, hasBody, a1, a2, a3, a4, Initial))
    else if n == 0 then Ok(Initial)
    else Err(BadArgs(n))
  }

  /** The first four arguments padded with `undefined`: what a wrapper declared
      as `function (a1, a2, a3, a4)` passes on, whatever its caller gave it. */
  function FourSlots(args: seq<Value>): (slots: seq<Value>)
    ensures |slots| == 4
    ensures forall i :: 0 <= i < 4 ==> slots[i] == Slot(args, i)
  {
    [Slot(args, 0), Slot(args, 1), Slot(args, 2), Slot(args, 3)]
  }

  /** The action wrappers (index.js:323-324) always pass four slots, so the
      classifier always takes the four-argument entry: it never fails, and a
      second slot that is not a function makes the first slot the parameters. */
  lemma WrapperSlots(hasBody: bool, args: seq<Value>)
    ensures Classify(hasBody, FourSlots(args)).Ok?
    ensures var c := Classify(hasBody, FourSlots(args)).value;
      !IsFunction(Slot(args, 1)) ==> c == Call(Slot(args, 0), Slot(args, 1), Slot(args, 2), Slot(args, 3))
    ensures var c := Classify(hasBody, FourSlots(args)).value;
      IsFunction(Slot(args, 0)) && IsFunction(Slot(args, 1)) ==> c == Initial.(success := Slot(args, 0), error := Slot(args, 1))
  {
  }

  /** `getConfig` (index.js:296) passes exactly two slots, `params` and `data`,
      and no body flag: they land in `params` and `data` unless the second one is
      a function. */
  lemma GetConfigSlots(params: Value, data: Value)
    ensures !IsFunction(data) ==> Classify(false, [params, data]) == Ok(Call(params, data, Undefined, Undefined))
    ensures IsFunction(data) && !IsFunction(params) ==> Classify(false, [params, data]) == Ok(Call(params, Undefined, data, Undefined))
  {
  }

  /** The classifier as the wrappers drive it: the four slots, not the number
      of arguments the caller passed. */
  function WrapperClassifyAsWritten(hasBody: bool, args: seq<Value>): (r: Result<Call>)
    ensures r.Ok?
    ensures !IsFunction(Slot(args, 1)) ==> r.value.params == Slot(args, 0) && r.value.success == Slot(args, 2)
  {
    Classify(hasBody, FourSlots(args))
  }

  /** A call with a single success callback, as in `Resource.get(cb)`: the
      four-slot wrapper makes the callback the parameters and leaves `success`
      undefined, while the classifier's own one-argument case would have made it
      the success callback. */
  lemma LoneCallbackLost(cb: Value)
    requires IsFunction(cb)
    ensures WrapperClassifyAsWritten(false, [cb]).value.params == cb
    ensures WrapperClassifyAsWritten(false, [cb]).value.success == Undefined
    ensures Classify(false, [cb]).value.success == cb
  {
  }

  /** A single body for an action with a body, as in `Resource.save(obj)`: the
      four-slot wrapper makes it the parameters and sends no body, while the
      classifier's own one-argument case would have made it the body. */
  lemma LoneBodyLost(body: Value)
    requires !IsFunction(body)
    ensures WrapperClassifyAsWritten(true, [body]).value.params == body
    ensures WrapperClassifyAsWritten(true, [body]).value.data == Undefined
    ensures Classify(true, [body]).value.data == body
  {
  }

  /** The classifier driven by the number of arguments the caller actually
      passed, as the `switch` on `args.length` is written to expect. */
  function WrapperClassify(hasBody: bool, args: seq<Value>): (r: Result<Call>)
    ensures r.Err? <==> |args| > 4
    ensures |args| == 1 && IsFunction(args[0]) ==> r == Ok(Initial.(success := args[0]))
    ensures 2 <= |args| <= 4 && IsFunction(args[0]) && IsFunction(args[1])
      ==> r == Ok(Initial.(success := args[0], error := args[1]))
  {
    Classify(hasBody, args)
  }

  /** Where the argument count is four, or the second argument is a function
      alongside a function first argument, the corrected wrapper and the
      as-written one agree; they differ only in the trailing-`undefined` cases. */
  lemma WrapperClassifyAgrees(hasBody: bool, args: seq<Value>)
    requires |args| == 4 || (2 <= |args| <= 4 && IsFunction(args[0]) && IsFunction(args[1]))
    ensures WrapperClassify(hasBody, args) == WrapperClassifyAsWritten(hasBody, args)
  {
    if |args| == 4 {
      assert FourSlots(args) == args;
    }
  }
}

=== FILE: chars.dfy ===
/** Character classes used by the source's regular expressions, and the
    decimal and hexadecimal digit conversions of JavaScript. */
module Chars {

  predicate IsDigit(c: char) {
    '0' <= c <= '9'
  }

  predicate IsUpper(c: char) {
    'A' <= c <= 'Z'
  }

  predicate IsLower(c: char) {
    'a' <= c <= 'z'
  }

  predicate IsAlpha(c: char) {
    IsUpper(c) || IsLower(c)
  }

  /** The regular-expression class `\w`: `[A-Za-z0-9_]`. */
  predicate IsWord(c: char) {
    IsAlpha(c) || IsDigit(c) || c == '_'
  }

  predicate AllWord(s: string) {
    forall i :: 0 <= i < |s| ==> IsWord(s[i])
  }

  /** The test `^\d+$`. */
  predicate AllDigits(s: string) {
    |s| > 0 && forall i :: 0 <= i < |s| ==> IsDigit(s[i])
  }

  /** ASCII-only upper-casing, the folding a `/i` regular expression applies to letters. */
  function ToUpper(c: char): (u: char)
    ensures IsLower(c) ==> IsUpper(u) && u as int == c as int - 32
    ensures !IsLower(c) ==> u == c
  {
    if IsLower(c) then (c as int - 32) as char else c
  }

  function ToUpperString(s: string): (u: string)
    ensures |u| == |s|
    ensures forall i :: 0 <= i < |s| ==> u[i] == ToUpper(s[i])
  {
    if s == [] then [] else [ToUpper(s[0])] + ToUpperString(s[1..])
  }

  /** Equality up to ASCII letter case, as a `/i` regular expression compares. */
  predicate EqualIgnoringCase(a: string, b: string) {
    |a| == |b| && forall i :: 0 <= i < |a| ==> ToUpper(a[i]) == ToUpper(b[i])
  }

  predicate IsHexDigit(c: char) {
    IsDigit(c) || 'A' <= c <= 'F' || 'a' <= c <= 'f'
  }

  /** The upper-case hexadecimal digit `encodeURIComponent` writes for `n`. */
  function HexDigit(n: nat): (c: char)
    requires n < 16
    ensures IsHexDigit(c) && (IsDigit(c) || 'A' <= c <= 'F')
    ensures HexValue(c) == n
  {
    if n < 10 then ('0' as int + n) as char else ('A' as int + n - 10) as char
  }

  function HexValue(c: char): (n: nat)
    requires IsHexDigit(c)
    ensures n < 16
  {
    if IsDigit(c) then c as int - '0' as int
    else if 'A' <= c <= 'F' then c as int - 'A' as int + 10
    else c as int - 'a' as int + 10
  }

  lemma HexDigitOfValue(c: char)
    requires IsDigit(c) || 'A' <= c <= 'F'
    ensures HexDigit(HexValue(c)) == c
  {
  }

  /** The decimal digits of a natural number, most significant first. */
  function NatDigits(n: nat): (s: string)
    ensures AllDigits(s)
    ensures n < 10 <==> |s| == 1
    decreases n
  {
    if n < 10 then [('0' as int + n) as char]
    else NatDigits(n / 10) + [('0' as int + n % 10) as char]
  }

  function DigitsValue(s: string): nat
    requires forall i :: 0 <= i < |s| ==> IsDigit(s[i])
  {
    if s == [] then 0
    else
      var d := s[|s| - 1];
      assert IsDigit(d);
      10 * DigitsValue(s[..|s| - 1]) + (d as int - '0' as int)
  }

  /** Reading the digits back gives the number: the rendering loses nothing. */
  lemma {:induction false} NatDigitsValue(n: nat)
    ensures DigitsValue(NatDigits(n)) == n
    decreases n
  {
    var s := NatDigits(n);
    if n >= 10 {
      NatDigitsValue(n / 10);
      assert s[..|s| - 1] == NatDigits(n / 10);
    }
  }

  /** `String(n)` for an integer-valued JavaScript number. */
  function DecimalString(n: int): (s: string)
    ensures |s| > 0
    ensures n < 0 <==> s[0] == '-'
    ensures n >= 0 ==> AllDigits(s)
    ensures n < 0 ==> AllDigits(s[1..])
  {
    if n < 0 then "-" + NatDigits(-n) else NatDigits(n)
  }
}

=== FILE: dotted_path.dfy ===
/** `@dotted.path` extractors: validating the path against the identifier
    grammar and walking an object along it (index.js:15, 24-39). */
module DottedPath {
  import opened Chars
  import opened Text
  import opened Results
  import opened JsValues

  predicate IsIdentStart(c: char) {
    IsAlpha(c) || c == '_' || c == '$'
  }

  predicate IsIdentChar(c: char) {
    IsIdentStart(c) || IsDigit(c)
  }

  /** `[a-zA-Z_$][0-9a-zA-Z_$]*` */
  predicate IsIdentifier(w: string) {
    |w| > 0 && IsIdentStart(w[0]) && forall i :: 1 <= i < |w| ==> IsIdentChar(w[i])
  }

  predicate AllIdentChars(w: string) {
    forall i :: 0 <= i < |w| ==> IsIdentChar(w[i])
  }

  predicate AllIdentifiers(parts: seq<string>) {
    forall i :: 0 <= i < |parts| ==> IsIdentifier(parts[i])
  }

  /** Scanner states for `MEMBER_NAME_REGEX`. */
  datatype ScanState = ExpectDot | ExpectStart | InName

  /** `/^(\.[a-zA-Z_$][0-9a-zA-Z_$]*)+$/.test(s)` as a left-to-right scanner. */
  function ScanMemberName(s: string, state: ScanState): bool
    decreases |s|
  {
    if s == [] then state == InName
    else match state
      case ExpectDot => s[0] == '.' && ScanMemberName(s[1..], ExpectStart)
      case ExpectStart => IsIdentStart(s[0]) && ScanMemberName(s[1..], InName)
      case InName =>
        if s[0] == '.' then ScanMemberName(s[1..], ExpectStart)
        else IsIdentChar(s[0]) && ScanMemberName(s[1..], InName)
  }

  /** `isValidDottedPath(path)`: not empty, not `hasOwnProperty`, and `'.' + path`
      matches the member-name expression. The path is always a string here (it
      is what follows the `@` of an extractor), so the source's `null` test has
      nothing to reject. */
  predicate IsValidDottedPath(path: string) {
    path != "" && path != "hasOwnProperty" && ScanMemberName("." + path, ExpectDot)
  }

  /** The scanner accepts exactly the dot-separated lists of identifiers. */
  lemma {:induction false} ScanMatchesGrammar(p: string)
    ensures ScanMemberName(p, ExpectStart) <==> IsIdentifier(Split(p, '.')[0]) && AllIdentifiers(Split(p, '.')[1..])
    ensures ScanMemberName(p, InName) <==> AllIdentChars(Split(p, '.')[0]) && AllIdentifiers(Split(p, '.')[1..])
    decreases |p|
  {
    if p != [] {
      ScanMatchesGrammar(p[1..]);
      var c := p[0];
      var rest := Split(p[1..], '.');
      var parts := Split(p, '.');
      if c == '.' {
        assert parts == [[]] + rest;
        assert parts[1..] == rest;
        assert AllIdentifiers(rest) <==> IsIdentifier(rest[0]) && AllIdentifiers(rest[1..]) by {
          if IsIdentifier(rest[0]) && AllIdentifiers(rest[1..]) {
            forall i | 0 <= i < |rest|
              ensures IsIdentifier(rest[i])
            {
              if i > 0 {
                assert rest[i] == rest[1..][i - 1];
              }
            }
          }
        }
      } else {
        var w := [c] + rest[0];
        assert parts == [w] + rest[1..];
        assert parts[0] == w && parts[1..] == rest[1..];
        assert forall i :: 1 <= i < |w| ==> w[i] == rest[0][i - 1];
        assert forall i :: 0 <= i < |rest[0]| ==> rest[0][i] == w[i + 1];
        assert IsIdentifier(w) <==> IsIdentStart(c) && AllIdentChars(rest[0]);
        assert AllIdentChars(w) <==> IsIdentChar(c) && AllIdentChars(rest[0]);
      }
    }
  }

  /** A path is valid exactly when it is not `hasOwnProperty` and each of its
      dot-separated keys is an identifier (which rules out the empty path). */
  lemma ValidDottedPathGrammar(path: string)
    ensures IsValidDottedPath(path) <==> path != "hasOwnProperty" && AllIdentifiers(Split(path, '.'))
  {
    ScanMatchesGrammar(path);
    var parts := Split(path, '.');
    assert ("." + path)[1..] == path;
    assert AllIdentifiers(parts) <==> IsIdentifier(parts[0]) && AllIdentifiers(parts[1..]) by {
      if IsIdentifier(parts[0]) && AllIdentifiers(parts[1..]) {
        forall i | 0 <= i < |parts|
          ensures IsIdentifier(parts[i])
        {
          if i > 0 {
            assert parts[i] == parts[1..][i - 1];
          }
        }
      }
    }
    if path == "" {
      assert parts == [[]];
    }
  }

  /** The loop of `lookupDottedPath`: stop at `undefined`, read through `null`
      as `undefined`, otherwise take the next key. */
  function Walk(obj: Value, keys: seq<string>): Value
    decreases |keys|
  {
    if keys == [] || obj == Undefined then obj
    else Walk(if obj == Null then Undefined else Prop(obj, keys[0]), keys[1..])
  }

  /** `lookupDottedPath(obj, path)`. */
  function LookupDottedPath(obj: Value, path: string): (r: Result<Value>)
    ensures r.Err? <==> !IsValidDottedPath(path)
    ensures r.Err? ==> r.error == BadMember(path)
  {
    if !IsValidDottedPath(path) then Err(BadMember(path))
    else Ok(Walk(obj, Split(path, '.')))
  }

  /** The value reached after reading the first `j` keys one after the other. */
  function Reach(obj: Value, keys: seq<string>, j: nat): Value
    requires j <= |keys|
  {
    if j == 0 then obj else Prop(Reach(obj, keys, j - 1), keys[j - 1])
  }

  lemma {:induction false} ReachShift(obj: Value, keys: seq<string>, j: nat)
    requires 0 < j <= |keys|
    ensures Reach(obj, keys, j) == Reach(Prop(obj, keys[0]), keys[1..], j - 1)
    decreases j
  {
    if j > 1 {
      ReachShift(obj, keys, j - 1);
    }
  }

  /** Once the walk meets `undefined` or `null` before the last key, the result
      is `undefined`, and no error is raised for `null`. */
  lemma {:induction false} WalkShortCircuits(obj: Value, keys: seq<string>, j: nat)
    requires j < |keys|
    requires Reach(obj, keys, j) == Undefined || Reach(obj, keys, j) == Null
    ensures Walk(obj, keys) == Undefined
    decreases j
  {
    if j == 0 {
      assert Walk(obj, keys) == Walk(Undefined, keys[1..]);
    } else if obj == Undefined || obj == Null {
      assert Walk(obj, keys) == Walk(Undefined, keys[1..]) || Walk(obj, keys) == Undefined;
    } else {
      ReachShift(obj, keys, j);
      WalkShortCircuits(Prop(obj, keys[0]), keys[1..], j - 1);
    }
  }

  /** Through a chain of objects the walk reads the keys in order. */
  lemma {:induction false} WalkFollowsKeys(obj: Value, keys: seq<string>)
    requires forall j :: 0 <= j < |keys| ==> Reach(obj, keys, j).Obj?
    ensures Walk(obj, keys) == Reach(obj, keys, |keys|)
    decreases |keys|
  {
    if keys != [] {
      assert Reach(obj, keys, 0).Obj?;
      ChainTail(obj, keys);
      WalkFollowsKeys(Prop(obj, keys[0]), keys[1..]);
      ReachShift(obj, keys, |keys|);
    }
  }

  /** A chain of objects stays a chain after its first key. */
  lemma ChainTail(obj: Value, keys: seq<string>)
    requires keys != []
    requires forall j :: 0 <= j < |keys| ==> Reach(obj, keys, j).Obj?
    ensures forall j :: 0 <= j < |keys| - 1 ==> Reach(Prop(obj, keys[0]), keys[1..], j).Obj?
  {
    forall j | 0 <= j < |keys| - 1
      ensures Reach(Prop(obj, keys[0]), keys[1..], j).Obj?
    {
      ReachShiftSucc(obj, keys, j);
      assert Reach(obj, keys, j + 1).Obj?;
    }
  }

  lemma ReachShiftSucc(obj: Value, keys: seq<string>, j: nat)
    requires j < |keys|
    ensures Reach(obj, keys, j + 1) == Reach(Prop(obj, keys[0]), keys[1..], j)
  {
    ReachShift(obj, keys, j + 1);
  }

  /** Looking a valid path up on `undefined` or `null` gives `undefined`. */
  lemma LookupOnNothing(obj: Value, path: string)
    requires IsValidDottedPath(path)
    requires obj == Undefined || obj == Null
    ensures LookupDottedPath(obj, path) == Ok(Undefined)
  {
    WalkShortCircuits(obj, Split(path, '.'), 0);
  }
}

=== FILE: query_string.dfy ===
/** Query-string assembly: `objToUrl` (index.js:98-107), the recursive bracketed
    serialisation of `config.params`, and the choice of `?`, `&` or nothing
    between the URL and that string in `Resource.getUrl` (index.js:304-319). */
module QueryString {
  import opened Chars
  import opened Text
  import opened Results
  import opened JsValues
  import opened UriEncoding
  import opened UriProperties

  /** `prefix ? prefix + "[" + p + "]" : p`: an empty prefix is falsy. */
  function NestedKey(prefix: string, p: string): string {
    if prefix != "" then prefix + "[" + p + "]" else p
  }

  /** The pieces `objToUrl` pushes, one per property, in `for-in` order. */
  function Pieces(fields: Fields, prefix: string): (ps: seq<string>)
    ensures |ps| == |Enumerate(fields)|
    decreases fields, 1
  {
    PropertyPieces(Enumerate(fields), fields, prefix)
  }

  /** The pieces of the properties `es` still to visit, all taken from the
      object `within`. */
  function PropertyPieces(es: Fields, within: Fields, prefix: string): (ps: seq<string>)
    requires forall e :: e in es ==> e in within
    ensures |ps| == |es|
    decreases within, 0, |es|
  {
    if es == [] then []
    else
      assert es[0] in es;
      [Piece(es[0], prefix)] + PropertyPieces(es[1..], within, prefix)
  }

  /** One property's piece: a nested object (or `null`, whose `for-in` visits
      nothing) is serialised recursively under the bracketed key; anything else
      becomes `key=value`, both encoded. */
  function Piece(e: (string, Value), prefix: string): string
    decreases e
  {
    var k := NestedKey(prefix, e.0);
    if e.1.Obj? then Join(Pieces(e.1.fields, k), "&")
    else if e.1.Null? then ""
    else EncodeUriComponent(k) + "=" + EncodeUriComponent(ToJsString(e.1))
  }

  /** `objToUrl(obj, prefix)` for an object with these entries. */
  function ObjToUrl(fields: Fields, prefix: string): string {
    Join(Pieces(fields, prefix), "&")
  }

  /** `objToUrl(config.params || {})`: no parameters give the empty string. The
      source's `config.params` is always an object or absent here. */
  function QueryOf(params: Value): string {
    if params.Obj? then ObjToUrl(params.fields, "") else ""
  }

  // ---------------------------------------------------------------------------
  // What the serialisation means
  // ---------------------------------------------------------------------------

  /** Objects the serialisation can be read back from: no `null` values and no
      empty nested objects, both of which leave an empty piece behind. */
  predicate Serialisable(fields: Fields)
    decreases fields
  {
    forall e :: e in fields ==> SerialisableEntry(e)
  }

  predicate SerialisableEntry(e: (string, Value))
    decreases e
  {
    e.1 != Null && (e.1.Obj? ==> |e.1.fields| > 0 && Serialisable(e.1.fields))
  }

  /** The flattened properties: the bracketed key path of every leaf and the
      string its value converts to, in `for-in` order. */
  function Leaves(fields: Fields, prefix: string): (es: seq<(string, string)>)
    decreases fields, 1
  {
    PropertyLeaves(Enumerate(fields), fields, prefix)
  }

  function PropertyLeaves(es: Fields, within: Fields, prefix: string): (ls: seq<(string, string)>)
    requires forall e :: e in es ==> e in within
    decreases within, 0, |es|
  {
    if es == [] then []
    else
      assert es[0] in es;
      EntryLeaves(es[0], prefix) + PropertyLeaves(es[1..], within, prefix)
  }

  function EntryLeaves(e: (string, Value), prefix: string): (es: seq<(string, string)>)
    decreases e
  {
    var k := NestedKey(prefix, e.0);
    if e.1.Obj? then Leaves(e.1.fields, k) else [(k, ToJsString(e.1))]
  }

  function EncodePair(e: (string, string)): string {
    EncodeUriComponent(e.0) + "=" + EncodeUriComponent(e.1)
  }

  function EncodePairs(es: seq<(string, string)>): (ps: seq<string>)
    ensures |ps| == |es|
    ensures forall i :: 0 <= i < |es| ==> ps[i] == EncodePair(es[i])
  {
    if es == [] then [] else [EncodePair(es[0])] + EncodePairs(es[1..])
  }

  lemma EncodePairsAppend(a: seq<(string, string)>, b: seq<(string, string)>)
    ensures EncodePairs(a + b) == EncodePairs(a) + EncodePairs(b)
  {
  }

  lemma {:induction false} JoinAppend(a: seq<string>, b: seq<string>, sep: string)
    requires |a| > 0 && |b| > 0
    ensures Join(a + b, sep) == Join(a, sep) + sep + Join(b, sep)
    decreases |a|
  {
    if |a| == 1 {
      assert (a + b)[1..] == b;
    } else {
      JoinAppend(a[1..], b, sep);
      assert (a + b)[1..] == a[1..] + b;
    }
  }

  /** A non-empty object has a first property to visit, and every property
      it visits is one of its entries. */
  lemma EnumerateNonEmpty(fields: Fields)
    requires |fields| > 0
    ensures |Enumerate(fields)| > 0
  {
    EnumerateGet(fields, fields[0].0);
    assert Has(fields, fields[0].0);
  }

  lemma {:induction false} LeavesNonEmpty(fields: Fields, prefix: string)
    requires |fields| > 0 && Serialisable(fields)
    ensures |Leaves(fields, prefix)| > 0
    decreases fields, 1
  {
    EnumerateNonEmpty(fields);
    var e := Enumerate(fields)[0];
    assert e in fields;
    EntryLeavesNonEmpty(e, prefix);
  }

  lemma {:induction false} EntryLeavesNonEmpty(e: (string, Value), prefix: string)
    requires SerialisableEntry(e)
    ensures |EntryLeaves(e, prefix)| > 0
    decreases e
  {
    if e.1.Obj? {
      LeavesNonEmpty(e.1.fields, NestedKey(prefix, e.0));
    }
  }

  /** Serialising a (serialisable, non-empty) object writes the encoded leaves,
      joined by `&`: the nesting shows only in the bracketed keys. */
  lemma {:induction false} ObjToUrlLeaves(fields: Fields, prefix: string)
    requires |fields| > 0 && Serialisable(fields)
    ensures ObjToUrl(fields, prefix) == Join(EncodePairs(Leaves(fields, prefix)), "&")
    decreases fields, 1
  {
    EnumerateNonEmpty(fields);
    PropertyPiecesLeaves(Enumerate(fields), fields, prefix);
  }

  lemma {:induction false} PropertyPiecesLeaves(es: Fields, within: Fields, prefix: string)
    requires es != [] && forall e :: e in es ==> e in within && SerialisableEntry(e)
    ensures Join(PropertyPieces(es, within, prefix), "&")
      == Join(EncodePairs(PropertyLeaves(es, within, prefix)), "&")
    decreases within, 0, |es|
  {
    var head := EntryLeaves(es[0], prefix);
    var rest := es[1..];
    assert es[0] in es;
    assert forall e :: e in rest ==> e in es;
    PieceLeaves(es[0], prefix);
    EncodePairsAppend(head, PropertyLeaves(rest, within, prefix));
    if rest == [] {
      assert PropertyLeaves(es, within, prefix) == head;
    } else {
      PropertyPiecesLeaves(rest, within, prefix);
      EntryLeavesNonEmpty(es[0], prefix);
      EntryLeavesNonEmpty(rest[0], prefix);
      JoinAppend(EncodePairs(head), EncodePairs(PropertyLeaves(rest, within, prefix)), "&");
      assert PropertyPieces(es, within, prefix) == [Piece(es[0], prefix)] + PropertyPieces(rest, within, prefix);
    }
  }

  lemma {:induction false} PieceLeaves(e: (string, Value), prefix: string)
    requires SerialisableEntry(e)
    ensures Piece(e, prefix) == Join(EncodePairs(EntryLeaves(e, prefix)), "&")
    decreases e
  {
    if e.1.Obj? {
      ObjToUrlLeaves(e.1.fields, NestedKey(prefix, e.0));
    }
  }

  /** Reading a query string back: split at `&`, then each pair at `=`, and
      percent-decode both halves. */
  function ParsePair(part: string): Option<(string, string)> {
    var kv := Split(part, '=');
    if |kv| != 2 then None
    else match (PercentDecode(kv[0], false), PercentDecode(kv[1], false))
      case (Some(k), Some(v)) => Some((k, v))
      case _ => None
  }

  function ParsePairs(parts: seq<string>): Option<seq<(string, string)>> {
    if parts == [] then Some([])
    else match (ParsePair(parts[0]), ParsePairs(parts[1..]))
      case (Some(e), Some(es)) => Some([e] + es)
      case _ => None
  }

  function ParseQuery(s: string): Option<seq<(string, string)>> {
    ParsePairs(Split(s, '&'))
  }

  lemma NoDelimiters(s: string)
    ensures '&' !in EncodeUriComponent(s) && '=' !in EncodeUriComponent(s)
  {
    ComponentAlphabet(s);
    forall i | 0 <= i < |EncodeUriComponent(s)|
      ensures EncodeUriComponent(s)[i] != '&' && EncodeUriComponent(s)[i] != '='
    {
      NotDelimiter(EncodeUriComponent(s)[i]);
    }
  }

  lemma NotDelimiter(c: char)
    requires IsUriUnreserved(c) || c == '%'
    ensures c != '&' && c != '='
  {
  }

  lemma ParseEncodedPair(e: (string, string))
    ensures '&' !in EncodePair(e)
    ensures ParsePair(EncodePair(e)) == Some(e)
  {
    var ek, ev := EncodeUriComponent(e.0), EncodeUriComponent(e.1);
    NoDelimiters(e.0);
    NoDelimiters(e.1);
    SplitAppend(ek, ev, '=');
    SplitNoSeparator(ev, '=');
    ComponentRoundTrip(e.0);
    ComponentRoundTrip(e.1);
    assert EncodePair(e) == ek + ['='] + ev;
  }

  lemma {:induction false} ParseEncodedPairs(es: seq<(string, string)>)
    ensures ParsePairs(EncodePairs(es)) == Some(es)
    decreases |es|
  {
    if es != [] {
      var ps := EncodePairs(es);
      ParseEncodedPair(es[0]);
      ParseEncodedPairs(es[1..]);
      assert ps[0] == EncodePair(es[0]);
      assert ps[1..] == EncodePairs(es[1..]);
      assert ParsePairs(ps) == Some([es[0]] + es[1..]);
      assert [es[0]] + es[1..] == es;
    }
  }

  /** The query string `objToUrl` writes for a serialisable, non-empty object
      reads back as exactly its leaves: every bracketed key path with the string
      form of its value, in order. */
  lemma QueryRoundTrip(fields: Fields)
    requires |fields| > 0 && Serialisable(fields)
    ensures ParseQuery(ObjToUrl(fields, "")) == Some(Leaves(fields, ""))
  {
    var es := Leaves(fields, "");
    ObjToUrlLeaves(fields, "");
    LeavesNonEmpty(fields, "");
    var ps := EncodePairs(es);
    forall i | 0 <= i < |ps|
      ensures '&' !in ps[i]
    {
      ParseEncodedPair(es[i]);
    }
    SplitJoin(ps, '&');
    ParseEncodedPairs(es);
  }

  /** A nested object contributes bracketed keys, encoded like any other key. */
  lemma NestedKeysExample()
    ensures Leaves([("a", Obj([("b", Str("c")), ("d", Bool(true))]))], "") == [("a[b]", "c"), ("a[d]", "true")]
    ensures EncodeUriComponent("a[b]") == "a%5Bb%5D"
  {
    NestedLeaves([("b", Str("c")), ("d", Bool(true))]);
    BracketKeyEncoded("a[b]");
  }

  lemma NestedLeaves(inner: Fields)
    requires inner == [("b", Str("c")), ("d", Bool(true))]
    ensures Leaves([("a", Obj(inner))], "") == [("a[b]", "c"), ("a[d]", "true")]
  {
    LetterKey("a");
    LetterKey("b");
    LetterKey("d");
    NestedOne("a", inner, "");
    FlatTwo(inner[0], inner[1], "a");
    BracketedKeys();
  }

  lemma BracketedKeys()
    ensures NestedKey("", "a") == "a"
    ensures NestedKey("a", "b") == "a[b]" && NestedKey("a", "d") == "a[d]"
  {
  }

  /** A lone nested object is serialised under its bracketed key. */
  lemma NestedOne(k: string, inner: Fields, prefix: string)
    requires !IsIndexKey(k)
    ensures Leaves([(k, Obj(inner))], prefix) == Leaves(inner, NestedKey(prefix, k))
  {
    var e := (k, Obj(inner));
    OneInOrder(k, Obj(inner));
    assert [e][1..] == [] && e in [e];
    assert PropertyLeaves([e], [e], prefix) == EntryLeaves(e, prefix) + PropertyLeaves([], [e], prefix);
  }

  /** Two plain properties with named keys give one leaf each, as written. */
  lemma FlatTwo(x: (string, Value), y: (string, Value), prefix: string)
    requires x.0 != y.0 && !IsIndexKey(x.0) && !IsIndexKey(y.0)
    requires !x.1.Obj? && !y.1.Obj?
    ensures Leaves([x, y], prefix)
      == [(NestedKey(prefix, x.0), ToJsString(x.1)), (NestedKey(prefix, y.0), ToJsString(y.1))]
  {
    TwoInOrder(x, y);
    TwoLeaves(x, y, [x, y], prefix);
  }

  /** A key that starts with anything but a digit is not an array index. */
  lemma LetterKey(k: string)
    requires |k| > 0 && !IsDigit(k[0])
    ensures !IsIndexKey(k)
  {
  }

  /** Distinct keys none of which is an array index are visited as written. */
  lemma NamedInOrder(f: Fields)
    requires UniqueKeys(f) && forall i :: 0 <= i < |f| ==> !IsIndexKey(f[i].0)
    ensures Enumerate(f) == f
  {
    EnumerateNamed(f);
    PropertiesOfUnique(f);
  }

  lemma OneInOrder(k: string, v: Value)
    requires !IsIndexKey(k)
    ensures Enumerate([(k, v)]) == [(k, v)]
  {
    EnumerateNamed([(k, v)]);
    PropertiesOfUnique([(k, v)]);
  }

  /** An object with one named property serialises to that property's piece. */
  lemma OnePiece(e: (string, Value), prefix: string)
    requires !IsIndexKey(e.0)
    ensures ObjToUrl([e], prefix) == Piece(e, prefix)
  {
    OneInOrder(e.0, e.1);
    assert [e][1..] == [] && e in [e];
    assert PropertyPieces([e], [e], prefix) == [Piece(e, prefix)] + PropertyPieces([], [e], prefix);
  }

  /** Two distinct keys, neither an array index, are visited as written. */
  lemma TwoInOrder(x: (string, Value), y: (string, Value))
    requires x.0 != y.0 && !IsIndexKey(x.0) && !IsIndexKey(y.0)
    ensures Enumerate([x, y]) == [x, y]
  {
    EnumerateNamed([x, y]);
    PropertiesOfUnique([x, y]);
  }

  lemma TwoLeaves(x: (string, Value), y: (string, Value), within: Fields, prefix: string)
    requires x in within && y in within
    ensures PropertyLeaves([x, y], within, prefix) == EntryLeaves(x, prefix) + EntryLeaves(y, prefix)
  {
    assert [x, y][1..] == [y] && [y][1..] == [];
    assert forall e :: e in [y] ==> e in within;
    assert PropertyLeaves([y], within, prefix) == EntryLeaves(y, prefix);
  }

  /** An array-index key is serialised before the keys written ahead of it:
      `{b: 'x', 0: 'y'}` gives `0=y&b=x`. */
  lemma IndexKeyFirstExample(f: Fields)
    requires f == [("b", Str("x")), ("0", Str("y"))]
    ensures Leaves(f, "") == [("0", "y"), ("b", "x")]
    ensures ObjToUrl(f, "") == "0=y&b=x"
  {
    ZeroIndexKey();
    LetterKey("b");
    IndexKeyFirst(f[0], f[1]);
    ExampleLeaves(f);
    ExamplePieces(f);
    ExampleQuery(f);
  }

  lemma ExampleLeaves(f: Fields)
    requires f == [("b", Str("x")), ("0", Str("y"))] && Enumerate(f) == [f[1], f[0]]
    ensures Leaves(f, "") == [("0", "y"), ("b", "x")]
  {
    TwoLeaves(f[1], f[0], f, "");
    assert NestedKey("", "0") == "0" && NestedKey("", "b") == "b";
  }

  lemma ExampleQuery(f: Fields)
    requires Pieces(f, "") == ["0=y", "b=x"]
    ensures ObjToUrl(f, "") == "0=y&b=x"
  {
    JoinExample();
  }

  lemma JoinExample()
    ensures Join(["0=y", "b=x"], "&") == "0=y&b=x"
  {
    JoinTwo("0=y", "b=x");
  }

  lemma ExamplePieces(f: Fields)
    requires f == [("b", Str("x")), ("0", Str("y"))] && Enumerate(f) == [f[1], f[0]]
    ensures Pieces(f, "") == ["0=y", "b=x"]
  {
    TwoPieces(f[1], f[0], f, "");
    PlainPieces(f[1], f[0]);
  }

  lemma PlainPieces(x: (string, Value), y: (string, Value))
    requires x == ("0", Str("y")) && y == ("b", Str("x"))
    ensures Piece(x, "") == "0=y" && Piece(y, "") == "b=x"
  {
    assert NestedKey("", "0") == "0" && NestedKey("", "b") == "b";
    KeptLetters();
  }

  lemma JoinTwo(a: string, b: string)
    ensures Join([a, b], "&") == a + "&" + b
  {
    assert [a, b][1..] == [b];
  }

  lemma TwoPieces(x: (string, Value), y: (string, Value), within: Fields, prefix: string)
    requires x in within && y in within
    ensures PropertyPieces([x, y], within, prefix) == [Piece(x, prefix), Piece(y, prefix)]
  {
    assert [x, y][1..] == [y] && [y][1..] == [];
    assert forall e :: e in [y] ==> e in within;
    assert PropertyPieces([y], within, prefix) == [Piece(y, prefix)];
  }

  lemma ZeroIndexKey()
    ensures IsIndexKey("0")
  {
    assert DigitsValue("0") == 0 by {
      assert "0"[..0] == [];
    }
  }

  /** A later array-index key is visited before an earlier named one. */
  lemma IndexKeyFirst(x: (string, Value), y: (string, Value))
    requires !IsIndexKey(x.0) && IsIndexKey(y.0)
    ensures Enumerate([x, y]) == [y, x]
  {
    PropertiesOfUnique([x, y]);
    SplitPair(x, y);
    SortOne(y);
  }

  lemma SplitPair(x: (string, Value), y: (string, Value))
    requires !IsIndexKey(x.0) && IsIndexKey(y.0)
    ensures IndexEntries([x, y]) == [y] && NamedEntries([x, y]) == [x]
  {
    assert [x, y][1..] == [y] && [y][1..] == [];
    assert IndexEntries([y]) == [y] + IndexEntries([]);
    assert NamedEntries([y]) == [] + NamedEntries([]);
  }

  lemma SortOne(y: (string, Value))
    requires IsIndexKey(y.0)
    ensures SortByIndex([y]) == [y]
  {
    assert [y][1..] == [];
  }

  lemma KeptLetters()
    ensures EncodeUriComponent("0") == "0" && EncodeUriComponent("y") == "y"
    ensures EncodeUriComponent("b") == "b" && EncodeUriComponent("x") == "x"
  {
    ComponentKeepsUnreserved("0");
    ComponentKeepsUnreserved("y");
    ComponentKeepsUnreserved("b");
    ComponentKeepsUnreserved("x");
  }

  lemma BracketKeyEncoded(k: string)
    requires k == "a[b]"
    ensures EncodeUriComponent(k) == "a%5Bb%5D"
  {
    assert k == "a" + "[" + "b" + "]";
    ComponentKeepsUnreserved("a");
    ComponentKeepsUnreserved("b");
    BracketsEscaped();
    ComponentAppend("a", "[");
    ComponentAppend("a" + "[", "b");
    ComponentAppend("a" + "[" + "b", "]");
  }

  lemma BracketsEscaped()
    ensures EncodeUriComponent("[") == "%5B" && EncodeUriComponent("]") == "%5D"
  {
    assert Utf8('[') == [0x5B] && Utf8(']') == [0x5D];
    assert PctBytes([0x5B]) == PctByte(0x5B) + PctBytes([]);
    assert PctBytes([0x5D]) == PctByte(0x5D) + PctBytes([]);
  }

  // ---------------------------------------------------------------------------
  // Joining the URL and the query string
  // ---------------------------------------------------------------------------

  /** The tail of `getUrl`: with a query string, `?` when the URL has none yet,
      `&` when it has one that is not its last character, nothing when it ends
      with `?`. */
  function AppendQuery(url: string, query: string): (r: string)
    ensures query == "" ==> r == url
    ensures query != "" && '?' !in url ==> r == url + "?" + query
    ensures query != "" && '?' in url && url[|url| - 1] != '?' ==> r == url + "&" + query
    ensures query != "" && |url| > 0 && url[|url| - 1] == '?' ==> r == url + query
  {
    if query == [] then url
    else match IndexOf(url, "?", 0)
      case None =>
        assert '?' !in url by {
          forall i | 0 <= i < |url|
            ensures url[i] != '?'
          {
            assert !MatchesAt(url, i, "?", false);
            assert url[i..i + 1] == [url[i]];
          }
        }
        url + "?" + query
      case Some(i) =>
        assert url[i..i + 1] == "?";
        assert url[i] == '?';
        if url[|url| - 1] != '?' then url + "&" + query else url + query
  }

  /** The shape `getUrl` gives its result: the URL alone when the query
      string is empty, and otherwise the URL, at most one joining character,
      and the query string. */
  predicate QueryFramed(url: string, query: string, r: string) {
    && (query == "" ==> r == url)
    && (query != "" ==> url <= r && |r| - |url| - |query| <= 1
                        && |query| <= |r| && r[|r| - |query|..] == query)
  }

  /** Whatever the joiner, the URL is kept as a prefix and the query string as a
      suffix, with at most one character between them. */
  lemma AppendQueryFrames(url: string, query: string)
    ensures QueryFramed(url, query, AppendQuery(url, query))
  {
  }

  /** `getUrl` adds a `?` only where the URL has none, and only as the joiner:
      every `?` after the URL's own text sits at the joiner's position, and the
      result always has one. */
  lemma AppendQueryOneQuestionMark(url: string, query: string)
    requires query != "" && '?' !in query
    ensures var r := AppendQuery(url, query);
      '?' in r && forall j :: |url| <= j < |r| && r[j] == '?' ==> j == |url| && '?' !in url
  {
    var r := AppendQuery(url, query);
    if '?' !in url {
      assert r[|url|] == '?';
      assert forall j :: |url| < j < |r| ==> r[j] == query[j - |url| - 1];
    } else {
      var k :| 0 <= k < |url| && url[k] == '?';
      assert r[k] == '?';
      if url[|url| - 1] != '?' {
        assert r[|url|] == '&';
        assert forall j :: |url| < j < |r| ==> r[j] == query[j - |url| - 1];
      } else {
        assert forall j :: |url| <= j < |r| ==> r[j] == query[j - |url|];
      }
    }
  }
}

=== FILE: resource.dfy ===
/** The service and its resource factory (index.js:82-96, 109-135, 200-330):
    the default configuration, the merged actions table, parameter extraction,
    `processMethod`, `getConfig`, `getUrl`, the per-action wrappers and the
    instance copy. */
module Resources {
  import opened Chars
  import opened Text
  import opened Results
  import opened JsValues
  import opened DottedPath
  import opened Template
  import opened Routes
  import opened QueryString
  import opened Arguments

  // ---------------------------------------------------------------------------
  // Service defaults
  // ---------------------------------------------------------------------------

  function MethodAction(m: string): Value {
    Obj([("method", Str(m))])
  }

  /** The actions every service starts with. */
  const DefaultActions: Fields := [
    ("get", MethodAction("GET")),
    ("save", MethodAction("POST")),
    ("query", MethodAction("GET")),
    ("remove", MethodAction("DELETE")),
    ("delete", MethodAction("DELETE"))
  ]

  /** The built-in service defaults: strip trailing slashes, and the actions above. */
  const BuiltinDefaults: Fields := [("stripTrailingSlashes", Bool(true)), ("actions", Obj(DefaultActions))]

  /** `new Service(providerDefaults).defaults`: the provider's entries laid over
      the built-in ones, one level deep (a provider `actions` object replaces the
      whole built-in table). */
  function ServiceDefaults(providerDefaults: Value): (r: Fields)
    ensures forall k ::
      Get(r, k) == (if providerDefaults.Obj? && Has(providerDefaults.fields, k) then Get(providerDefaults.fields, k)
                    else Get(BuiltinDefaults, k))
  {
    var r := Overlay(BuiltinDefaults, providerDefaults);
    forall k
      ensures Get(r, k) ==
        if providerDefaults.Obj? && Has(providerDefaults.fields, k) then Get(providerDefaults.fields, k)
        else Get(BuiltinDefaults, k)
    {
      OverlayGet(BuiltinDefaults, providerDefaults, k);
    }
    r
  }

  /** `/^(POST|PUT|PATCH)$/i.test(action.method)`: the method, converted to a
      string, is one of the three body-carrying methods up to letter case. */
  predicate HasBody(action: Value) {
    var m := ToJsString(Prop(action, "method"));
    EqualIgnoringCase(m, "POST") || EqualIgnoringCase(m, "PUT") || EqualIgnoringCase(m, "PATCH")
  }

  lemma EqualIgnoringCaseUpper(m: string, w: string)
    requires forall i :: 0 <= i < |w| ==> IsUpper(w[i])
    ensures EqualIgnoringCase(m, w) <==> ToUpperString(m) == w
  {
    if EqualIgnoringCase(m, w) {
      assert forall i :: 0 <= i < |w| ==> ToUpperString(m)[i] == w[i];
    }
  }

  /** The body rule read the other way: upper-case the method and compare. */
  lemma HasBodyByUpperCase(action: Value)
    ensures var u := ToUpperString(ToJsString(Prop(action, "method")));
      HasBody(action) <==> u == "POST" || u == "PUT" || u == "PATCH"
  {
    BodyMethodsUpper();
    EqualIgnoringCaseUpper(ToJsString(Prop(action, "method")), "POST");
    EqualIgnoringCaseUpper(ToJsString(Prop(action, "method")), "PUT");
    EqualIgnoringCaseUpper(ToJsString(Prop(action, "method")), "PATCH");
  }

  lemma BodyMethodsUpper()
    ensures forall i :: 0 <= i < |"POST"| ==> IsUpper("POST"[i])
    ensures forall i :: 0 <= i < |"PUT"| ==> IsUpper("PUT"[i])
    ensures forall i :: 0 <= i < |"PATCH"| ==> IsUpper("PATCH"[i])
  {
  }

  /** Without provider defaults a service strips trailing slashes and starts
      from the five built-in actions. */
  lemma BuiltinServiceDefaults()
    ensures ServiceDefaults(Undefined) == BuiltinDefaults
    ensures Truthy(Get(ServiceDefaults(Undefined), "stripTrailingSlashes"))
    ensures Get(ServiceDefaults(Undefined), "actions") == Obj(DefaultActions)
  {
    assert UniqueKeys(BuiltinDefaults);
    GetUnique(BuiltinDefaults, 0);
    GetUnique(BuiltinDefaults, 1);
  }

  /** Of the built-in actions only `save` carries a body. */
  lemma DefaultActionBodies()
    ensures HasBody(Get(DefaultActions, "save"))
    ensures !HasBody(Get(DefaultActions, "get")) && !HasBody(Get(DefaultActions, "query"))
    ensures !HasBody(Get(DefaultActions, "remove")) && !HasBody(Get(DefaultActions, "delete"))
  {
    assert UniqueKeys(DefaultActions);
    GetUnique(DefaultActions, 0);
    GetUnique(DefaultActions, 1);
    GetUnique(DefaultActions, 2);
    GetUnique(DefaultActions, 3);
    GetUnique(DefaultActions, 4);
    MethodBodies();
  }

  lemma MethodBodies()
    ensures HasBody(MethodAction("POST"))
    ensures !HasBody(MethodAction("GET")) && !HasBody(MethodAction("DELETE"))
  {
    assert Prop(MethodAction("POST"), "method") == Str("POST");
    assert EqualIgnoringCase("POST", "POST");
    assert ToUpper("GET"[0]) != ToUpper("PUT"[0]);
  }

  /** Letter case does not matter, extra letters do, and an action without a
      method has no body. */
  lemma HasBodyCaseExamples()
    ensures HasBody(MethodAction("patch")) && !HasBody(MethodAction("POSTS"))
    ensures !HasBody(Obj([]))
  {
    assert ToJsString(Prop(Obj([]), "method")) == "undefined";
    assert Prop(MethodAction("patch"), "method") == Str("patch");
    assert Prop(MethodAction("POSTS"), "method") == Str("POSTS");
    assert ToUpper("POSTS"[1]) != ToUpper("PATCH"[1]);
    assert ToUpper('p') == 'P' && ToUpper('a') == 'A' && ToUpper('t') == 'T' && ToUpper('c') == 'C' && ToUpper('h') == 'H';
    assert EqualIgnoringCase("patch", "PATCH");
  }

  // ---------------------------------------------------------------------------
  // The resource factory
  // ---------------------------------------------------------------------------

  /** A resource: its route, its parameter defaults and its actions table. */
  datatype Resource = Resource(route: Route, paramDefaults: Value, actions: Fields)

  predicate IsNothing(v: Value) {
    v == Null || v == Undefined
  }

  /** `extend({}, provider.defaults.actions, actions)`: the caller's actions win,
      the service's fill in, and every name appears once. A function `actions`
      is the assign callback instead: every service action becomes what it
      returns. */
  function MergeActions(serviceDefaults: Fields, actions: Value): (r: Fields)
    ensures UniqueKeys(r)
    ensures forall k :: Has(r, k) <==>
      (actions.Obj? && Has(actions.fields, k)) || Has(Overlay([], Get(serviceDefaults, "actions")), k)
    ensures forall k ::
      Get(r, k) == (if actions.Fn? then (if Has(r, k) then actions.result else Undefined)
                    else if actions.Obj? && Has(actions.fields, k) then Get(actions.fields, k)
                    else Prop(Get(serviceDefaults, "actions"), k))
  {
    var base := Get(serviceDefaults, "actions");
    var r := Extend(base, actions);
    forall k
      ensures Has(r, k) <==> (actions.Obj? && Has(actions.fields, k)) || Has(Overlay([], base), k)
    {
      OverlayGet([], base, k);
    }
    r
  }

  /** `resourceFactory(url, paramDefaults, actions, options)`: the wrappers
      loop (`forEach(actions, ...)`) reads `action.method` of every action it
      visits, which fails on `null` or `undefined`. A merged table with a
      numeric `length` is walked by index, so only its index entries get a
      wrapper. */
  function ResourceFactory(serviceDefaults: Fields, url: Value, paramDefaults: Value, actions: Value, options: Value): (r: Result<Resource>)
    ensures var merged := Obj(MergeActions(serviceDefaults, actions));
      r.Err? <==> exists name :: Visits(merged, name) && IsNothing(Visited(merged, name))
    ensures var merged := MergeActions(serviceDefaults, actions);
      !IsArrayLike(Obj(merged)) ==> (r.Err? <==> exists i :: 0 <= i < |merged| && IsNothing(merged[i].1))
    ensures r.Err? ==> r.error == TypeError
    ensures r.Ok? ==> r.value.route.template == url && r.value.paramDefaults == paramDefaults
    ensures r.Ok? ==> forall k ::
      Get(r.value.route.defaults, k) == (if options.Fn? then (if Has(serviceDefaults, k) then options.result else Undefined)
                                         else if options.Obj? && Has(options.fields, k) then Get(options.fields, k)
                                         else Get(serviceDefaults, k))
    ensures r.Ok? ==> forall name :: Visits(Obj(r.value.actions), name) ==> !IsNothing(Visited(Obj(r.value.actions), name))
  {
    var merged := MergeActions(serviceDefaults, actions);
    var walk := ForEachEntries(Obj(merged));
    WrappersFail(merged);
    PlainWrappersFail(merged);
    if exists i :: 0 <= i < |walk| && IsNothing(walk[i].1) then Err(TypeError)
    else Ok(Resource(NewRoute(url, serviceDefaults, options), paramDefaults, merged))
  }

  /** The wrappers loop meets a missing action exactly when some visited name
      holds one. */
  lemma WrappersFail(merged: Fields)
    ensures var walk := ForEachEntries(Obj(merged));
      (exists i :: 0 <= i < |walk| && IsNothing(walk[i].1)) <==> exists name :: Visits(Obj(merged), name) && IsNothing(Visited(Obj(merged), name))
  {
    var v := Obj(merged);
    var walk := ForEachEntries(v);
    if i :| 0 <= i < |walk| && IsNothing(walk[i].1) {
      var name := walk[i].0;
      ForEachGet(v, name);
      GetUnique(walk, i);
      assert Has(walk, name);
    }
    if name :| Visits(v, name) && IsNothing(Visited(v, name)) {
      ForEachGet(v, name);
      var i :| 0 <= i < |walk| && walk[i].0 == name;
      GetUnique(walk, i);
    }
  }

  /** Without a numeric `length`, a visited name holds a missing action
      exactly when some entry does. */
  lemma PlainWrappersFail(merged: Fields)
    requires UniqueKeys(merged)
    ensures !IsArrayLike(Obj(merged)) ==>
      ((exists name :: Visits(Obj(merged), name) && IsNothing(Visited(Obj(merged), name)))
        <==> exists i :: 0 <= i < |merged| && IsNothing(merged[i].1))
  {
    if !IsArrayLike(Obj(merged)) {
      if name :| Visits(Obj(merged), name) && IsNothing(Visited(Obj(merged), name)) {
        var j :| 0 <= j < |merged| && merged[j].0 == name;
        GetUnique(merged, j);
      }
      if j :| 0 <= j < |merged| && IsNothing(merged[j].1) {
        GetUnique(merged, j);
        assert Visits(Obj(merged), merged[j].0);
      }
    }
  }

  /** The resource the factory builds holds the merged actions: a caller action
      of the same name replaces a built-in one, the others stay; a function in
      place of the actions replaces every built-in one by its return value. */
  lemma FactoryActions(url: Value, paramDefaults: Value, actions: Value, options: Value, name: string)
    requires ResourceFactory(BuiltinDefaults, url, paramDefaults, actions, options).Ok?
    ensures var res := ResourceFactory(BuiltinDefaults, url, paramDefaults, actions, options).value;
      && (Has(res.actions, name) <==> Has(DefaultActions, name) || (actions.Obj? && Has(actions.fields, name)))
      && Get(res.actions, name) ==
           if actions.Fn? then (if Has(DefaultActions, name) then actions.result else Undefined)
           else if actions.Obj? && Has(actions.fields, name) then Get(actions.fields, name)
           else Get(DefaultActions, name)
  {
    assert Get(BuiltinDefaults, "actions") == Obj(DefaultActions);
    OverlayGet([], Obj(DefaultActions), name);
  }

  // ---------------------------------------------------------------------------
  // Parameter extraction
  // ---------------------------------------------------------------------------

  /** A function-valued parameter default is called; other values stand. */
  function Evaluate(v: Value): Value {
    if v.Fn? then v.result else v
  }

  /** `value && value.charAt && value.charAt(0) == '@'`: a string starting with `@`. */
  predicate IsExtractor(v: Value) {
    v.Str? && |v.str| > 0 && v.str[0] == '@'
  }

  /** One parameter of `extractParams`: an `@path` extractor reads the path
      from the request body; anything else is the parameter's value. */
  function ResolveParam(data: Value, v: Value): (r: Result<Value>)
    ensures !IsExtractor(Evaluate(v)) ==> r == Ok(Evaluate(v))
    ensures IsExtractor(Evaluate(v)) ==> (r.Err? <==> !IsValidDottedPath(Evaluate(v).str[1..]))
    ensures r.Err? ==> r.error == BadMember(Evaluate(v).str[1..])
  {
    var u := Evaluate(v);
    if IsExtractor(u) then LookupDottedPath(data, u.str[1..]) else Ok(u)
  }

  /** An `@key` extractor whose key is an identifier reads that key of the body. */
  lemma ExtractorReadsBody(fields: Fields, key: string)
    requires IsIdentifier(key) && key != "hasOwnProperty"
    ensures ResolveParam(Obj(fields), Str("@" + key)) == Ok(Get(fields, key))
  {
    assert ("@" + key)[1..] == key;
    assert '.' !in key by {
      assert forall i :: 0 <= i < |key| ==> IsIdentChar(key[i]);
    }
    SplitNoSeparator(key, '.');
    assert AllIdentifiers([key]);
    ValidDottedPathGrammar(key);
    assert Walk(Obj(fields), [key]) == Walk(Get(fields, key), []);
  }

  /** The `forEach` of `extractParams`, writing into `ids`. */
  function ResolveInto(data: Value, entries: Fields, ids: Fields): (r: Result<Fields>)
    ensures r.Err? <==> exists i :: 0 <= i < |entries| && ResolveParam(data, entries[i].1).Err?
    ensures r.Err? ==> r.error.BadMember?
    decreases |entries|
  {
    if entries == [] then Ok(ids)
    else
      var v :- ResolveParam(data, entries[0].1);
      assert forall i :: 1 <= i < |entries| ==> entries[i] == entries[1..][i - 1];
      ResolveInto(data, entries[1..], Set(ids, entries[0].0, v))
  }

  /** Entry `i` is the first whose parameter does not resolve. */
  predicate FirstFailure(data: Value, entries: Fields, i: nat)
    requires i < |entries|
  {
    && ResolveParam(data, entries[i].1).Err?
    && forall j :: 0 <= j < i ==> ResolveParam(data, entries[j].1).Ok?
  }

  /** The first parameter that fails stops the `forEach` with its error. */
  lemma ResolveIntoFirstFailure(data: Value, entries: Fields, ids: Fields)
    requires ResolveInto(data, entries, ids).Err?
    ensures exists i :: 0 <= i < |entries| && FirstFailure(data, entries, i) && ResolveInto(data, entries, ids).error == ResolveParam(data, entries[i].1).error
  {
    var i := FirstFailureAt(data, entries, ids);
  }

  lemma {:induction false} FirstFailureAt(data: Value, entries: Fields, ids: Fields) returns (i: nat)
    requires ResolveInto(data, entries, ids).Err?
    ensures i < |entries| && FirstFailure(data, entries, i)
    ensures ResolveInto(data, entries, ids).error == ResolveParam(data, entries[i].1).error
    decreases |entries|
  {
    if ResolveParam(data, entries[0].1).Err? {
      ResolveIntoStops(data, entries, ids);
      i := 0;
    } else {
      var ids' := Set(ids, entries[0].0, ResolveParam(data, entries[0].1).value);
      ResolveIntoStep(data, entries, ids);
      var k := FirstFailureAt(data, entries[1..], ids');
      i := k + 1;
      FirstFailureShift(data, entries, k);
    }
  }

  lemma ResolveIntoStops(data: Value, entries: Fields, ids: Fields)
    requires entries != [] && ResolveParam(data, entries[0].1).Err?
    ensures FirstFailure(data, entries, 0)
    ensures ResolveInto(data, entries, ids) == Err(ResolveParam(data, entries[0].1).error)
  {
  }

  lemma ResolveIntoStep(data: Value, entries: Fields, ids: Fields)
    requires entries != [] && ResolveParam(data, entries[0].1).Ok?
    ensures ResolveInto(data, entries, ids)
      == ResolveInto(data, entries[1..], Set(ids, entries[0].0, ResolveParam(data, entries[0].1).value))
  {
  }

  lemma FirstFailureShift(data: Value, entries: Fields, k: nat)
    requires entries != [] && ResolveParam(data, entries[0].1).Ok?
    requires k < |entries[1..]| && FirstFailure(data, entries[1..], k)
    ensures k + 1 < |entries| && FirstFailure(data, entries, k + 1)
    ensures entries[k + 1] == entries[1..][k]
  {
    forall j | 0 <= j < k + 1
      ensures ResolveParam(data, entries[j].1).Ok?
    {
      if j > 0 {
        assert entries[j] == entries[1..][j - 1];
      }
    }
  }

  lemma {:induction false} ResolveIntoGet(data: Value, entries: Fields, ids: Fields, k: string)
    requires ResolveInto(data, entries, ids).Ok?
    ensures Has(entries, k) ==> ResolveParam(data, Get(entries, k)).Ok?
    ensures Get(ResolveInto(data, entries, ids).value, k)
      == if Has(entries, k) then ResolveParam(data, Get(entries, k)).value else Get(ids, k)
    ensures Has(ResolveInto(data, entries, ids).value, k) <==> Has(entries, k) || Has(ids, k)
    decreases |entries|
  {
    if entries != [] {
      var (key, raw) := entries[0];
      var v := ResolveParam(data, raw).value;
      var ids' := Set(ids, key, v);
      assert ResolveInto(data, entries, ids) == ResolveInto(data, entries[1..], ids');
      ResolveIntoGet(data, entries[1..], ids', k);
      if key == k {
        GetSetSame(ids, k, v);
        GetLastEntry(entries, k);
        assert Has(entries, k) by {
          assert entries[0].0 == k;
        }
      } else {
        GetSetOther(ids, key, v, k);
        GetSkipsFirst(entries, k);
      }
    }
  }

  /** The parameters `extractParams` merges, `extend({}, paramDefaults,
      actionParams)`: the resource's defaults with the action's parameters over
      them, or each default replaced by the return value of a function
      `actionParams`. */
  function ActionParamEntries(paramDefaults: Value, actionParams: Value): Fields {
    Extend(paramDefaults, actionParams)
  }

  /** The raw value `extractParams` sees for a key: the action's parameter
      beats the resource's default, and a function in place of the action's
      parameters replaces each default by its return value. */
  function RawParam(paramDefaults: Value, actionParams: Value, k: string): Value {
    if actionParams.Fn? then (if paramDefaults.Obj? && Has(paramDefaults.fields, k) then actionParams.result else Undefined)
    else if actionParams.Obj? && Has(actionParams.fields, k) then Get(actionParams.fields, k)
    else Prop(paramDefaults, k)
  }

  lemma ActionParamEntriesGet(paramDefaults: Value, actionParams: Value, k: string)
    ensures var entries := ActionParamEntries(paramDefaults, actionParams);
      && (Has(entries, k) <==> (actionParams.Obj? && Has(actionParams.fields, k)) || (paramDefaults.Obj? && Has(paramDefaults.fields, k)))
      && Get(entries, k) == RawParam(paramDefaults, actionParams, k)
  {
  }

  /** `extractParams(data, actionParams)`: `forEach` visits the merged
      parameters, in property order, or by index when they carry a numeric
      `length`. */
  function ExtractParams(paramDefaults: Value, data: Value, actionParams: Value): (r: Result<Fields>)
    ensures var merged := Obj(ActionParamEntries(paramDefaults, actionParams));
      r.Err? <==> exists k :: Visits(merged, k) && ResolveParam(data, Visited(merged, k)).Err?
    ensures var order := ForEachEntries(Obj(ActionParamEntries(paramDefaults, actionParams)));
      r.Err? ==> exists i :: 0 <= i < |order| && FirstFailure(data, order, i) && r.error == ResolveParam(data, order[i].1).error
    ensures r.Err? ==> r.error.BadMember?
  {
    var merged := Obj(ActionParamEntries(paramDefaults, actionParams));
    var order := ForEachEntries(merged);
    var r := ResolveInto(data, order, []);
    ExtractFailsOnSomeKey(data, merged);
    if r.Err? then
      ResolveIntoFirstFailure(data, order, []);
      r
    else r
  }

  lemma ExtractFailsOnSomeKey(data: Value, v: Value)
    ensures (exists i :: 0 <= i < |ForEachEntries(v)| && ResolveParam(data, ForEachEntries(v)[i].1).Err?)
      <==> exists k :: Visits(v, k) && ResolveParam(data, Visited(v, k)).Err?
  {
    var order := ForEachEntries(v);
    if i :| 0 <= i < |order| && ResolveParam(data, order[i].1).Err? {
      var k := order[i].0;
      ForEachGet(v, k);
      GetUnique(order, i);
      assert Has(order, k);
    }
    if k :| Visits(v, k) && ResolveParam(data, Visited(v, k)).Err? {
      ForEachGet(v, k);
      var i :| 0 <= i < |order| && order[i].0 == k;
      GetUnique(order, i);
    }
  }

  /** The extracted keys are the keys `forEach` visits: the action's and the
      defaults' own keys, or the indices below a numeric `length`. Every
      extracted parameter is resolved from the action's own parameter of that
      name, or else from the resource's default. */
  lemma ExtractParamsGet(paramDefaults: Value, data: Value, actionParams: Value, k: string)
    requires ExtractParams(paramDefaults, data, actionParams).Ok?
    ensures var raw := RawParam(paramDefaults, actionParams, k);
      var merged := Obj(ActionParamEntries(paramDefaults, actionParams));
      var ids := ExtractParams(paramDefaults, data, actionParams).value;
      && (Has(ids, k) <==> Visits(merged, k))
      && (!IsArrayLike(merged) ==>
            (Has(ids, k) <==> (actionParams.Obj? && Has(actionParams.fields, k)) || (paramDefaults.Obj? && Has(paramDefaults.fields, k))))
      && (Has(ids, k) ==> ResolveParam(data, raw).Ok? && Get(ids, k) == ResolveParam(data, raw).value)
  {
    var entries := ActionParamEntries(paramDefaults, actionParams);
    var ids := ExtractParams(paramDefaults, data, actionParams).value;
    ExtractResolves(paramDefaults, data, actionParams);
    ResolvedVisits(data, Obj(entries), ids, k);
    ActionParamEntriesGet(paramDefaults, actionParams, k);
    if !IsArrayLike(Obj(entries)) {
      assert Visits(Obj(entries), k) <==> Has(entries, k);
    }
    if Has(ids, k) {
      assert Visited(Obj(entries), k) == Get(entries, k);
    }
  }

  lemma ExtractResolves(paramDefaults: Value, data: Value, actionParams: Value)
    ensures ExtractParams(paramDefaults, data, actionParams)
      == ResolveInto(data, ForEachEntries(Obj(ActionParamEntries(paramDefaults, actionParams))), [])
  {
  }

  /** Resolving what `forEach` visits yields exactly the visited keys. */
  lemma ResolvedVisits(data: Value, v: Value, ids: Fields, k: string)
    requires ResolveInto(data, ForEachEntries(v), []) == Ok(ids)
    ensures Has(ids, k) <==> Visits(v, k)
    ensures Has(ids, k) ==> ResolveParam(data, Visited(v, k)).Ok? && Get(ids, k) == ResolveParam(data, Visited(v, k)).value
  {
    ResolveIntoGet(data, ForEachEntries(v), [], k);
    ForEachGet(v, k);
  }

  // ---------------------------------------------------------------------------
  // processMethod
  // ---------------------------------------------------------------------------

  /** What `processMethod` returns: the request configuration and the callbacks. */
  datatype Request = Request(config: Fields, success: Value, error: Value)

  /** The entries of `f` whose key `drop` does not reject, in order. */
  function Without(f: Fields, drop: string -> bool): (r: Fields)
    ensures forall i :: 0 <= i < |r| ==> !drop(r[i].0)
    decreases |f|
  {
    if f == [] then []
    else
      var init := Without(f[..|f| - 1], drop);
      var last := f[|f| - 1];
      if drop(last.0) then init else init + [last]
  }

  lemma HasSnoc(f: Fields, e: (string, Value), k: string)
    ensures Has(f + [e], k) <==> Has(f, k) || e.0 == k
  {
    if Has(f + [e], k) {
      var i :| 0 <= i < |f| + 1 && (f + [e])[i].0 == k;
      if i < |f| {
        assert f[i].0 == k;
      }
    }
    if Has(f, k) {
      var i :| 0 <= i < |f| && f[i].0 == k;
      assert (f + [e])[i].0 == k;
    }
    assert (f + [e])[|f|] == e;
  }

  /** The filter keeps exactly the entries it does not reject, and every kept
      key reads as before. */
  lemma {:induction false} WithoutGet(f: Fields, drop: string -> bool, k: string)
    ensures Has(Without(f, drop), k) <==> Has(f, k) && !drop(k)
    ensures !drop(k) ==> Get(Without(f, drop), k) == Get(f, k)
    decreases |f|
  {
    if f != [] {
      var init := f[..|f| - 1];
      var last := f[|f| - 1];
      WithoutGet(init, drop, k);
      assert f == init + [last];
      HasSnoc(init, last, k);
      HasSnoc(Without(init, drop), last, k);
    }
  }

  predicate IsSkippedActionKey(k: string) {
    k == "params" || k == "interceptor"
  }

  /** The `forEach` over the action that copies what it visits into the
      request configuration, skipping `params` and `interceptor`. */
  function CopyAction(action: Value): (r: Fields)
    ensures UniqueKeys(r)
    ensures forall k :: Has(r, k) <==> Visits(action, k) && !IsSkippedActionKey(k)
    ensures forall k :: !IsSkippedActionKey(k) ==> Get(r, k) == Visited(action, k)
  {
    var walk := ForEachEntries(action);
    var kept := Without(walk, IsSkippedActionKey);
    var r := Assign([], kept);
    forall k
      ensures Has(r, k) <==> Visits(action, k) && !IsSkippedActionKey(k)
      ensures !IsSkippedActionKey(k) ==> Get(r, k) == Visited(action, k)
    {
      AssignGet([], kept, k);
      WithoutGet(walk, IsSkippedActionKey, k);
      ForEachGet(action, k);
    }
    AssignPreservesUnique([], kept);
    r
  }

  /** The configuration before the route fills in the URL: the action's entries
      and, for a body-carrying action, the body. */
  function BaseConfig(hasBody: bool, action: Value, call: Call): Fields {
    var copied := CopyAction(action);
    if hasBody then Set(copied, "data", call.data) else copied
  }

  /** `action.params || {}`. */
  function ActionParams(action: Value): Value {
    var ap := Prop(action, "params");
    if Truthy(ap) then ap else Obj([])
  }

  /** The rest of `processMethod` once the arguments are classified. */
  function BuildRequest(res: Resource, hasBody: bool, action: Value, call: Call): (r: Result<Request>)
    ensures r.Ok? ==> r.value.success == call.success && r.value.error == call.error
    ensures r.Ok? ==> Get(r.value.config, "url").Str?
    ensures r.Err? ==> r.error.BadMember? || r.error == TypeError || r.error == BadName
  {
    var ids :- ExtractParams(res.paramDefaults, call.data, ActionParams(action));
    var merged := Extend(Obj(ids), call.params);
    var config := BaseConfig(hasBody, action, call);
    var out :- SetUrlParams(res.route, config, merged, Prop(action, "url"));
    SetUrlParamsUrl(res.route, config, merged, Prop(action, "url"));
    Ok(Request(out, call.success, call.error))
  }

  /** `processMethod(hasBody, action, ...args)` up to the hand-over to `sync`:
      classify the arguments, copy the action, add the body, extract and merge
      the parameters, and let the route fill in the URL. Reading `action.params`
      fails on a missing action. */
  function ProcessMethod(res: Resource, hasBody: bool, action: Value, args: seq<Value>): (r: Result<Request>)
    ensures |args| > 4 ==> r == Err(BadArgs(|args|))
    ensures |args| <= 4 && IsNothing(action) ==> r == Err(TypeError)
    ensures r.Ok? ==> r.value.success == Classify(hasBody, args).value.success
    ensures r.Ok? ==> r.value.error == Classify(hasBody, args).value.error
    ensures r.Ok? ==> Get(r.value.config, "url").Str?
    ensures r.Err? && |args| <= 4 ==> r.error == TypeError || r.error.BadMember? || r.error == BadName
  {
    var call :- Classify(hasBody, args);
    if IsNothing(action) then Err(TypeError) else BuildRequest(res, hasBody, action, call)
  }

  /** `extend({}, extractParams(data, action.params || {}), params)`. */
  function MergedParams(res: Resource, action: Value, call: Call): Fields
    requires ExtractParams(res.paramDefaults, call.data, ActionParams(action)).Ok?
  {
    Extend(Obj(ExtractParams(res.paramDefaults, call.data, ActionParams(action)).value), call.params)
  }

  /** The precedence of the parameters: a call parameter beats the action's
      parameter, which beats the resource's default, and the last two are
      resolved (called, or read from the body) first; a key extraction does not
      visit is left to the call. A function in place of the call's parameters is
      `extend`'s callback: every extracted key takes its return value. */
  lemma ParamPrecedence(res: Resource, action: Value, call: Call, k: string)
    requires ExtractParams(res.paramDefaults, call.data, ActionParams(action)).Ok?
    ensures var merged := MergedParams(res, action, call);
      var aps := ActionParams(action);
      var fromAction := aps.Obj? && Has(aps.fields, k);
      var fromDefaults := res.paramDefaults.Obj? && Has(res.paramDefaults.fields, k);
      var walked := Obj(ActionParamEntries(res.paramDefaults, aps));
      var raw := RawParam(res.paramDefaults, aps, k);
      && (call.params.Obj? && Has(call.params.fields, k) ==> Get(merged, k) == Get(call.params.fields, k))
      && (!call.params.Fn? && !(call.params.Obj? && Has(call.params.fields, k)) && Visits(walked, k) ==>
            ResolveParam(call.data, raw) == Ok(Get(merged, k)))
      && (call.params.Fn? && Visits(walked, k) ==> Get(merged, k) == call.params.result)
      && (!(call.params.Obj? && Has(call.params.fields, k)) && !Visits(walked, k) ==>
            Get(merged, k) == Undefined)
      && (!IsArrayLike(walked) ==> (Visits(walked, k) <==> fromAction || fromDefaults))
  {
    ExtractParamsGet(res.paramDefaults, call.data, ActionParams(action), k);
  }

  /** A request that is built went through extraction and the route. */
  lemma BuildRequestSteps(res: Resource, hasBody: bool, action: Value, call: Call)
    requires BuildRequest(res, hasBody, action, call).Ok?
    ensures ExtractParams(res.paramDefaults, call.data, ActionParams(action)).Ok?
    ensures var out := SetUrlParams(res.route, BaseConfig(hasBody, action, call), MergedParams(res, action, call), Prop(action, "url"));
      out.Ok? && BuildRequest(res, hasBody, action, call).value.config == out.value
  {
  }

  lemma BaseConfigHasNoParams(hasBody: bool, action: Value, call: Call)
    ensures !Has(BaseConfig(hasBody, action, call), "params")
  {
    if hasBody {
      GetSetOther(CopyAction(action), "data", call.data, "params");
    }
  }

  /** The merged parameters that are not placeholders of the template, and
      only those, end up in `config.params`, which appears only when there is
      at least one of them. */
  lemma ForwardedRequestParams(res: Resource, hasBody: bool, action: Value, call: Call, k: string)
    requires BuildRequest(res, hasBody, action, call).Ok?
    ensures ExtractParams(res.paramDefaults, call.data, ActionParams(action)).Ok?
    ensures EffectiveUrl(res.route, Prop(action, "url")).Ok?
    ensures Placeholders(EffectiveUrl(res.route, Prop(action, "url")).value).Ok?
    ensures var config := BuildRequest(res, hasBody, action, call).value.config;
      var merged := MergedParams(res, action, call);
      var names := Placeholders(EffectiveUrl(res.route, Prop(action, "url")).value).value;
      && (Has(config, "params") <==> exists key :: Visits(Obj(merged), key) && key !in names)
      && (Has(config, "params") ==> Get(config, "params").Obj?)
      && (Has(config, "params") ==> Get(Get(config, "params").fields, k) == (if k in names then Undefined else Visited(Obj(merged), k)))
  {
    BuildRequestSteps(res, hasBody, action, call);
    var merged := MergedParams(res, action, call);
    var base := BaseConfig(hasBody, action, call);
    BaseConfigHasNoParams(hasBody, action, call);
    SetUrlParamsForwards(res.route, base, merged, Prop(action, "url"), k);
  }

  /** Apart from `url` and `params`, the request configuration is what the
      `forEach` over the action visits (without `params` and `interceptor`)
      plus, for a body-carrying action, the body under `data`. */
  lemma RequestConfig(res: Resource, hasBody: bool, action: Value, call: Call, k: string)
    requires BuildRequest(res, hasBody, action, call).Ok?
    requires k != "url" && k != "params"
    ensures Get(BuildRequest(res, hasBody, action, call).value.config, k) ==
      if hasBody && k == "data" then call.data
      else if IsSkippedActionKey(k) then Undefined
      else Visited(action, k)
  {
    var merged := MergedParams(res, action, call);
    var copied := CopyAction(action);
    BuildRequestSteps(res, hasBody, action, call);
    BaseConfigHasNoParams(hasBody, action, call);
    if hasBody {
      if k == "data" {
        GetSetSame(copied, "data", call.data);
      } else {
        GetSetOther(copied, "data", call.data, k);
      }
    }
    SetUrlParamsForwards(res.route, BaseConfig(hasBody, action, call), merged, Prop(action, "url"), k);
  }

  /** The configuration keys of a whole `processMethod` call. */
  lemma ProcessMethodConfig(res: Resource, hasBody: bool, action: Value, args: seq<Value>, k: string)
    requires ProcessMethod(res, hasBody, action, args).Ok?
    requires k != "url" && k != "params"
    ensures |args| <= 4
    ensures Get(ProcessMethod(res, hasBody, action, args).value.config, k) ==
      if hasBody && k == "data" then Classify(hasBody, args).value.data
      else if IsSkippedActionKey(k) then Undefined
      else Visited(action, k)
  {
    RequestConfig(res, hasBody, action, Classify(hasBody, args).value, k);
  }

  // ---------------------------------------------------------------------------
  // getConfig and getUrl
  // ---------------------------------------------------------------------------

  /** The action `getConfig` runs: a string first argument names it (an unknown
      name runs an empty action), anything else runs an empty action. */
  function ConfigAction(res: Resource, a1: Value): Value {
    if !a1.Str? then Obj([])
    else if Has(res.actions, a1.str) then Get(res.actions, a1.str)
    else Obj([])
  }

  /** `Resource.getConfig(a1, a2, a3)`: the arguments after the action name (or
      all of them, without one) are the parameters and the body, classified as a
      two-argument call of an action without a body. The callback is left out. */
  function GetConfig(res: Resource, a1: Value, a2: Value, a3: Value): (r: Result<Fields>)
    ensures r.Ok? ==> Get(r.value, "url").Str?
    ensures r.Err? ==> !r.error.BadArgs?
    ensures a1.Str? && Has(res.actions, a1.str) && IsNothing(Get(res.actions, a1.str)) ==> r == Err(TypeError)
  {
    var action := ConfigAction(res, a1);
    var slots := if a1.Str? then [a2, a3] else [a1, a2];
    var req :- ProcessMethod(res, false, action, slots);
    Ok(req.config)
  }

  /** `getConfig` copies what the `forEach` visits of the named action, never
      adds a body, and takes its parameters from the slot after the name. */
  lemma GetConfigFromAction(res: Resource, a1: Value, a2: Value, a3: Value, k: string)
    requires GetConfig(res, a1, a2, a3).Ok?
    requires k != "url" && k != "params" && k != "interceptor"
    ensures Get(GetConfig(res, a1, a2, a3).value, k) ==
      if a1.Str? && Has(res.actions, a1.str) then Visited(Get(res.actions, a1.str), k) else Undefined
  {
    var action := ConfigAction(res, a1);
    var slots := if a1.Str? then [a2, a3] else [a1, a2];
    ProcessMethodConfig(res, false, action, slots, k);
  }

  /** `Resource.getUrl(...)`: the configured URL with the forwarded parameters
      appended as a query string. */
  function GetUrl(res: Resource, a1: Value, a2: Value, a3: Value): (r: Result<string>)
    ensures r.Err? <==> GetConfig(res, a1, a2, a3).Err?
    ensures r.Ok? ==> QueryFramed(Get(GetConfig(res, a1, a2, a3).value, "url").str,
                                  QueryOf(Get(GetConfig(res, a1, a2, a3).value, "params")), r.value)
    ensures r.Ok? && !Has(GetConfig(res, a1, a2, a3).value, "params") ==> r.value == Get(GetConfig(res, a1, a2, a3).value, "url").str
  {
    var config :- GetConfig(res, a1, a2, a3);
    var url := Get(config, "url").str;
    var query := QueryOf(Get(config, "params"));
    AppendQueryFrames(url, query);
    Ok(AppendQuery(url, query))
  }

  // ---------------------------------------------------------------------------
  // The action wrappers
  // ---------------------------------------------------------------------------

  /** `Resource[name](a1, a2, a3, a4)` up to the hand-over to `sync`, as
      written: the wrapper's four declared slots go to `processMethod`, so the
      classifier always sees four arguments. */
  function InvokeAsWritten(res: Resource, name: string, args: seq<Value>): (r: Result<Request>)
    ensures !Visits(Obj(res.actions), name) ==> r == Err(TypeError)
    ensures r.Err? ==> !r.error.BadArgs?
    ensures r.Ok? ==> r.value.success == WrapperClassifyAsWritten(HasBody(Visited(Obj(res.actions), name)), args).value.success
  {
    var wrappers := ForEachEntries(Obj(res.actions));
    ForEachGet(Obj(res.actions), name);
    if !Has(wrappers, name) then Err(TypeError)
    else
      var action := Get(wrappers, name);
      ProcessMethod(res, HasBody(action), action, FourSlots(args))
  }

  /** The wrapper as the classifier expects to be driven: the caller's own
      arguments, however many. */
  function Invoke(res: Resource, name: string, args: seq<Value>): (r: Result<Request>)
    ensures !Visits(Obj(res.actions), name) ==> r == Err(TypeError)
    ensures Visits(Obj(res.actions), name) && |args| > 4 ==> r == Err(BadArgs(|args|))
    ensures r.Ok? ==> r.value.success == WrapperClassify(HasBody(Visited(Obj(res.actions), name)), args).value.success
    ensures r.Ok? ==> r.value.error == WrapperClassify(HasBody(Visited(Obj(res.actions), name)), args).value.error
  {
    var wrappers := ForEachEntries(Obj(res.actions));
    ForEachGet(Obj(res.actions), name);
    if !Has(wrappers, name) then Err(TypeError)
    else
      var action := Get(wrappers, name);
      ProcessMethod(res, HasBody(action), action, args)
  }

  /** `Resource.get(cb)`: as written the callback becomes the parameters and no
      success callback reaches `sync`; driven by the real argument count it is
      the success callback. */
  lemma LoneCallbackRequest(res: Resource, name: string, cb: Value)
    requires IsFunction(cb) && Visits(Obj(res.actions), name) && !HasBody(Visited(Obj(res.actions), name))
    requires Invoke(res, name, [cb]).Ok? && InvokeAsWritten(res, name, [cb]).Ok?
    ensures InvokeAsWritten(res, name, [cb]).value.success == Undefined
    ensures Invoke(res, name, [cb]).value.success == cb
  {
    LoneCallbackLost(cb);
  }

  /** With four arguments the two wrappers are the same call. */
  lemma InvokeAgreesOnFour(res: Resource, name: string, args: seq<Value>)
    requires |args| == 4
    ensures Invoke(res, name, args) == InvokeAsWritten(res, name, args)
  {
    assert FourSlots(args) == args;
  }

  // ---------------------------------------------------------------------------
  // The instance copy
  // ---------------------------------------------------------------------------

  /** Keys starting with `$$` are internal and never copied. */
  predicate IsInternalKey(k: string) {
    |k| >= 2 && k[0] == '$' && k[1] == '$'
  }

  /** The own enumerable properties `for-in` visits: an object's entries, a
      string's characters by index; numbers, booleans and functions have none. */
  function ForInEntries(v: Value): Fields {
    if v.Obj? then v.fields else if v.Str? then ForEachEntries(v) else []
  }

  lemma ForInGet(v: Value, k: string)
    ensures Has(ForInEntries(v), k) <==> if v.Str? then IsIndexBelow(k, |v.str|) else v.Obj? && Has(v.fields, k)
    ensures Get(ForInEntries(v), k) == Element(v, k)
  {
    if v.Str? {
      ForEachGet(v, k);
    }
  }

  /** `shallowClearAndCopy(value || {}, fresh)`: the own enumerable properties
      of the value except the internal ones. The clearing `forEach` runs over a
      fresh instance and removes nothing. */
  function ShallowClearAndCopy(value: Value): (r: Fields)
    ensures UniqueKeys(r)
    ensures forall i :: 0 <= i < |r| ==> !IsInternalKey(r[i].0)
    ensures forall k :: Has(r, k) <==>
      (!IsInternalKey(k) && if value.Str? then IsIndexBelow(k, |value.str|) else value.Obj? && Has(value.fields, k))
    ensures forall k :: !IsInternalKey(k) ==> Get(r, k) == Element(value, k)
  {
    var all := ForInEntries(value);
    var kept := Without(all, IsInternalKey);
    var r := Assign([], kept);
    forall k
      ensures Has(r, k) <==>
        (!IsInternalKey(k) && if value.Str? then IsIndexBelow(k, |value.str|) else value.Obj? && Has(value.fields, k))
      ensures !IsInternalKey(k) ==> Get(r, k) == Element(value, k)
    {
      AssignGet([], kept, k);
      WithoutGet(all, IsInternalKey, k);
      ForInGet(value, k);
    }
    AssignPreservesUnique([], kept);
    forall i | 0 <= i < |r|
      ensures !IsInternalKey(r[i].0)
    {
      AssignGet([], kept, r[i].0);
      assert Has(r, r[i].0);
      var j :| 0 <= j < |kept| && kept[j].0 == r[i].0;
    }
    r
  }

  lemma {:induction false} WithoutNothingDropped(f: Fields, drop: string -> bool)
    requires forall i :: 0 <= i < |f| ==> !drop(f[i].0)
    ensures Without(f, drop) == f
    decreases |f|
  {
    if f != [] {
      WithoutNothingDropped(f[..|f| - 1], drop);
    }
  }

  /** Copying a copy changes nothing. */
  lemma ShallowCopyIdempotent(value: Value)
    ensures ShallowClearAndCopy(Obj(ShallowClearAndCopy(value))) == ShallowClearAndCopy(value)
  {
    var r := ShallowClearAndCopy(value);
    assert ForInEntries(Obj(r)) == r;
    WithoutNothingDropped(r, IsInternalKey);
    assert [] + r == r;
    AssignDisjoint([], r);
  }
}

=== FILE: results.dfy ===
/** The failures the request-descriptor pipeline raises, and a failure-compatible
    result type so that the pipeline can be written with `:-`. */
module Results {

  /** `minErr` codes of the source, plus the JavaScript TypeError that the source
      raises when it reads a property of `null`/`undefined` or calls `split` on a
      value that is not a string. */
  datatype Error =
    | BadMember(path: string)   // a `@dotted.path` extractor that fails the grammar
    | BadName                   // a URL placeholder named `hasOwnProperty`
    | BadArgs(count: nat)       // more than four call arguments
    | TypeError                 // a property read on null/undefined, or a non-string URL

  datatype Option<+T> = None | Some(value: T)

  datatype Result<+T> = Ok(value: T) | Err(error: Error) {

    predicate IsFailure() {
      Err?
    }

    function PropagateFailure<U>(): Result<U>
      requires Err?
    {
      Err(error)
    }

    function Extract(): T
      requires Ok?
    {
      value
    }
  }
}

=== FILE: route.dfy ===
/** `Route` and `Route.prototype.setUrlParams` (index.js:133-197): turning a URL
    template and a parameter object into a request URL, forwarding the parameters
    the template does not use to `config.params`. */
module Routes {
  import opened Chars
  import opened Text
  import opened Results
  import opened JsValues
  import opened UriEncoding
  import opened Template

  /** A route: its URL template (whatever value the caller passed) and its
      defaults, which supply placeholder values missing from the parameters and
      the `stripTrailingSlashes` switch. */
  datatype Route = Route(template: Value, defaults: Fields)

  /** `new Route(template, options)`: the defaults are the service defaults with
      the route options laid over them, or, for a function `options`, the
      service defaults each replaced by what that function returns. */
  function NewRoute(template: Value, serviceDefaults: Fields, options: Value): (r: Route)
    ensures r.template == template
    ensures forall k ::
      Get(r.defaults, k) == (if options.Fn? then (if Has(serviceDefaults, k) then options.result else Undefined)
                             else if options.Obj? && Has(options.fields, k) then Get(options.fields, k)
                             else Get(serviceDefaults, k))
  {
    Route(template, Extend(Obj(serviceDefaults), options))
  }

  /** `actionUrl || self.template`; `split` then needs a string. */
  function EffectiveUrl(route: Route, actionUrl: Value): (r: Result<string>)
    ensures Truthy(actionUrl) ==> r == (if actionUrl.Str? then Ok(actionUrl.str) else Err(TypeError))
    ensures !Truthy(actionUrl) ==> r == (if route.template.Str? then Ok(route.template.str) else Err(TypeError))
  {
    var u := if Truthy(actionUrl) then actionUrl else route.template;
    if u.Str? then Ok(u.str) else Err(TypeError)
  }

  /** The value a placeholder takes: the parameter when it is an own key of the
      parameters (even if it is `null`), otherwise the route default. */
  function PlaceholderValue(params: Fields, defaults: Fields, name: string): Value {
    if Has(params, name) then Get(params, name) else Get(defaults, name)
  }

  predicate IsPresent(v: Value) {
    v != Null && v != Undefined
  }

  /** One iteration over the placeholders: a present value is encoded as a path
      segment and bound, an absent one removes the placeholder. */
  function BindOne(url: string, name: string, v: Value): string {
    if IsPresent(v) then Substitute(url, name, EncodeUriSegment(ToJsString(v))) else Remove(url, name)
  }

  function BindAll(url: string, names: seq<string>, params: Fields, defaults: Fields): string
    decreases |names|
  {
    if names == [] then url
    else BindAll(BindOne(url, names[0], PlaceholderValue(params, defaults, names[0])), names[1..], params, defaults)
  }

  /** The clean-up after binding: trailing slashes (when enabled), then the `/.`
      collapse, then the escaped-dot restore. */
  function FinishUrl(url: string, strip: bool): string {
    RestoreEscapedDot(CollapseDot(if strip then StripTrailingSlashes(url) else url))
  }

  /** The entries of `params` whose key is not a placeholder, in order. */
  function Unplaced(params: Fields, names: seq<string>): (r: Fields)
    ensures forall k :: Has(r, k) <==> Has(params, k) && k !in names
    ensures forall k :: k !in names ==> Get(r, k) == Get(params, k)
    decreases |params|
  {
    if params == [] then []
    else
      var rest := Unplaced(params[1..], names);
      var k := params[0].0;
      forall k' | k' != k
        ensures Get(params, k') == Get(params[1..], k') && (Has(params, k') <==> Has(params[1..], k'))
      {
        GetSkipsFirst(params, k');
      }
      GetLastEntry(params, k);
      assert Has(params, k) by {
        assert params[0].0 == k;
      }
      if k in names then rest
      else
        var r := [params[0]] + rest;
        assert r[1..] == rest;
        assert r[0].0 == k;
        GetLastEntry(r, k);
        forall k' | k' != k
          ensures Get(r, k') == Get(rest, k') && (Has(r, k') <==> Has(rest, k'))
        {
          GetSkipsFirst(r, k');
        }
        r
  }

  /** The parameters the `forEach` at the end of `setUrlParams` hands to
      `config.params`: those it visits whose key is not a placeholder. */
  function Leftovers(params: Value, names: seq<string>): (r: Fields)
    ensures forall k :: Has(r, k) <==> Visits(params, k) && k !in names
    ensures forall k :: k !in names ==> Get(r, k) == Visited(params, k)
  {
    var r := Unplaced(ForEachEntries(params), names);
    forall k
      ensures Has(r, k) <==> Visits(params, k) && k !in names
      ensures k !in names ==> Get(r, k) == Visited(params, k)
    {
      ForEachGet(params, k);
    }
    r
  }

  /** The object `config.params` holds before any assignment: a missing or falsy
      entry counts as a fresh `{}`. */
  function ParamFields(config: Fields): Fields {
    var p := Get(config, "params");
    if p.Obj? then p.fields else []
  }

  /** `config.params = config.params || {}; config.params[key] = value` can be
      followed in this model: the entry is absent, falsy, or an object. */
  predicate ParamsWritable(config: Fields) {
    var p := Get(config, "params");
    !Truthy(p) || p.Obj?
  }

  /** `config.params = config.params || {}; config.params[key] = value`. A
      truthy entry that is not an object keeps its value. */
  function AddParam(config: Fields, k: string, v: Value): Fields {
    var p := Get(config, "params");
    if !Truthy(p) then Set(config, "params", Obj([(k, v)]))
    else if p.Obj? then Set(config, "params", Obj(Set(p.fields, k, v)))
    else config
  }

  /** The callbacks of that `forEach`, one (key, value) pair at a time. */
  function ForwardEntries(config: Fields, entries: Fields, names: seq<string>): Fields
    decreases |entries|
  {
    if entries == [] then config
    else
      var (k, v) := entries[0];
      ForwardEntries(if k in names then config else AddParam(config, k, v), entries[1..], names)
  }

  /** `forEach(params, function (value, key) { if (!urlParams[key]) ... })`. */
  function ForwardLeftovers(config: Fields, params: Value, names: seq<string>): Fields {
    ForwardEntries(config, ForEachEntries(params), names)
  }

  /** `route.setUrlParams(config, params, actionUrl)`: the configuration with its
      `url` set and the unused parameters forwarded. */
  function SetUrlParams(route: Route, config: Fields, params: Fields, actionUrl: Value): (r: Result<Fields>)
    ensures r.Err? <==>
      (EffectiveUrl(route, actionUrl).Err? || "hasOwnProperty" in SplitNonWord(EffectiveUrl(route, actionUrl).value))
    ensures r.Err? && EffectiveUrl(route, actionUrl).Err? ==> r.error == TypeError
    ensures r.Err? && EffectiveUrl(route, actionUrl).Ok? ==> r.error == BadName
  {
    var url :- EffectiveUrl(route, actionUrl);
    var names :- Placeholders(url);
    var bound := BindAll(UnescapeColons(url), names, params, route.defaults);
    var finished := FinishUrl(bound, Truthy(Get(route.defaults, "stripTrailingSlashes")));
    Ok(ForwardLeftovers(Set(config, "url", Str(finished)), Obj(params), names))
  }

  // ---------------------------------------------------------------------------
  // What the forwarding does
  // ---------------------------------------------------------------------------

  lemma AddParamEffect(config: Fields, k: string, v: Value)
    requires ParamsWritable(config)
    ensures AddParam(config, k, v) == Set(config, "params", Obj(Set(ParamFields(config), k, v)))
  {
    var p := Get(config, "params");
    if !Truthy(p) {
      assert ParamFields(config) == [];
      assert !Has([], k);
      assert Set([], k, v) == [(k, v)];
    }
  }

  lemma ParamsAfterSet(config: Fields, fs: Fields)
    ensures ParamsWritable(Set(config, "params", Obj(fs)))
    ensures ParamFields(Set(config, "params", Obj(fs))) == fs
  {
    GetSetSame(config, "params", Obj(fs));
  }

  /** The forwarding is one assignment of the unplaced entries, in order, into
      the existing (or a fresh) `config.params`; when there are none the
      configuration is untouched and no `params` entry appears. */
  lemma {:induction false} ForwardEntriesAssign(config: Fields, entries: Fields, names: seq<string>)
    requires ParamsWritable(config)
    ensures ForwardEntries(config, entries, names)
      == if Unplaced(entries, names) == [] then config
         else Set(config, "params", Obj(Assign(ParamFields(config), Unplaced(entries, names))))
    decreases |entries|
  {
    if entries != [] {
      var (k, v) := entries[0];
      var rest := Unplaced(entries[1..], names);
      if k in names {
        ForwardEntriesAssign(config, entries[1..], names);
      } else {
        var fs := Set(ParamFields(config), k, v);
        var config' := Set(config, "params", Obj(fs));
        AddParamEffect(config, k, v);
        ParamsAfterSet(config, fs);
        ForwardEntriesAssign(config', entries[1..], names);
        assert Unplaced(entries, names) == [(k, v)] + rest;
        assert Assign(ParamFields(config), [(k, v)] + rest) == Assign(fs, rest) by {
          assert ([(k, v)] + rest)[1..] == rest;
        }
        if rest != [] {
          SetSet(config, "params", Obj(fs), Obj(Assign(fs, rest)));
        }
      }
    }
  }

  /** Every parameter the `forEach` visits that is not a placeholder reaches
      `config.params` with its value (overwriting an entry of the same name),
      other keys keep what `config.params` already had, and no other
      configuration key changes. */
  lemma ForwardedParams(config: Fields, params: Value, names: seq<string>, k: string)
    requires ParamsWritable(config)
    ensures var r := ForwardLeftovers(config, params, names);
      && (Leftovers(params, names) != [] ==> Get(r, "params").Obj?)
      && (Get(r, "params").Obj? ==>
            Get(Get(r, "params").fields, k)
            == if Visits(params, k) && k !in names then Visited(params, k) else Get(ParamFields(config), k))
      && (k != "params" ==> Get(r, k) == Get(config, k) && (Has(r, k) <==> Has(config, k)))
  {
    var left := Leftovers(params, names);
    ForwardEntriesAssign(config, ForEachEntries(params), names);
    if left != [] {
      var fs := Assign(ParamFields(config), left);
      GetSetSame(config, "params", Obj(fs));
      AssignGet(ParamFields(config), left, k);
      if k != "params" {
        GetSetOther(config, "params", Obj(fs), k);
      }
    } else {
      assert !Has(left, k);
    }
  }

  /** Forwarding into a configuration without `params`: the entry appears
      exactly when the `forEach` visits some key that is not a placeholder,
      and then holds exactly those keys with their values. */
  lemma ForwardIntoFresh(config: Fields, params: Value, names: seq<string>, k: string)
    requires !Has(config, "params")
    ensures var r := ForwardLeftovers(config, params, names);
      && (Has(r, "params") <==> exists key :: Visits(params, key) && key !in names)
      && (Has(r, "params") ==> Get(r, "params").Obj?)
      && (Has(r, "params") ==> (Has(Get(r, "params").fields, k) <==> Visits(params, k) && k !in names))
      && (Has(r, "params") ==> Get(Get(r, "params").fields, k) == (if k in names then Undefined else Visited(params, k)))
      && (k != "params" ==> Get(r, k) == Get(config, k))
  {
    var left := Leftovers(params, names);
    assert ParamFields(config) == [];
    ForwardEntriesAssign(config, ForEachEntries(params), names);
    ForwardedParams(config, params, names, k);
    LeftoversExist(params, names);
    if left != [] {
      var fs := Assign([], left);
      GetSetSame(config, "params", Obj(fs));
      AssignGet([], left, k);
    }
  }

  /** Something is forwarded exactly when the `forEach` visits a key that is
      not a placeholder. */
  lemma LeftoversExist(params: Value, names: seq<string>)
    ensures Leftovers(params, names) != [] <==> exists key :: Visits(params, key) && key !in names
  {
    var left := Leftovers(params, names);
    if left != [] {
      var key := left[0].0;
      assert Has(left, key);
      assert Visits(params, key) && key !in names;
    } else {
      forall key | Visits(params, key) && key !in names
        ensures Has(left, key)
      {
      }
    }
  }

  lemma {:induction false} UnplacedNone(entries: Fields, names: seq<string>)
    requires forall i :: 0 <= i < |entries| ==> entries[i].0 !in names
    ensures Unplaced(entries, names) == entries
    decreases |entries|
  {
    if entries != [] {
      assert entries[0].0 !in names;
      UnplacedNone(entries[1..], names);
      assert [entries[0]] + entries[1..] == entries;
    }
  }

  /** Forwarding after `url` has been written into a configuration without
      `params`: `url` stays, and the parameters land as in `ForwardIntoFresh`. */
  lemma ForwardAfterUrlSet(config: Fields, u: string, params: Value, names: seq<string>, k: string)
    requires !Has(config, "params")
    ensures var r := ForwardLeftovers(Set(config, "url", Str(u)), params, names);
      && Has(r, "url")
      && (Has(r, "params") <==> exists key :: Visits(params, key) && key !in names)
      && (Has(r, "params") ==> Get(r, "params").Obj?)
      && (Has(r, "params") ==> (Has(Get(r, "params").fields, k) <==> Visits(params, k) && k !in names))
      && (Has(r, "params") ==> Get(Get(r, "params").fields, k) == (if k in names then Undefined else Visited(params, k)))
      && (k != "params" && k != "url" ==> Get(r, k) == Get(config, k))
  {
    var c := Set(config, "url", Str(u));
    GetSetOther(config, "url", Str(u), "params");
    ForwardIntoFresh(c, params, names, k);
    UrlSurvives(c, params, names, u);
    if k != "params" && k != "url" {
      GetSetOther(config, "url", Str(u), k);
    }
  }

  lemma UrlSurvives(config: Fields, params: Value, names: seq<string>, u: string)
    requires Get(config, "url") == Str(u)
    ensures Has(ForwardLeftovers(config, params, names), "url")
  {
    ForwardKeepsOthers(config, params, names, "url");
  }

  /** `setUrlParams` on a configuration without `params` (the only kind the
      resource builds): the parameters the `forEach` visits that are not
      placeholders end up in `config.params`, the others do not,
      `config.params` appears only when there is at least one such parameter,
      and only `url` and `params` change. */
  lemma SetUrlParamsForwards(route: Route, config: Fields, params: Fields, actionUrl: Value, k: string)
    requires !Has(config, "params")
    requires SetUrlParams(route, config, params, actionUrl).Ok?
    ensures var r := SetUrlParams(route, config, params, actionUrl).value;
      var names := Placeholders(EffectiveUrl(route, actionUrl).value).value;
      && Has(r, "url")
      && (Has(r, "params") <==> exists key :: Visits(Obj(params), key) && key !in names)
      && (Has(r, "params") ==> Get(r, "params").Obj?)
      && (Has(r, "params") ==> (Has(Get(r, "params").fields, k) <==> Visits(Obj(params), k) && k !in names))
      && (Has(r, "params") ==> Get(Get(r, "params").fields, k) == (if k in names then Undefined else Visited(Obj(params), k)))
      && (k != "params" && k != "url" ==> Get(r, k) == Get(config, k))
  {
    var url := EffectiveUrl(route, actionUrl).value;
    var names := Placeholders(url).value;
    var finished := FinishUrl(BindAll(UnescapeColons(url), names, params, route.defaults),
                              Truthy(Get(route.defaults, "stripTrailingSlashes")));
    assert SetUrlParams(route, config, params, actionUrl).value
      == ForwardLeftovers(Set(config, "url", Str(finished)), Obj(params), names);
    ForwardAfterUrlSet(config, finished, Obj(params), names, k);
  }

  /** The forwarding touches nothing but `config.params`. */
  lemma ForwardKeepsOthers(config: Fields, params: Value, names: seq<string>, k: string)
    requires k != "params"
    ensures Get(ForwardLeftovers(config, params, names), k) == Get(config, k)
  {
    ForwardEntriesKeep(config, ForEachEntries(params), names, k);
  }

  lemma {:induction false} ForwardEntriesKeep(config: Fields, entries: Fields, names: seq<string>, k: string)
    requires k != "params"
    ensures Get(ForwardEntries(config, entries, names), k) == Get(config, k)
    decreases |entries|
  {
    if entries != [] {
      var (p, v) := entries[0];
      var next := if p in names then config else AddParam(config, p, v);
      if p !in names {
        var cur := Get(config, "params");
        if !Truthy(cur) {
          GetSetOther(config, "params", Obj([(p, v)]), k);
        } else if cur.Obj? {
          GetSetOther(config, "params", Obj(Set(cur.fields, p, v)), k);
        }
      }
      ForwardEntriesKeep(next, entries[1..], names, k);
    }
  }

  /** `getUrl({length: 2})` on a template without placeholders: lodash walks
      the parameters like an array, so `config.params` receives the indices
      `0` and `1`, both undefined, and not `length`. */
  lemma ArrayLikeParamsForwarded(config: Fields)
    requires !Has(config, "params")
    ensures Get(ForwardLeftovers(config, Obj([("length", Int(2))]), []), "params") == Obj([("0", Undefined), ("1", Undefined)])
  {
    var p := Obj([("length", Int(2))]);
    var walk := ForEachEntries(p);
    assert Get(p.fields, "length") == Int(2);
    assert walk == [("0", Undefined), ("1", Undefined)] by {
      assert |walk| == 2;
      assert walk[0].0 == NatDigits(0) == "0" && walk[1].0 == NatDigits(1) == "1";
    }
    UnplacedNone(walk, []);
    ForwardEntriesAssign(config, walk, []);
    assert ParamFields(config) == [];
    AssignDisjoint([], walk);
    assert [] + walk == walk;
    GetSetSame(config, "params", Obj(walk));
  }

  /** The URL `setUrlParams` writes: the template with its colon escapes
      undone, every placeholder bound or removed, then finished. */
  lemma SetUrlParamsUrl(route: Route, config: Fields, params: Fields, actionUrl: Value)
    requires SetUrlParams(route, config, params, actionUrl).Ok?
    ensures var url := EffectiveUrl(route, actionUrl).value;
      var names := Placeholders(url).value;
      Get(SetUrlParams(route, config, params, actionUrl).value, "url")
      == Str(FinishUrl(BindAll(UnescapeColons(url), names, params, route.defaults),
                       Truthy(Get(route.defaults, "stripTrailingSlashes"))))
  {
    var url := EffectiveUrl(route, actionUrl).value;
    var names := Placeholders(url).value;
    var finished := FinishUrl(BindAll(UnescapeColons(url), names, params, route.defaults),
                              Truthy(Get(route.defaults, "stripTrailingSlashes")));
    GetSetSame(config, "url", Str(finished));
    ForwardKeepsOthers(Set(config, "url", Str(finished)), Obj(params), names, "url");
  }

  // ---------------------------------------------------------------------------
  // What the binding does
  // ---------------------------------------------------------------------------

  /** A placeholder written once in the template: with a present value (an own
      parameter, even `null`, takes precedence over the route default) it is
      replaced by the value encoded as a path segment; without one it is deleted
      along with its leading slash when a slash follows it. */
  lemma BindSinglePlaceholder(url: string, name: string, i: nat, params: Fields, defaults: Fields)
    requires ColonNameAt(url, i, name)
    requires forall j :: 0 <= j < |url| && j != i ==> !ColonNameAt(url, j, name)
    ensures var v := if Has(params, name) then Get(params, name) else Get(defaults, name);
      var e := i + 1 + |name|;
      BindAll(url, [name], params, defaults)
      == if v != Null && v != Undefined then url[..i] + EncodeUriSegment(ToJsString(v)) + url[e..]
         else if i > 0 && url[i - 1] == '/' && e < |url| && url[e] == '/' then url[..i - 1] + url[e..]
         else url[..i] + url[e..]
  {
    var v := PlaceholderValue(params, defaults, name);
    if IsPresent(v) {
      SubstituteSingle(url, name, EncodeUriSegment(ToJsString(v)), i);
    } else {
      RemoveSingle(url, name, i);
    }
  }
}

=== FILE: scenario.dfy ===
/** The `getUrl` scenario of the repository's own tests (test/index.js:1-62,
    86): a resource on `http://posttestserver.com/:path:format` whose default
    parameters fill both placeholders and leave `dir` over for the query. */
module Scenario {
  import opened Chars
  import opened Text
  import opened Results
  import opened JsValues
  import opened Template
  import opened UriEncoding
  import opened UriProperties
  import opened Routes
  import opened QueryString
  import opened Arguments
  import opened Resources

  /** The test's template `http://posttestserver.com/:path:format`
      (`ExampleUrlText`), written as its words and the separators between
      them. */
  const ExampleUrl: string := "http" + [':'] + ("" + ['/'] + ("" + ['/'] + ("posttestserver" + ['.'] + ("com" + ['/'] + ("" + [':'] + ("path" + [':'] + "format"))))))

  /** The resource's default parameters. */
  const ExampleDefaults: Fields := [
    ("path", Str("post")),
    ("format", Str(".php")),
    ("dir", Str(DirValue))
  ]

  /** The actions the test declares; `get` keeps the built-in method, the
      others replace or add to the built-in table. */
  const ExampleActions: Fields := [
    ("data", Obj([("method", Str("GET")),
                  ("params", Obj([("path", Str("data")), ("format", Null), ("dir", Str("data/"))]))])),
    ("login", Obj([("method", Str("POST")),
                   ("params", Obj([("path", Str("login")), ("username", Str("@user")), ("password", Str("@pass"))]))])),
    ("get", Obj([("method", Str("GET"))])),
    ("save", Obj([("method", Str("POST")), ("params", Obj([("action", Str("save.do"))]))])),
    ("remove", Obj([("method", Str("POST")), ("params", Obj([("action", Str("delete.do"))]))])),
    ("delete", Obj([("method", Str("POST")), ("params", Obj([("action", Str("delete.do"))]))])),
    ("query", Obj([("method", Str("GET")),
                   ("params", Obj([("action", Str("listByFilter.do")), ("start", Int(0)), ("limit", Int(15))]))]))
  ]

  /** The parameter left over for the query string. */
  const DirValue: string := "nodejs/service-url/"

  /** The configuration `getConfig('get')` builds. */
  const ExampleConfig: Fields := [
    ("method", Str("GET")),
    ("url", Str(BoundUrl)),
    ("params", Obj([("dir", Str(DirValue))]))
  ]

  /** What the repository's test expects `getUrl('get')` to return:
      `http://posttestserver.com/post.php?dir=nodejs%2Fservice-url%2F`, the bound
      URL, a `?` and the query. */
  const ExpectedUrl: string := BoundUrl + "?" + ExpectedQuery

  /** The query string of the expected URL. */
  const ExpectedQuery: string := "dir=nodejs%2Fservice-url%2F"

  /** The URL once both placeholders are bound. */
  const BoundUrl: string := "http://posttestserver.com/post.php"

  /** The split of `url.split(/\W/)` over a string made of word runs and single
      separators, one separator at a time. */
  lemma {:induction false} SplitNonWordAt(a: string, c: char, b: string)
    requires !IsWord(c)
    ensures SplitNonWord(a + [c] + b) == SplitNonWord(a) + SplitNonWord(b)
    decreases |a|
  {
    if a == [] {
      assert a + [c] + b == [c] + b;
      assert ([c] + b)[1..] == b;
    } else {
      SplitNonWordAt(a[1..], c, b);
      assert (a + [c] + b)[1..] == a[1..] + [c] + b;
      assert (a + [c] + b)[0] == a[0];
      PiecesPrepend(a[0], SplitNonWord(a[1..]), SplitNonWord(b));
    }
  }

  /** Prepending a character to the first of several pieces, or a new empty
      piece, commutes with appending more pieces. */
  lemma PiecesPrepend(ch: char, x: seq<string>, y: seq<string>)
    requires |x| > 0
    ensures [[ch] + (x + y)[0]] + (x + y)[1..] == [[ch] + x[0]] + x[1..] + y
    ensures [[]] + (x + y) == [[]] + x + y
  {
    assert (x + y)[1..] == x[1..] + y;
  }

  lemma {:induction false} SplitNonWordRun(w: string)
    requires AllWord(w)
    ensures SplitNonWord(w) == [w]
    decreases |w|
  {
    if w != [] {
      SplitNonWordRun(w[1..]);
      assert [w[0]] + w[1..] == w;
    }
  }

  lemma SplitPrepend(w: string, c: char, rest: string, parts: seq<string>)
    requires AllWord(w) && !IsWord(c) && SplitNonWord(rest) == parts
    ensures SplitNonWord(w + [c] + rest) == [w] + parts
  {
    SplitNonWordAt(w, c, rest);
    SplitNonWordRun(w);
  }

  /** Two words and their separators in front of a split tail. */
  lemma Words2(w0: string, w1: string, c0: char, c1: char, rest: string, parts: seq<string>)
    requires AllWord(w0) && AllWord(w1) && !IsWord(c0) && !IsWord(c1)
    requires SplitNonWord(rest) == parts
    ensures SplitNonWord(w0 + [c0] + (w1 + [c1] + rest)) == [w0, w1] + parts
  {
    SplitPrepend(w1, c1, rest, parts);
    SplitPrepend(w0, c0, w1 + [c1] + rest, [w1] + parts);
    assert [w0] + ([w1] + parts) == [w0, w1] + parts;
  }

  /** Four words and their separators in front of a split tail. */
  lemma Words4(w0: string, w1: string, w2: string, w3: string, c0: char, c1: char, c2: char, c3: char,
               rest: string, parts: seq<string>)
    requires AllWord(w0) && AllWord(w1) && AllWord(w2) && AllWord(w3)
    requires !IsWord(c0) && !IsWord(c1) && !IsWord(c2) && !IsWord(c3)
    requires SplitNonWord(rest) == parts
    ensures SplitNonWord(w0 + [c0] + (w1 + [c1] + (w2 + [c2] + (w3 + [c3] + rest))))
      == [w0, w1, w2, w3] + parts
  {
    Words2(w2, w3, c2, c3, rest, parts);
    Words2(w0, w1, c0, c1, w2 + [c2] + (w3 + [c3] + rest), [w2, w3] + parts);
    assert [w0, w1] + ([w2, w3] + parts) == [w0, w1, w2, w3] + parts;
  }

  lemma Url8(w0: string, w1: string, w2: string, w3: string, w4: string, w5: string, w6: string, w7: string,
             c0: char, c1: char, c2: char, c3: char, c4: char, c5: char, c6: char)
    requires AllWord(w0) && AllWord(w1) && AllWord(w2) && AllWord(w3) && AllWord(w4) && AllWord(w5) && AllWord(w6) && AllWord(w7)
    requires !IsWord(c0) && !IsWord(c1) && !IsWord(c2) && !IsWord(c3) && !IsWord(c4) && !IsWord(c5) && !IsWord(c6)
    ensures SplitNonWord(w0 + [c0] + (w1 + [c1] + (w2 + [c2] + (w3 + [c3] + (w4 + [c4] + (w5 + [c5] + (w6 + [c6] + w7)))))))
      == [w0, w1, w2, w3, w4, w5, w6, w7]
  {
    var tail := w4 + [c4] + (w5 + [c5] + (w6 + [c6] + w7));
    SplitNonWordRun(w7);
    SplitPrepend(w6, c6, w7, [w7]);
    assert [w6] + [w7] == [w6, w7];
    Words2(w4, w5, c4, c5, w6 + [c6] + w7, [w6, w7]);
    assert [w4, w5] + [w6, w7] == [w4, w5, w6, w7];
    Words4(w0, w1, w2, w3, c0, c1, c2, c3, tail, [w4, w5, w6, w7]);
    assert [w0, w1, w2, w3] + [w4, w5, w6, w7] == [w0, w1, w2, w3, w4, w5, w6, w7];
  }

  /** The template is the test's URL. */
  lemma ExampleUrlText()
    ensures ExampleUrl == "http://posttestserver.com/:path:format"
  {
    ExampleUrlParts(ExampleUrl);
    HostThenPlaceholders();
  }

  lemma HostThenPlaceholders()
    ensures Host + ":path" + ":format" == "http://posttestserver.com/:path:format"
  {
  }

  lemma ExampleWords(url: string)
    requires url == ExampleUrl
    ensures url == "http" + [':'] + ("" + ['/'] + ("" + ['/'] + ("posttestserver" + ['.'] + ("com" + ['/'] + ("" + [':'] + ("path" + [':'] + "format"))))))
  {
  }

  lemma ExampleSplit(url: string)
    requires url == ExampleUrl
    ensures SplitNonWord(url) == ["http", "", "", "posttestserver", "com", "", "path", "format"]
  {
    ExampleWords(url);
    Url8("http", "", "", "posttestserver", "com", "", "path", "format", ':', '/', '/', '.', '/', ':', ':');
  }

  /** The colons of the example template. */
  lemma ExampleColons(url: string)
    requires url == ExampleUrl
    ensures forall i :: 0 <= i < |url| && url[i] == ':' ==> i == 4 || i == 26 || i == 31
  {
  }

  lemma ExamplePath(url: string)
    requires url == ExampleUrl
    ensures PlaceholderAt(url, 26, "path") && PlaceholderAt(url, 31, "format")
  {
  }

  lemma NotAfterColon(url: string, t: string)
    requires url == ExampleUrl
    requires |t| > 0 && t[0] != '/' && t[0] != 'f' && (t[0] != 'p' || |t| > 11)
    ensures !OccursAsPlaceholder(url, t)
  {
    ExampleColons(url);
    forall i | 0 <= i < |url| && i + 1 + |t| <= |url| && url[i] == ':'
      ensures url[i + 1..i + 1 + |t|] != t
    {
      assert url[i + 1..i + 1 + |t|][0] == url[i + 1];
    }
  }

  /** Pieces that are not placeholders leave the collection as it was. */
  lemma {:induction false} CollectSkips(url: string, skipped: seq<string>, rest: seq<string>, acc: seq<string>)
    requires Distinct(acc)
    requires forall i :: 0 <= i < |skipped| ==> !IsPlaceholderName(url, skipped[i])
    ensures CollectPlaceholders(url, skipped + rest, acc) == CollectPlaceholders(url, rest, acc)
    decreases |skipped|
  {
    if skipped != [] {
      var all := skipped + rest;
      assert all[0] == skipped[0] && all[1..] == skipped[1..] + rest;
      assert !IsPlaceholderName(url, all[0]);
      assert CollectPlaceholders(url, all, acc) == CollectPlaceholders(url, all[1..], acc);
      CollectSkips(url, skipped[1..], rest, acc);
    } else {
      assert skipped + rest == rest;
    }
  }

  lemma CollectTakes(url: string, pieces: seq<string>, acc: seq<string>)
    requires Distinct(acc) && pieces != [] && IsPlaceholderName(url, pieces[0]) && pieces[0] !in acc
    ensures Distinct(acc + [pieces[0]])
    ensures CollectPlaceholders(url, pieces, acc) == CollectPlaceholders(url, pieces[1..], acc + [pieces[0]])
  {
  }

  lemma CollectLast(url: string, b: string, acc: seq<string>)
    requires Distinct(acc) && IsPlaceholderName(url, b) && b !in acc
    ensures CollectPlaceholders(url, [b], acc) == acc + [b]
  {
    CollectTakes(url, [b], acc);
    assert [b][1..] == [];
  }

  lemma CollectTwo(url: string, a: string, b: string)
    requires IsPlaceholderName(url, a) && IsPlaceholderName(url, b) && a != b
    ensures CollectPlaceholders(url, [a, b], []) == [a, b]
  {
    CollectTakes(url, [a, b], []);
    assert [a, b][1..] == [b];
    assert [] + [a] == [a];
    CollectLast(url, b, [a]);
  }

  lemma CollectExample(url: string, pieces: seq<string>)
    requires pieces == ["http", "", "", "posttestserver", "com", "", "path", "format"]
    requires !IsPlaceholderName(url, "http") && !IsPlaceholderName(url, "posttestserver") && !IsPlaceholderName(url, "com")
    requires IsPlaceholderName(url, "path") && IsPlaceholderName(url, "format")
    ensures CollectPlaceholders(url, pieces, []) == ["path", "format"]
  {
    var skipped := ["http", "", "", "posttestserver", "com", ""];
    var rest := ["path", "format"];
    assert pieces == skipped + rest;
    forall i | 0 <= i < |skipped|
      ensures !IsPlaceholderName(url, skipped[i])
    {
    }
    CollectSkips(url, skipped, rest, []);
    CollectTwo(url, "path", "format");
  }

  lemma PlaceholdersFrom(url: string, pieces: seq<string>, names: seq<string>)
    requires SplitNonWord(url) == pieces && "hasOwnProperty" !in pieces
    requires CollectPlaceholders(url, pieces, []) == names
    ensures Placeholders(url) == Ok(names)
  {
  }

  lemma IsNameAt(url: string, i: nat, t: string)
    requires i < |url| && PlaceholderAt(url, i, t) && t != [] && !IsDigit(t[0])
    ensures IsPlaceholderName(url, t)
  {
  }

  lemma ExampleNames(url: string)
    requires url == ExampleUrl
    ensures IsPlaceholderName(url, "path") && IsPlaceholderName(url, "format")
    ensures !IsPlaceholderName(url, "http") && !IsPlaceholderName(url, "posttestserver") && !IsPlaceholderName(url, "com")
  {
    ExamplePath(url);
    IsNameAt(url, 26, "path");
    IsNameAt(url, 31, "format");
    NotAfterColon(url, "http");
    NotAfterColon(url, "posttestserver");
    NotAfterColon(url, "com");
  }

  lemma PlaceholdersOfPieces(url: string)
    requires SplitNonWord(url) == ["http", "", "", "posttestserver", "com", "", "path", "format"]
    requires IsPlaceholderName(url, "path") && IsPlaceholderName(url, "format")
    requires !IsPlaceholderName(url, "http") && !IsPlaceholderName(url, "posttestserver") && !IsPlaceholderName(url, "com")
    ensures Placeholders(url) == Ok(["path", "format"])
  {
    var pieces := ["http", "", "", "posttestserver", "com", "", "path", "format"];
    assert "hasOwnProperty" !in pieces by {
      forall i | 0 <= i < |pieces|
        ensures pieces[i] != "hasOwnProperty"
      {
        assert |pieces[i]| != 14 || pieces[i][0] != 'h';
      }
    }
    CollectExample(url, pieces);
    PlaceholdersFrom(url, pieces, ["path", "format"]);
  }

  lemma ExamplePlaceholders(url: string)
    requires url == ExampleUrl
    ensures Placeholders(url) == Ok(["path", "format"])
  {
    ExampleSplit(url);
    ExampleNames(url);
    PlaceholdersOfPieces(url);
  }

  lemma ExampleUnescaped(url: string)
    requires url == ExampleUrl
    ensures UnescapeColons(url) == url
  {
    NoBackslash(url);
    NoMatchWithoutChar(url, "\\:", 0);
    ReplaceAllNoMatch(url, "\\:", ":", false);
  }

  lemma NoBackslash(url: string)
    requires url == ExampleUrl
    ensures forall i :: 0 <= i < |url| ==> url[i] != '\\'
  {
  }

  lemma BoundNoBackslash(url: string)
    requires url == BoundUrl
    ensures forall i :: 0 <= i < |url| ==> url[i] != '\\'
  {
  }

  /** Binding two placeholders is two single bindings. */
  lemma BindTwo(url: string, a: string, b: string, params: Fields, defaults: Fields)
    ensures BindAll(url, [a, b], params, defaults)
      == BindOne(BindOne(url, a, PlaceholderValue(params, defaults, a)), b, PlaceholderValue(params, defaults, b))
  {
    var u1 := BindOne(url, a, PlaceholderValue(params, defaults, a));
    assert [a, b][1..] == [b] && [b][1..] == [];
    assert BindAll(url, [a, b], params, defaults) == BindAll(u1, [b], params, defaults);
    assert BindAll(u1, [b], params, defaults) == BindAll(BindOne(u1, b, PlaceholderValue(params, defaults, b)), [], params, defaults);
  }

  /** Only the colon at `i` of a string is followed by `name`. */
  lemma OnlyColonAt(s: string, i: nat, name: string, colons: set<nat>)
    requires name != []
    requires forall j :: 0 <= j < |s| && s[j] == ':' ==> j in colons
    requires forall j :: j in colons && j != i && j + 1 < |s| ==> s[j + 1] != name[0]
    ensures forall j :: 0 <= j < |s| && j != i ==> !ColonNameAt(s, j, name)
  {
  }

  lemma PathOnce(url: string)
    requires url == ExampleUrl
    ensures forall j :: 0 <= j < |url| && j != 26 ==> !ColonNameAt(url, j, "path")
  {
    ExampleColons(url);
    OnlyColonAt(url, 26, "path", {4, 26, 31});
  }

  lemma PathSubstituted(url: string)
    requires url == ExampleUrl
    ensures Substitute(url, "path", "post") == url[..26] + "post" + url[31..]
  {
    ExamplePath(url);
    PathOnce(url);
    SubstituteSingle(url, "path", "post", 26);
  }

  lemma PathSlices(url: string)
    requires url == ExampleUrl
    ensures url[..26] + "post" + url[31..] == HalfBoundUrl
  {
    ExampleUrlParts(url);
    ThreeSlices(Host, ":path", ":format");
    HalfBoundParts();
  }

  /** The scheme, host and the slash before the first placeholder. */
  const Host: string := "http://posttestserver.com/"

  lemma ExampleUrlParts(url: string)
    requires url == ExampleUrl
    ensures url == Host + ":path" + ":format" && |Host| == 26
  {
    ExampleHost(url);
    ExamplePlaceholderPart(url);
    assert url == url[..26] + url[26..];
  }

  lemma ExampleHost(url: string)
    requires url == ExampleUrl
    ensures url[..26] == Host
  {
  }

  lemma ExamplePlaceholderPart(url: string)
    requires url == ExampleUrl
    ensures url[26..] == ":path" + ":format"
  {
  }

  lemma HalfBoundParts()
    ensures HalfBoundUrl == Host + "post" + ":format"
  {
  }

  lemma ThreeSlices(a: string, b: string, c: string)
    ensures (a + b + c)[..|a|] == a && (a + b + c)[|a| + |b|..] == c
  {
  }

  /** The URL once `:path` is bound. */
  const HalfBoundUrl: string := "http://posttestserver.com/post:format"

  lemma BindPath(url: string)
    requires url == ExampleUrl
    ensures Substitute(url, "path", "post") == HalfBoundUrl
  {
    PathSubstituted(url);
    PathSlices(url);
  }

  lemma FormatOnce(url: string)
    requires url == HalfBoundUrl
    ensures ColonNameAt(url, 30, "format")
    ensures forall j :: 0 <= j < |url| && j != 30 ==> !ColonNameAt(url, j, "format")
  {
    assert forall i :: 0 <= i < |url| && url[i] == ':' ==> i == 4 || i == 30;
    OnlyColonAt(url, 30, "format", {4, 30});
  }

  lemma FormatSubstituted(url: string)
    requires url == HalfBoundUrl
    ensures Substitute(url, "format", ".php") == url[..30] + ".php"
  {
    FormatOnce(url);
    SubstituteSingle(url, "format", ".php", 30);
    assert url[37..] == [];
  }

  lemma BindFormat(url: string)
    requires url == HalfBoundUrl
    ensures Substitute(url, "format", ".php") == BoundUrl
  {
    FormatSubstituted(url);
    FormatSlices(url);
  }

  lemma FormatSlices(url: string)
    requires url == HalfBoundUrl
    ensures url[..30] + ".php" == BoundUrl
  {
  }

  lemma DefaultValues(defaults: Fields)
    ensures PlaceholderValue(ExampleDefaults, defaults, "path") == Str("post")
    ensures PlaceholderValue(ExampleDefaults, defaults, "format") == Str(".php")
    ensures Get(ExampleDefaults, "dir") == Str(DirValue)
  {
    assert UniqueKeys(ExampleDefaults);
    GetUnique(ExampleDefaults, 0);
    GetUnique(ExampleDefaults, 1);
    GetUnique(ExampleDefaults, 2);
    assert Has(ExampleDefaults, "path") && Has(ExampleDefaults, "format") by {
      assert ExampleDefaults[0].0 == "path" && ExampleDefaults[1].0 == "format";
    }
  }

  lemma SegmentKept(s: string)
    requires s == "post" || s == ".php"
    ensures EncodeUriSegment(s) == s
  {
    assert forall i :: 0 <= i < |s| ==> IsUriUnreserved(s[i]);
    SegmentKeepsLiterals(s);
  }

  /** Both placeholders take their default values, which need no escaping. */
  lemma ExampleBound(url: string, defaults: Fields)
    requires url == ExampleUrl
    ensures BindAll(url, ["path", "format"], ExampleDefaults, defaults) == BoundUrl
  {
    DefaultValues(defaults);
    BindTwo(url, "path", "format", ExampleDefaults, defaults);
    BindPathValue(url, "post");
    BindFormatValue(HalfBoundUrl, ".php");
  }

  lemma BindPathValue(url: string, v: string)
    requires url == ExampleUrl && v == "post"
    ensures BindOne(url, "path", Str(v)) == HalfBoundUrl
  {
    SegmentKept(v);
    BindPath(url);
  }

  lemma BindFormatValue(url: string, v: string)
    requires url == HalfBoundUrl && v == ".php"
    ensures BindOne(url, "format", Str(v)) == BoundUrl
  {
    SegmentKept(v);
    BindFormat(url);
  }

  /** The bound URL passes the clean-up unchanged: it does not end with a slash
      and holds neither `/.` nor `/\.`. */
  lemma ExampleFinished(url: string)
    requires url == BoundUrl
    ensures FinishUrl(url, true) == url
  {
    StripKeepsUnslashed(url);
    BoundNotCollapsible(url);
    BoundNoBackslash(url);
    NoMatchWithoutChar(url, "/\\.", 1);
  }

  lemma BoundSlashes(url: string)
    requires url == BoundUrl
    ensures forall j :: 0 <= j < |url| && url[j] == '/' ==> j == 5 || j == 6 || j == 25
    ensures url[6] == '/' && url[7] == 'p' && url[26] == 'p'
  {
  }

  lemma BoundNotCollapsible(url: string)
    requires url == BoundUrl
    ensures forall j :: !CollapsibleAt(url, j)
  {
    BoundSlashes(url);
  }

  /** The placeholders take `path` and `format`; `dir` goes to `config.params`,
      which did not exist before. */
  lemma ExampleForward(config: Fields)
    requires !Has(config, "params")
    ensures ForwardEntries(config, ExampleDefaults, ["path", "format"])
      == config + [("params", Obj([("dir", Str(DirValue))]))]
  {
    var names := ["path", "format"];
    var d := ExampleDefaults;
    assert d[0].0 in names && d[1].0 in names && d[2].0 !in names;
    assert ForwardEntries(config, d, names) == ForwardEntries(config, d[1..], names);
    assert ForwardEntries(config, d[1..], names) == ForwardEntries(config, d[2..], names);
    assert Get(config, "params") == Undefined;
    assert AddParam(config, "dir", Str(DirValue)) == config + [("params", Obj([("dir", Str(DirValue))]))];
    assert ForwardEntries(config, d[2..], names)
      == ForwardEntries(AddParam(config, "dir", Str(DirValue)), d[3..], names);
    assert d[3..] == [];
  }

  /** `setUrlParams` in terms of its stages. */
  lemma SetUrlParamsStages(route: Route, config: Fields, params: Fields, actionUrl: Value,
                           url: string, names: seq<string>, bound: string)
    requires EffectiveUrl(route, actionUrl) == Ok(url) && Placeholders(url) == Ok(names)
    requires BindAll(UnescapeColons(url), names, params, route.defaults) == bound
    requires Truthy(Get(route.defaults, "stripTrailingSlashes")) && FinishUrl(bound, true) == bound
    ensures SetUrlParams(route, config, params, actionUrl) == Ok(ForwardLeftovers(Set(config, "url", Str(bound)), Obj(params), names))
  {
  }

  lemma ExampleBindsTemplate(url: string, defaults: Fields)
    requires url == ExampleUrl
    ensures Placeholders(url) == Ok(["path", "format"])
    ensures BindAll(UnescapeColons(url), ["path", "format"], ExampleDefaults, defaults) == BoundUrl
  {
    ExamplePlaceholders(url);
    ExampleUnescaped(url);
    ExampleBound(url, defaults);
  }

  lemma StagesWithDefaults(route: Route, config: Fields, url: string, bound: string)
    requires EffectiveUrl(route, Undefined) == Ok(url)
    requires Placeholders(url) == Ok(["path", "format"])
    requires BindAll(UnescapeColons(url), ["path", "format"], ExampleDefaults, route.defaults) == bound
    requires Truthy(Get(route.defaults, "stripTrailingSlashes")) && FinishUrl(bound, true) == bound
    ensures SetUrlParams(route, config, ExampleDefaults, Undefined)
      == Ok(ForwardLeftovers(Set(config, "url", Str(bound)), Obj(ExampleDefaults), ["path", "format"]))
  {
    SetUrlParamsStages(route, config, ExampleDefaults, Undefined, url, ["path", "format"], bound);
  }
  lemma ForwardAfterUrl(config: Fields, bound: string)
    requires !Has(config, "params") && !Has(config, "url")
    ensures ForwardLeftovers(Set(config, "url", Str(bound)), Obj(ExampleDefaults), ["path", "format"])
      == config + [("url", Str(bound)), ("params", Obj([("dir", Str(DirValue))]))]
  {
    var c := Set(config, "url", Str(bound));
    DefaultsWalked();
    WalkedAsWritten(c, ExampleDefaults, ["path", "format"]);
    GetSetOther(config, "url", Str(bound), "params");
    ExampleForward(c);
    assert c + [("params", Obj([("dir", Str(DirValue))]))]
      == config + [("url", Str(bound)), ("params", Obj([("dir", Str(DirValue))]))];
  }

  lemma WalkedAsWritten(config: Fields, f: Fields, names: seq<string>)
    requires ForEachEntries(Obj(f)) == f
    ensures ForwardLeftovers(config, Obj(f), names) == ForwardEntries(config, f, names)
  {
  }

  /** `setUrlParams` on the example: the bound URL and the one leftover. */
  lemma ExampleSetUrlParams(route: Route, config: Fields)
    requires route.template == Str(ExampleUrl)
    requires Truthy(Get(route.defaults, "stripTrailingSlashes"))
    requires !Has(config, "params") && !Has(config, "url")
    ensures SetUrlParams(route, config, ExampleDefaults, Undefined)
      == Ok(config + [("url", Str(BoundUrl)), ("params", Obj([("dir", Str(DirValue))]))])
  {
    ExampleBindsTemplate(ExampleUrl, route.defaults);
    ExampleFinished(BoundUrl);
    StagesWithDefaults(route, config, ExampleUrl, BoundUrl);
    ForwardAfterUrl(config, BoundUrl);
  }

  /** Parameters that are plain strings not starting with `@` resolve to
      themselves; with distinct keys they are appended in order. */
  lemma {:induction false} ResolvePlain(data: Value, entries: Fields, acc: Fields)
    requires UniqueKeys(acc + entries)
    requires forall i :: 0 <= i < |entries| ==> entries[i].1.Str? && !IsExtractor(entries[i].1)
    ensures ResolveInto(data, entries, acc) == Ok(acc + entries)
    decreases |entries|
  {
    if entries == [] {
      assert acc + entries == acc;
    } else {
      var (k, v) := entries[0];
      assert ResolveParam(data, v) == Ok(v);
      assert !Has(acc, k) by {
        forall i | 0 <= i < |acc|
          ensures acc[i].0 != k
        {
          assert (acc + entries)[i] == acc[i] && (acc + entries)[|acc|] == entries[0];
        }
      }
      assert Set(acc, k, v) == acc + [entries[0]];
      assert (acc + [entries[0]]) + entries[1..] == acc + entries;
      ResolvePlain(data, entries[1..], acc + [entries[0]]);
    }
  }

  lemma DefaultsUnique()
    ensures UniqueKeys(ExampleDefaults)
    ensures forall i :: 0 <= i < |ExampleDefaults| ==> ExampleDefaults[i].1.Str? && !IsExtractor(ExampleDefaults[i].1)
  {
  }

  /** An action without parameters extracts the resource defaults unchanged. */
  lemma ExampleExtract(data: Value)
    ensures ExtractParams(Obj(ExampleDefaults), data, Obj([])) == Ok(ExampleDefaults)
  {
    DefaultsUnique();
    assert [] + ExampleDefaults == ExampleDefaults;
    AssignDisjoint([], ExampleDefaults);
    assert ActionParamEntries(Obj(ExampleDefaults), Obj([])) == ExampleDefaults;
    DefaultsWalked();
    ResolvePlain(data, ExampleDefaults, []);
  }

  /** The defaults have no array-index key, so `forEach` visits them as written. */
  lemma DefaultsInOrder()
    ensures Enumerate(ExampleDefaults) == ExampleDefaults
  {
    DefaultsUnique();
    LetterKey("path");
    LetterKey("format");
    LetterKey("dir");
    NamedInOrder(ExampleDefaults);
  }

  /** Without a `length` entry, `forEach` visits the defaults as written. */
  lemma DefaultsWalked()
    ensures ForEachEntries(Obj(ExampleDefaults)) == ExampleDefaults
  {
    assert Get(ExampleDefaults, "length") == Undefined;
    DefaultsInOrder();
  }

  /** An action holding only its method copies to a configuration holding
      just that method. */
  lemma MethodCopy(m: string)
    ensures CopyAction(MethodAction(m)) == [("method", Str(m))]
  {
    var f := [("method", Str(m))];
    MethodWalked(m);
    assert f[..0] == [];
    assert Without(f, IsSkippedActionKey) == f;
    assert Assign([], f) == f;
  }

  lemma MethodWalked(m: string)
    ensures ForEachEntries(MethodAction(m)) == [("method", Str(m))]
  {
    var f := [("method", Str(m))];
    assert Get(f, "length") == Undefined;
    LetterKey("method");
    OneInOrder("method", Str(m));
  }

  /** The `get` action copies to a configuration holding just its method. */
  lemma GetActionCopy()
    ensures ActionParams(MethodAction("GET")) == Obj([])
    ensures CopyAction(MethodAction("GET")) == [("method", Str("GET"))]
  {
    MethodCopy("GET");
  }

  /** `processMethod` after the classifier, in terms of its stages. */
  lemma BuildRequestStages(res: Resource, hasBody: bool, action: Value, call: Call, ids: Fields, config: Fields, out: Fields)
    requires ExtractParams(res.paramDefaults, call.data, ActionParams(action)) == Ok(ids)
    requires BaseConfig(hasBody, action, call) == config
    requires SetUrlParams(res.route, config, Extend(Obj(ids), call.params), Prop(action, "url")) == Ok(out)
    ensures BuildRequest(res, hasBody, action, call) == Ok(Request(out, call.success, call.error))
  {
  }

  lemma ExampleMerged()
    ensures Extend(Obj(ExampleDefaults), Undefined) == ExampleDefaults
  {
    DefaultsUnique();
    assert [] + ExampleDefaults == ExampleDefaults;
    AssignDisjoint([], ExampleDefaults);
  }

  lemma MethodOnly()
    ensures !Has([("method", Str("GET"))], "params") && !Has([("method", Str("GET"))], "url")
  {
    assert "method"[0] != "params"[0];
  }

  /** The parameters extracted for the `get` action: the defaults, unchanged. */
  lemma ExampleIds(res: Resource)
    requires res.paramDefaults == Obj(ExampleDefaults)
    ensures ExtractParams(res.paramDefaults, Undefined, ActionParams(MethodAction("GET"))) == Ok(ExampleDefaults)
  {
    GetActionCopy();
    ExampleExtract(Undefined);
  }

  /** The configuration for the `get` action once the URL is set. */
  lemma ExampleUrlStage(route: Route)
    requires route.template == Str(ExampleUrl) && Truthy(Get(route.defaults, "stripTrailingSlashes"))
    ensures SetUrlParams(route, [("method", Str("GET"))], Extend(Obj(ExampleDefaults), Undefined), Undefined)
      == Ok(ExampleConfig)
  {
    var base := [("method", Str("GET"))];
    ExampleMerged();
    MethodOnly();
    ExampleSetUrlParams(route, base);
    ConfigParts();
  }

  lemma ConfigParts()
    ensures [("method", Str("GET"))] + [("url", Str(BoundUrl)), ("params", Obj([("dir", Str(DirValue))]))] == ExampleConfig
  {
  }

  /** The `get` action of the example resource, with no arguments. */
  lemma ExampleBuildRequest(res: Resource)
    requires res.paramDefaults == Obj(ExampleDefaults)
    requires res.route.template == Str(ExampleUrl) && Truthy(Get(res.route.defaults, "stripTrailingSlashes"))
    ensures BuildRequest(res, false, MethodAction("GET"), Call(Undefined, Undefined, Undefined, Undefined))
      == Ok(Request(ExampleConfig, Undefined, Undefined))
  {
    var action := MethodAction("GET");
    var call := Call(Undefined, Undefined, Undefined, Undefined);
    GetActionCopy();
    ExampleIds(res);
    ExampleUrlStage(res.route);
    BuildRequestStages(res, false, action, call, ExampleDefaults, [("method", Str("GET"))], ExampleConfig);
  }

  /** `getConfig('get')` on a resource with the example's template, defaults
      and `get` action. */
  lemma ExampleGetConfig(res: Resource)
    requires res.paramDefaults == Obj(ExampleDefaults)
    requires res.route.template == Str(ExampleUrl) && Truthy(Get(res.route.defaults, "stripTrailingSlashes"))
    requires Has(res.actions, "get") && Get(res.actions, "get") == MethodAction("GET")
    ensures GetConfig(res, Str("get"), Undefined, Undefined) == Ok(ExampleConfig)
  {
    assert ConfigAction(res, Str("get")) == MethodAction("GET");
    ExampleProcess(res, ConfigAction(res, Str("get")), [Undefined, Undefined]);
  }

  /** `processMethod` for the `get` action with two empty argument slots. */
  lemma ExampleProcess(res: Resource, action: Value, args: seq<Value>)
    requires res.paramDefaults == Obj(ExampleDefaults)
    requires res.route.template == Str(ExampleUrl) && Truthy(Get(res.route.defaults, "stripTrailingSlashes"))
    requires action == MethodAction("GET") && args == [Undefined, Undefined]
    ensures ProcessMethod(res, false, action, args) == Ok(Request(ExampleConfig, Undefined, Undefined))
  {
    EmptySlots(args);
    ExampleBuildRequest(res);
  }


  lemma EmptySlots(args: seq<Value>)
    requires args == [Undefined, Undefined]
    ensures Classify(false, args) == Ok(Call(Undefined, Undefined, Undefined, Undefined))
  {
  }

  lemma SlashEscaped()
    ensures EncodeUriComponent("/") == "%2F"
  {
    assert Utf8('/') == [0x2F];
    assert PctBytes([0x2F]) == PctByte(0x2F);
  }

  lemma TwoSegmentsEncoded(a: string, b: string, sep: string, esc: string)
    requires forall i :: 0 <= i < |a| ==> IsUriUnreserved(a[i])
    requires forall i :: 0 <= i < |b| ==> IsUriUnreserved(b[i])
    requires EncodeUriComponent(sep) == esc
    ensures EncodeUriComponent(a + sep + b + sep) == a + esc + b + esc
  {
    ComponentKeepsUnreserved(a);
    ComponentKeepsUnreserved(b);
    ComponentAppend(a, sep);
    ComponentAppend(a + sep, b);
    ComponentAppend(a + sep + b, sep);
  }

  lemma Unreserved(s: string)
    requires s == "nodejs" || s == "service-url" || s == "dir"
    ensures forall i :: 0 <= i < |s| ==> IsUriUnreserved(s[i])
  {
    forall i | 0 <= i < |s|
      ensures IsUriUnreserved(s[i])
    {
      assert IsAlpha(s[i]) || s[i] == '-';
    }
  }

  lemma DirParts()
    ensures DirValue == "nodejs" + "/" + "service-url" + "/"
    ensures "nodejs" + "%2F" + "service-url" + "%2F" == "nodejs%2Fservice-url%2F"
  {
  }

  lemma DirEncoded()
    ensures EncodeUriComponent(DirValue) == "nodejs%2Fservice-url%2F"
  {
    Unreserved("nodejs");
    Unreserved("service-url");
    DirParts();
    SlashEscaped();
    TwoSegmentsEncoded("nodejs", "service-url", "/", "%2F");
  }

  lemma DirPiece()
    ensures Piece(("dir", Str(DirValue)), "") == EncodeUriComponent("dir") + "=" + EncodeUriComponent(DirValue)
  {
  }

  lemma DirPieces()
    ensures ObjToUrl([("dir", Str(DirValue))], "") == Piece(("dir", Str(DirValue)), "")
  {
    LetterKey("dir");
    OnePiece(("dir", Str(DirValue)), "");
  }

  lemma DirKey()
    ensures EncodeUriComponent("dir") == "dir"
  {
    Unreserved("dir");
    ComponentKeepsUnreserved("dir");
  }

  lemma DirConcat()
    ensures "dir" + "=" + "nodejs%2Fservice-url%2F" == "dir=nodejs%2Fservice-url%2F"
  {
  }

  /** The leftover `dir` becomes the query string. */
  lemma ExampleQuery()
    ensures QueryOf(Obj([("dir", Str(DirValue))])) == "dir=nodejs%2Fservice-url%2F"
  {
    DirPiece();
    DirPieces();
    DirKey();
    DirEncoded();
    DirConcat();
  }

  /** `getUrl` in terms of its stages, for a URL without a `?`. */
  lemma GetUrlStages(res: Resource, a1: Value, a2: Value, a3: Value, config: Fields, url: string, query: string)
    requires GetConfig(res, a1, a2, a3) == Ok(config)
    requires Get(config, "url") == Str(url) && '?' !in url
    requires QueryOf(Get(config, "params")) == query && query != ""
    ensures GetUrl(res, a1, a2, a3) == Ok(url + "?" + query)
  {
  }

  lemma ExampleConfigReads()
    ensures Get(ExampleConfig, "url") == Str(BoundUrl)
    ensures Get(ExampleConfig, "params") == Obj([("dir", Str(DirValue))])
  {
    assert "params" != "url";
  }

  lemma NoQuestionMark()
    ensures '?' !in BoundUrl
  {
  }

  /** `getUrl('get')` on a resource with the example's template, defaults
      and `get` action: both placeholders bound from the defaults, the
      unused `dir` appended as an encoded query string. */
  lemma ExampleGetUrl(res: Resource)
    requires res.paramDefaults == Obj(ExampleDefaults)
    requires res.route.template == Str(ExampleUrl) && Truthy(Get(res.route.defaults, "stripTrailingSlashes"))
    requires Has(res.actions, "get") && Get(res.actions, "get") == MethodAction("GET")
    ensures GetUrl(res, Str("get"), Undefined, Undefined) == Ok(ExpectedUrl)
  {
    ExampleGetConfig(res);
    ExampleConfigReads();
    ExampleQuery();
    NoQuestionMark();
    GetUrlStages(res, Str("get"), Undefined, Undefined, ExampleConfig, BoundUrl, "dir=nodejs%2Fservice-url%2F");
  }

  // ---------------------------------------------------------------------------
  // The resource the test builds
  // ---------------------------------------------------------------------------

  predicate AllPresent(f: Fields) {
    forall i :: 0 <= i < |f| ==> !IsNothing(f[i].1)
  }

  /** `extend` of objects without `null` or `undefined` values has none. */
  lemma {:induction false} AssignPresent(dst: Fields, src: Fields)
    requires AllPresent(dst) && AllPresent(src)
    ensures AllPresent(Assign(dst, src))
    decreases |src|
  {
    if src != [] {
      var (k, v) := src[0];
      var d := Set(dst, k, v);
      assert AllPresent(d) by {
        if !Has(dst, k) {
          assert d == dst + [(k, v)];
        }
      }
      AssignPresent(d, src[1..]);
    }
  }

  /** The last entry with a key is the one read. */
  lemma {:induction false} GetAt(f: Fields, i: nat, k: string)
    requires i < |f| && f[i].0 == k
    requires forall j :: i < j < |f| ==> f[j].0 != k
    ensures Get(f, k) == f[i].1
    decreases |f|
  {
    if i < |f| - 1 {
      GetAt(f[..|f| - 1], i, k);
    }
  }

  lemma ExampleGetAction()
    ensures Has(ExampleActions, "get") && Get(ExampleActions, "get") == MethodAction("GET")
  {
    assert ExampleActions[2].0 == "get";
    assert |"save"| != 3 && |"remove"| != 3 && |"delete"| != 3 && |"query"| != 3;
    GetAt(ExampleActions, 2, "get");
  }

  lemma ActionsPresent()
    ensures AllPresent(ExampleActions) && AllPresent(DefaultActions)
  {
  }

  lemma BuiltinReads()
    ensures ServiceDefaults(Undefined) == BuiltinDefaults
    ensures Get(BuiltinDefaults, "actions") == Obj(DefaultActions)
    ensures Get(BuiltinDefaults, "stripTrailingSlashes") == Bool(true)
  {
  }

  /** Neither table has a `length` entry, so the wrappers loop walks the
      merged actions by name. */
  lemma ExampleMergeNamed()
    ensures !IsArrayLike(Obj(MergeActions(BuiltinDefaults, Obj(ExampleActions))))
  {
    BuiltinReads();
    OverlayGet([], Obj(DefaultActions), "length");
    DefaultsNoLength();
    ExampleNoLength();
    NoLengthMerged(BuiltinDefaults, ExampleActions);
  }

  lemma NoLengthMerged(serviceDefaults: Fields, actions: Fields)
    requires !Has(actions, "length") && !Has(Overlay([], Get(serviceDefaults, "actions")), "length")
    ensures !IsArrayLike(Obj(MergeActions(serviceDefaults, Obj(actions))))
  {
  }

  lemma DefaultsNoLength()
    ensures !Has(DefaultActions, "length")
  {
  }

  lemma ExampleNoLength()
    ensures !Has(ExampleActions, "length")
  {
  }

  lemma ExampleMergePresent()
    ensures AllPresent(MergeActions(BuiltinDefaults, Obj(ExampleActions)))
  {
    BuiltinReads();
    ActionsPresent();
    AssignPresent([], DefaultActions);
    AssignPresent(Assign([], DefaultActions), ExampleActions);
  }

  /** The test's `service.resource(exampleUrl, exampleDefaultParams,
      exampleActions)` on a service without provider defaults. */
  function ExampleResource(): Result<Resource> {
    ResourceFactory(BuiltinDefaults, Str(ExampleUrl), Obj(ExampleDefaults), Obj(ExampleActions), Undefined)
  }

  /** The factory accepts the test's actions and keeps the template, the
      defaults and the built-in slash stripping. */
  lemma ExampleResourceShape()
    ensures ExampleResource().Ok?
    ensures ExampleResource().value.paramDefaults == Obj(ExampleDefaults)
    ensures ExampleResource().value.route.template == Str(ExampleUrl)
    ensures Truthy(Get(ExampleResource().value.route.defaults, "stripTrailingSlashes"))
  {
    BuiltinReads();
    ExampleMergeNamed();
    ExampleMergePresent();
  }

  /** The test's `get` action is the built-in one. */
  lemma ExampleResourceGet()
    requires ExampleResource().Ok?
    ensures Has(ExampleResource().value.actions, "get")
    ensures Get(ExampleResource().value.actions, "get") == MethodAction("GET")
  {
    ExampleGetAction();
    FactoryActions(Str(ExampleUrl), Obj(ExampleDefaults), Obj(ExampleActions), Undefined, "get");
  }

  /** The test's `service.resource(exampleUrl, exampleDefaultParams,
      exampleActions)` builds a resource, and its `getUrl('get')` is the URL the
      test expects (test/index.js:1-62, 86). */
  lemma RepositoryGetUrl()
    ensures var r := ResourceFactory(ServiceDefaults(Undefined), Str(ExampleUrl), Obj(ExampleDefaults), Obj(ExampleActions), Undefined);
      r.Ok? && GetUrl(r.value, Str("get"), Undefined, Undefined) == Ok(ExpectedUrl)
  {
    BuiltinServiceDefaults();
    ExampleResourceShape();
    ExampleResourceGet();
    ExampleGetUrl(ExampleResource().value);
  }
}

=== FILE: template.dfy ===
/** The URL-template scanners of `Route.prototype.setUrlParams` (index.js:147-186):
    finding the placeholders, binding or removing each one, stripping trailing
    slashes and the two `/.` rewrites. Each regular expression of the source is a
    hand-written scanner here, paired with a declarative description of what it
    matches. */
module Template {
  import opened Chars
  import opened Text
  import opened Results

  predicate Distinct<T(==)>(s: seq<T>) {
    forall i, j :: 0 <= i < j < |s| ==> s[i] != s[j]
  }

  // ---------------------------------------------------------------------------
  // Placeholder discovery (index.js:147-155)
  // ---------------------------------------------------------------------------

  /** `url.split(/\W/)`: cut at every non-word character. */
  function SplitNonWord(s: string): (parts: seq<string>)
    ensures |parts| > 0
    ensures forall i :: 0 <= i < |parts| ==> AllWord(parts[i])
    decreases |s|
  {
    if s == [] then [[]]
    else
      var rest := SplitNonWord(s[1..]);
      if IsWord(s[0]) then [[s[0]] + rest[0]] + rest[1..] else [[]] + rest
  }

  /** `t` is a maximal run of word characters of `s` starting at `i`: it is
      bounded on each side by a non-word character or an end of `s`. */
  predicate WordRunAt(s: string, i: nat, t: string) {
    && i + |t| <= |s|
    && s[i..i + |t|] == t
    && AllWord(t)
    && (i == 0 || !IsWord(s[i - 1]))
    && (i + |t| == |s| || !IsWord(s[i + |t|]))
  }

  lemma WordRunShift(c: char, s: string, i: nat, t: string)
    requires i >= 1
    ensures WordRunAt([c] + s, i + 1, t) <==> WordRunAt(s, i, t)
  {
    var cs := [c] + s;
    if i + 1 + |t| <= |cs| {
      assert cs[i + 1..i + 1 + |t|] == s[i..i + |t|];
    }
  }

  lemma WordRunAfterFirst(c: char, s: string, t: string)
    ensures WordRunAt([c] + s, 1, t) <==> WordRunAt(s, 0, t) && !IsWord(c)
  {
    var cs := [c] + s;
    if 1 + |t| <= |cs| {
      assert cs[1..1 + |t|] == s[..|t|];
    }
  }

  lemma WordRunAtStart(c: char, s: string, t: string)
    requires IsWord(c)
    ensures WordRunAt([c] + s, 0, t) <==> |t| > 0 && t[0] == c && WordRunAt(s, 0, t[1..])
  {
    var cs := [c] + s;
    if |t| > 0 && t[0] == c && WordRunAt(s, 0, t[1..]) {
      assert cs[..|t|] == [c] + s[..|t| - 1] == t;
    }
    if WordRunAt(cs, 0, t) {
      assert |t| > 0;
      assert t[1..] == cs[1..|t|] == s[..|t| - 1];
    }
  }

  /** What `SplitNonWordRunsIndexed` states about one string and one piece. */
  predicate SplitFacts(s: string, t: string) {
    && (t == SplitNonWord(s)[0] <==> WordRunAt(s, 0, t))
    && (t in SplitNonWord(s)[1..] <==> exists i :: 1 <= i <= |s| && WordRunAt(s, i, t))
  }

  lemma ShiftAll(c: char, s': string, t: string)
    ensures forall i :: 1 <= i ==> (WordRunAt([c] + s', i + 1, t) <==> WordRunAt(s', i, t))
  {
    forall i | 1 <= i
      ensures WordRunAt([c] + s', i + 1, t) <==> WordRunAt(s', i, t)
    {
      WordRunShift(c, s', i, t);
    }
  }

  /** The step of the induction when the string starts with a word character:
      it extends the first piece. */
  lemma SplitStepWord(c: char, s': string, t: string)
    requires IsWord(c)
    requires SplitFacts(s', t) && (|t| > 0 ==> SplitFacts(s', t[1..]))
    ensures SplitFacts([c] + s', t)
  {
    var s := [c] + s';
    var parts, rest := SplitNonWord(s), SplitNonWord(s');
    assert s[0] == c && s[1..] == s';
    ShiftAll(c, s', t);
    assert parts == [[c] + rest[0]] + rest[1..];
    WordRunAtStart(c, s', t);
    if |t| > 0 && t[0] == c {
      assert t == [c] + t[1..];
    }
    if t in parts[1..] {
      var i :| 1 <= i <= |s'| && WordRunAt(s', i, t);
      assert WordRunAt(s, i + 1, t);
    }
    if exists i :: 1 <= i <= |s| && WordRunAt(s, i, t) {
      var i :| 1 <= i <= |s| && WordRunAt(s, i, t);
      WordRunAfterFirst(c, s', t);
      assert i >= 2;
      assert WordRunAt(s', i - 1, t);
    }
  }

  /** The step of the induction when the string starts with a separator: it
      puts an empty piece in front. */
  lemma SplitStepSeparator(c: char, s': string, t: string)
    requires !IsWord(c)
    requires SplitFacts(s', t)
    ensures SplitFacts([c] + s', t)
  {
    var s := [c] + s';
    var parts, rest := SplitNonWord(s), SplitNonWord(s');
    assert s[0] == c && s[1..] == s';
    ShiftAll(c, s', t);
    WordRunAfterFirst(c, s', t);
    assert parts == [[]] + rest;
    assert parts[1..] == rest;
    if WordRunAt(s, 0, t) {
      assert t == [];
    }
    if t in rest {
      if t == rest[0] {
        assert WordRunAt(s, 1, t);
      } else {
        assert t in rest[1..];
        var i :| 1 <= i <= |s'| && WordRunAt(s', i, t);
        assert WordRunAt(s, i + 1, t);
      }
    }
    if exists i :: 1 <= i <= |s| && WordRunAt(s, i, t) {
      var i :| 1 <= i <= |s| && WordRunAt(s, i, t);
      if i >= 2 {
        assert WordRunAt(s', i - 1, t);
        assert t in rest[1..];
      }
    }
  }

  lemma {:induction false} SplitNonWordRunsIndexed(s: string, t: string)
    ensures t == SplitNonWord(s)[0] <==> WordRunAt(s, 0, t)
    ensures t in SplitNonWord(s)[1..] <==> exists i :: 1 <= i <= |s| && WordRunAt(s, i, t)
    decreases |s|
  {
    if s == [] {
      assert SplitNonWord(s) == [[]];
    } else {
      var c, s' := s[0], s[1..];
      assert s == [c] + s';
      SplitNonWordRunsIndexed(s', t);
      if |t| > 0 {
        SplitNonWordRunsIndexed(s', t[1..]);
      }
      if IsWord(c) {
        SplitStepWord(c, s', t);
      } else {
        SplitStepSeparator(c, s', t);
      }
    }
  }

  /** The pieces of `url.split(/\W/)` are exactly the maximal word runs of the URL
      (including the empty runs between two adjacent separators). */
  lemma SplitNonWordRuns(s: string, t: string)
    ensures t in SplitNonWord(s) <==> exists i :: 0 <= i <= |s| && WordRunAt(s, i, t)
  {
    SplitNonWordRunsIndexed(s, t);
    var parts := SplitNonWord(s);
    assert parts == [parts[0]] + parts[1..];
  }

  /** `:name` followed by a non-word character or the end of `s`: a match of
      `:name(\W|$)` whose colon is at `i`. */
  predicate ColonNameAt(s: string, i: nat, name: string) {
    && i + 1 + |name| <= |s|
    && s[i] == ':'
    && s[i + 1..i + 1 + |name|] == name
    && (i + 1 + |name| == |s| || !IsWord(s[i + 1 + |name|]))
  }

  /** A match of `(^|[^\\]):name(\W|$)` whose colon is at `i`: the colon is not
      escaped by a backslash. */
  predicate PlaceholderAt(url: string, i: nat, name: string) {
    ColonNameAt(url, i, name) && (i == 0 || url[i - 1] != '\\')
  }

  predicate OccursAsPlaceholder(url: string, name: string) {
    exists i :: 0 <= i < |url| && PlaceholderAt(url, i, name)
  }

  /** The condition under which a split piece becomes a placeholder: it is not
      empty, not all digits, and occurs as an unescaped `:name`. */
  predicate IsPlaceholderName(url: string, t: string) {
    t != [] && !AllDigits(t) && OccursAsPlaceholder(url, t)
  }

  /** The `forEach` over the split pieces: each qualifying piece is recorded the
      first time it is met. */
  function CollectPlaceholders(url: string, pieces: seq<string>, acc: seq<string>): (names: seq<string>)
    requires Distinct(acc)
    ensures Distinct(names)
    ensures acc <= names
    ensures forall t :: t in names <==> t in acc || (t in pieces && IsPlaceholderName(url, t))
    decreases |pieces|
  {
    if pieces == [] then acc
    else
      var t := pieces[0];
      var acc' := if IsPlaceholderName(url, t) && t !in acc then acc + [t] else acc;
      assert forall u :: u in pieces <==> u == t || u in pieces[1..] by {
        assert pieces == [t] + pieces[1..];
      }
      CollectPlaceholders(url, pieces[1..], acc')
  }

  /** The placeholders of a URL in order of first appearance, or `badname` when
      a piece of the URL is `hasOwnProperty`. */
  function Placeholders(url: string): (r: Result<seq<string>>)
    ensures r.Err? <==> "hasOwnProperty" in SplitNonWord(url)
    ensures r.Err? ==> r.error == BadName
    ensures r.Ok? ==> Distinct(r.value)
    ensures r.Ok? ==> forall t :: t in r.value <==> t in SplitNonWord(url) && IsPlaceholderName(url, t)
  {
    var pieces := SplitNonWord(url);
    if "hasOwnProperty" in pieces then Err(BadName)
    else Ok(CollectPlaceholders(url, pieces, []))
  }

  /** A word run that occurs as an unescaped `:name` is itself a piece of the
      split: the split adds no condition of its own. */
  lemma PlaceholderIsPiece(url: string, t: string)
    requires AllWord(t) && OccursAsPlaceholder(url, t)
    ensures t in SplitNonWord(url)
  {
    var i :| 0 <= i < |url| && PlaceholderAt(url, i, t);
    assert WordRunAt(url, i + 1, t);
    SplitNonWordRuns(url, t);
  }

  /** The placeholders are exactly the non-empty, not-all-digit runs of word
      characters that follow an unescaped colon and end at a non-word character
      or at the end of the URL; so `:id` is not found inside `:identity`, nor in
      `\:id`. */
  lemma PlaceholdersCharacterised(url: string, t: string)
    requires Placeholders(url).Ok?
    ensures t in Placeholders(url).value <==> AllWord(t) && IsPlaceholderName(url, t)
  {
    if AllWord(t) && IsPlaceholderName(url, t) {
      PlaceholderIsPiece(url, t);
    }
  }

  // ---------------------------------------------------------------------------
  // Binding and removing a placeholder (index.js:156-175)
  // ---------------------------------------------------------------------------

  /** `url.replace(/\\:/g, ':')`: escaped colons lose their backslash. */
  function UnescapeColons(s: string): string {
    ReplaceAll(s, "\\:", ":", false)
  }

  /** The reference for `UnescapeColons`: a backslash is dropped exactly when a
      colon follows it. */
  function DropBackslashBeforeColon(s: string): (r: string)
    ensures |r| <= |s|
  {
    if s == [] then []
    else if |s| >= 2 && s[0] == '\\' && s[1] == ':' then DropBackslashBeforeColon(s[1..])
    else [s[0]] + DropBackslashBeforeColon(s[1..])
  }

  lemma {:induction false} UnescapeColonsDropsBackslashes(s: string)
    ensures UnescapeColons(s) == DropBackslashBeforeColon(s)
    decreases |s|
  {
    if s != [] {
      if |s| >= 2 && s[0] == '\\' && s[1] == ':' {
        assert s[..2] == "\\:";
        UnescapeColonsDropsBackslashes(s[2..]);
        assert s[1..][0] == ':' && s[1..][1..] == s[2..];
        assert s[1..][0] != '\\';
        if |s[1..]| >= 2 {
          assert s[1..][..2] != "\\:";
        }
      } else {
        if |s| >= 2 {
          assert s[..2][0] == s[0] && s[..2][1] == s[1];
        }
        UnescapeColonsDropsBackslashes(s[1..]);
      }
    }
  }

  /** `url.replace(new RegExp(":" + name + "(\\W|$)", "g"), …)` with the callback
      returning the encoded value followed by the consumed delimiter. */
  function Substitute(s: string, name: string, enc: string): string
    decreases |s|
  {
    if s == [] then []
    else if ColonNameAt(s, 0, name) then
      var e := 1 + |name|;
      if e == |s| then enc else enc + [s[e]] + Substitute(s[e + 1..], name, enc)
    else [s[0]] + Substitute(s[1..], name, enc)
  }

  /** `url.replace(new RegExp("(\/?):" + name + "(\\W|$)", "g"), …)` with the
      callback returning the delimiter alone when it is a slash and the optional
      leading slash followed by the delimiter otherwise. */
  function Remove(s: string, name: string): string
    decreases |s|
  {
    if s == [] then []
    else if s[0] == '/' && ColonNameAt(s, 1, name) then
      var e := 2 + |name|;
      if e == |s| then "/"
      else if s[e] == '/' then "/" + Remove(s[e + 1..], name)
      else "/" + [s[e]] + Remove(s[e + 1..], name)
    else if ColonNameAt(s, 0, name) then
      var e := 1 + |name|;
      if e == |s| then [] else [s[e]] + Remove(s[e + 1..], name)
    else [s[0]] + Remove(s[1..], name)
  }

  lemma ColonNameShift(s: string, k: nat, j: nat, name: string)
    requires k <= |s|
    ensures ColonNameAt(s[k..], j, name) <==> ColonNameAt(s, k + j, name)
  {
    if k + j + 1 + |name| <= |s| {
      assert s[k..][j + 1..j + 1 + |name|] == s[k + j + 1..k + j + 1 + |name|];
    }
  }

  /** No bounded `:name` starts at or after `k`. */
  predicate NoMatchFrom(s: string, k: nat, name: string) {
    forall j :: k <= j < |s| ==> !ColonNameAt(s, j, name)
  }

  lemma NoMatchSuffix(s: string, k: nat, name: string)
    requires k <= |s| && NoMatchFrom(s, k, name)
    ensures NoMatchFrom(s[k..], 0, name)
  {
    forall j | 0 <= j < |s[k..]|
      ensures !ColonNameAt(s[k..], j, name)
    {
      ColonNameShift(s, k, j, name);
    }
  }

  /** Without a bounded `:name` in it, the binding leaves the string alone. */
  lemma {:induction false} SubstituteNoMatch(s: string, name: string, enc: string)
    requires NoMatchFrom(s, 0, name)
    ensures Substitute(s, name, enc) == s
    decreases |s|
  {
    if s != [] {
      NoMatchSuffix(s, 1, name);
      SubstituteNoMatch(s[1..], name, enc);
    }
  }

  /** Without a bounded `:name` in it, the removal leaves the string alone. */
  lemma {:induction false} RemoveNoMatch(s: string, name: string)
    requires NoMatchFrom(s, 0, name)
    ensures Remove(s, name) == s
    decreases |s|
  {
    if s != [] {
      assert !ColonNameAt(s, 0, name);
      if |s| > 1 {
        assert !ColonNameAt(s, 1, name);
      }
      NoMatchSuffix(s, 1, name);
      RemoveNoMatch(s[1..], name);
    }
  }

  lemma SubstituteSkip(s: string, name: string, enc: string)
    requires s != [] && !ColonNameAt(s, 0, name)
    ensures Substitute(s, name, enc) == [s[0]] + Substitute(s[1..], name, enc)
  {
  }

  /** Slicing facts kept apart from the scanners so that the solver proves
      them without unfolding any scanner. */
  lemma SliceStep(s: string, k: nat, i: nat, t: string)
    requires k < i <= |s|
    ensures s[k..][0] == s[k] && s[k..][1..] == s[k + 1..]
    ensures [s[k]] + (s[k + 1..i] + t) == s[k..i] + t
  {
    assert s[k..i] == [s[k]] + s[k + 1..i];
  }

  lemma SliceFromZero(s: string, i: nat)
    requires i <= |s|
    ensures s[0..] == s && s[0..i] == s[..i]
  {
  }

  lemma SliceCons(s: string, e: nat, t: string)
    requires e < |s|
    ensures t + [s[e]] + s[e + 1..] == t + s[e..]
  {
    assert s[e..] == [s[e]] + s[e + 1..];
  }

  lemma SliceAtMatch(s: string, i: nat, n: nat)
    requires i + 1 + n < |s|
    ensures s[i..][1 + n] == s[i + 1 + n] && s[i..][1 + n + 1..] == s[i + 1 + n + 1..]
  {
  }

  /** What the replacement writes from a match whose name ends before `e`. */
  function MatchTail(s: string, name: string, enc: string, e: nat): string
    requires e <= |s|
  {
    if e == |s| then enc else enc + [s[e]] + Substitute(s[e + 1..], name, enc)
  }

  /** At a match, the replacement writes the match's tail. */
  lemma SubstituteAtMatch(s: string, name: string, enc: string, i: nat)
    requires ColonNameAt(s, i, name)
    ensures Substitute(s[i..], name, enc) == MatchTail(s, name, enc, i + 1 + |name|)
  {
    ColonNameShift(s, i, 0, name);
    if i + 1 + |name| < |s| {
      SliceAtMatch(s, i, |name|);
    }
  }

  /** The replacement from `k` on, where no match starts between `k` and the
      match at `i`. */
  lemma {:induction false} SubstituteFrom(s: string, name: string, enc: string, i: nat, k: nat)
    requires k <= i && ColonNameAt(s, i, name)
    requires forall j :: k <= j < i ==> !ColonNameAt(s, j, name)
    ensures Substitute(s[k..], name, enc) == s[k..i] + MatchTail(s, name, enc, i + 1 + |name|)
    decreases i - k
  {
    if k == i {
      SubstituteAtMatch(s, name, enc, i);
    } else {
      ColonNameShift(s, k, 0, name);
      SliceStep(s, k, i, MatchTail(s, name, enc, i + 1 + |name|));
      SubstituteSkip(s[k..], name, enc);
      SubstituteFrom(s, name, enc, i, k + 1);
    }
  }

  /** The global replacement, unrolled at its first match `i`: everything before
      is kept, `:name` becomes the encoded value, the delimiter it consumed is put
      back, and the search resumes after the delimiter. */
  lemma SubstituteFirst(s: string, name: string, enc: string, i: nat)
    requires ColonNameAt(s, i, name)
    requires forall j :: 0 <= j < i ==> !ColonNameAt(s, j, name)
    ensures Substitute(s, name, enc) == s[..i] + MatchTail(s, name, enc, i + 1 + |name|)
  {
    SubstituteFrom(s, name, enc, i, 0);
    SliceFromZero(s, i);
  }

  /** After the last match, the rest of the string is copied. */
  lemma MatchTailCopies(s: string, name: string, enc: string, e: nat)
    requires e <= |s| && NoMatchFrom(s, e + 1, name)
    ensures MatchTail(s, name, enc, e) == enc + s[e..]
  {
    if e < |s| {
      NoMatchSuffix(s, e + 1, name);
      SubstituteNoMatch(s[e + 1..], name, enc);
      SliceCons(s, e, enc);
    }
  }

  /** A placeholder that occurs once is replaced in place by the encoded value,
      and nothing else in the URL changes. */
  lemma SubstituteSingle(s: string, name: string, enc: string, i: nat)
    requires ColonNameAt(s, i, name)
    requires forall j :: 0 <= j < |s| && j != i ==> !ColonNameAt(s, j, name)
    ensures Substitute(s, name, enc) == s[..i] + enc + s[i + 1 + |name|..]
  {
    OnlyMatch(s, name, i);
    SubstituteOnly(s, name, enc, i);
  }

  /** A match that occurs once is the first one, and none follows it. */
  lemma OnlyMatch(s: string, name: string, i: nat)
    requires ColonNameAt(s, i, name)
    requires forall j :: 0 <= j < |s| && j != i ==> !ColonNameAt(s, j, name)
    ensures forall j :: 0 <= j < i ==> !ColonNameAt(s, j, name)
    ensures NoMatchFrom(s, i + 2 + |name|, name)
  {
  }

  lemma SubstituteOnly(s: string, name: string, enc: string, i: nat)
    requires ColonNameAt(s, i, name)
    requires forall j :: 0 <= j < i ==> !ColonNameAt(s, j, name)
    requires NoMatchFrom(s, i + 2 + |name|, name)
    ensures Substitute(s, name, enc) == s[..i] + enc + s[i + 1 + |name|..]
  {
    SubstituteFirst(s, name, enc, i);
    MatchTailCopies(s, name, enc, i + 1 + |name|);
    ConcatAssoc(s[..i], enc, s[i + 1 + |name|..]);
  }

  lemma RemoveSkip(s: string, name: string)
    requires s != [] && !ColonNameAt(s, 0, name) && !(s[0] == '/' && ColonNameAt(s, 1, name))
    ensures Remove(s, name) == [s[0]] + Remove(s[1..], name)
  {
  }

  lemma RemoveAtColon(s: string, name: string)
    requires ColonNameAt(s, 0, name) && NoMatchFrom(s, 1 + |name|, name)
    ensures Remove(s, name) == s[1 + |name|..]
  {
    var e := 1 + |name|;
    if e < |s| {
      NoMatchSuffix(s, e + 1, name);
      RemoveNoMatch(s[e + 1..], name);
      assert s[e..] == [s[e]] + s[e + 1..];
    }
  }

  lemma RemoveAtSlash(s: string, name: string)
    requires |s| > 0 && s[0] == '/' && ColonNameAt(s, 1, name) && NoMatchFrom(s, 2 + |name|, name)
    ensures var e := 2 + |name|;
      Remove(s, name) == if e < |s| && s[e] == '/' then s[e..] else "/" + s[e..]
  {
    var e := 2 + |name|;
    if e < |s| {
      NoMatchSuffix(s, e + 1, name);
      RemoveNoMatch(s[e + 1..], name);
      assert s[e..] == [s[e]] + s[e + 1..];
    }
  }

  /** No match of the removal pattern starts before `k`. */
  predicate NoRemovalBefore(s: string, k: nat, name: string) {
    forall j :: 0 <= j < k && j < |s| ==> !ColonNameAt(s, j, name) && !(s[j] == '/' && ColonNameAt(s, j + 1, name))
  }

  lemma {:induction false} RemoveSkipPrefix(s: string, name: string, k: nat)
    requires k <= |s| && NoRemovalBefore(s, k, name)
    ensures Remove(s, name) == s[..k] + Remove(s[k..], name)
    decreases k
  {
    if k > 0 {
      RemoveSkipFirst(s, name, k);
      NoRemovalShift(s, name, k);
      RemoveSkipPrefix(s[1..], name, k - 1);
      PrefixShift(s, k, Remove(s[k..], name));
    }
  }

  lemma RemoveSkipFirst(s: string, name: string, k: nat)
    requires 0 < k <= |s| && NoRemovalBefore(s, k, name)
    ensures Remove(s, name) == [s[0]] + Remove(s[1..], name)
  {
    assert !ColonNameAt(s, 0, name) && !(s[0] == '/' && ColonNameAt(s, 1, name));
    RemoveSkip(s, name);
  }

  lemma NoRemovalShift(s: string, name: string, k: nat)
    requires 0 < k <= |s| && NoRemovalBefore(s, k, name)
    ensures NoRemovalBefore(s[1..], k - 1, name)
  {
    forall j | 0 <= j < k - 1
      ensures !ColonNameAt(s[1..], j, name) && !(s[1..][j] == '/' && ColonNameAt(s[1..], j + 1, name))
    {
      ColonNameShift(s, 1, j, name);
      ColonNameShift(s, 1, j + 1, name);
    }
  }

  lemma PrefixShift(s: string, k: nat, r: string)
    requires 0 < k <= |s|
    ensures s[1..][k - 1..] == s[k..]
    ensures [s[0]] + (s[1..][..k - 1] + r) == s[..k] + r
  {
    assert [s[0]] + s[1..][..k - 1] == s[..k];
  }

  /** A placeholder without a value that occurs once is deleted. Its leading
      slash goes with it only when a slash follows it; otherwise the slash stays
      and the delimiter is kept. */
  lemma RemoveSingle(s: string, name: string, i: nat)
    requires ColonNameAt(s, i, name)
    requires forall j :: 0 <= j < |s| && j != i ==> !ColonNameAt(s, j, name)
    ensures var e := i + 1 + |name|;
      Remove(s, name)
      == if i > 0 && s[i - 1] == '/' && e < |s| && s[e] == '/' then s[..i - 1] + s[e..]
         else s[..i] + s[e..]
  {
    if i > 0 && s[i - 1] == '/' {
      RemoveSingleAfterSlash(s, name, i);
    } else {
      RemoveSingleNoSlash(s, name, i);
    }
  }

  lemma OnlyMatchAt(s: string, name: string, i: nat, k: nat)
    requires k <= i && ColonNameAt(s, i, name)
    requires forall j :: 0 <= j < |s| && j != i ==> !ColonNameAt(s, j, name)
    requires (k == i && !(i > 0 && s[i - 1] == '/')) || (k == i - 1 && s[k] == '/')
    ensures NoRemovalBefore(s, k, name)
    ensures ColonNameAt(s[k..], i - k, name)
    ensures NoMatchFrom(s[k..], i - k + 1 + |name|, name)
  {
    forall j | 0 <= j < k && j < |s|
      ensures !ColonNameAt(s, j, name) && !(s[j] == '/' && ColonNameAt(s, j + 1, name))
    {
      if j + 1 == i {
        assert s[j] != '/';
      }
    }
    ColonNameShift(s, k, i - k, name);
    forall j | i - k + 1 + |name| <= j < |s[k..]|
      ensures !ColonNameAt(s[k..], j, name)
    {
      ColonNameShift(s, k, j, name);
    }
  }

  lemma RemoveSingleAfterSlash(s: string, name: string, i: nat)
    requires ColonNameAt(s, i, name) && 0 < i && s[i - 1] == '/'
    requires forall j :: 0 <= j < |s| && j != i ==> !ColonNameAt(s, j, name)
    ensures var e := i + 1 + |name|;
      Remove(s, name) == if e < |s| && s[e] == '/' then s[..i - 1] + s[e..] else s[..i] + s[e..]
  {
    OnlyMatchAt(s, name, i, i - 1);
    RemoveSkipPrefix(s, name, i - 1);
    RemoveAtSlash(s[i - 1..], name);
    SlashSlices(s, i, |name|, s[i + 1 + |name|..]);
  }

  lemma SlashSlices(s: string, i: nat, n: nat, r: string)
    requires 0 < i && i + 1 + n <= |s| && s[i - 1] == '/'
    ensures s[i - 1..][2 + n..] == s[i + 1 + n..]
    ensures i + 1 + n < |s| ==> s[i - 1..][2 + n] == s[i + 1 + n]
    ensures s[..i - 1] + ("/" + r) == s[..i] + r
  {
    assert s[..i - 1] + "/" == s[..i];
  }

  lemma RemoveSingleNoSlash(s: string, name: string, i: nat)
    requires ColonNameAt(s, i, name) && !(i > 0 && s[i - 1] == '/')
    requires forall j :: 0 <= j < |s| && j != i ==> !ColonNameAt(s, j, name)
    ensures Remove(s, name) == s[..i] + s[i + 1 + |name|..]
  {
    OnlyMatchAt(s, name, i, i);
    RemoveSkipPrefix(s, name, i);
    RemoveAtColon(s[i..], name);
    assert s[i..][1 + |name|..] == s[i + 1 + |name|..];
  }

  /** A name is matched only up to a word boundary: where a longer placeholder
      starts, none of its proper prefixes matches, so `:id` is never found
      inside `:identity`. */
  lemma NoPrefixMatch(s: string, i: nat, name: string, longer: string)
    requires AllWord(longer) && |name| < |longer| && longer[..|name|] == name
    requires ColonNameAt(s, i, longer)
    ensures !ColonNameAt(s, i, name)
  {
    assert s[i + 1..i + 1 + |longer|][|name|] == longer[|name|];
  }

  /** A longer placeholder sharing the name's prefix is left as it is. */
  lemma LongerNameUntouched()
    ensures Substitute("/:identity", "id", "7") == "/:identity"
    ensures Remove("/:identity", "id") == "/:identity"
  {
    var s := "/:identity";
    forall j | 0 <= j < |s|
      ensures !ColonNameAt(s, j, "id")
    {
      if j == 1 {
        NoPrefixMatch(s, 1, "id", "identity");
      }
    }
    SubstituteNoMatch(s, "id", "7");
    RemoveNoMatch(s, "id");
  }

  /** The delimiter a match consumes is not searched again, so a placeholder
      written twice back to back is bound only once. */
  lemma AdjacentRepeatSurvives()
    ensures Substitute("/:a:a", "a", "7") == "/7:a"
    ensures Remove("/:a:a/", "a") == "/:a/"
  {
    assert ColonNameAt("/:a:a", 1, "a");
    assert !ColonNameAt("a", 0, "a");
    assert ColonNameAt(":a:a", 0, "a");
    assert ColonNameAt("/:a:a/", 1, "a");
    assert !ColonNameAt("a/", 0, "a");
    assert !ColonNameAt("/", 0, "a");
  }

  // ---------------------------------------------------------------------------
  // Trailing slashes and the `/.` rewrites (index.js:177-186)
  // ---------------------------------------------------------------------------

  predicate AllSlashes(s: string) {
    forall i :: 0 <= i < |s| ==> s[i] == '/'
  }

  /** The string without its maximal run of trailing slashes: the leftmost
      match of `/\/+$/` starts where that run starts. */
  function DropTrailingSlashes(s: string): (t: string)
    ensures t <= s
    ensures AllSlashes(s[|t|..])
    ensures t == [] || t[|t| - 1] != '/'
    decreases |s|
  {
    if s != [] && s[|s| - 1] == '/' then DropTrailingSlashes(s[..|s| - 1]) else s
  }

  /** `url.replace(/\/+$/, '') || '/'`. */
  function StripTrailingSlashes(s: string): (r: string)
    ensures r == "/" <==> AllSlashes(s)
    ensures r != "/" ==> r <= s && AllSlashes(s[|r|..]) && r[|r| - 1] != '/'
  {
    var t := DropTrailingSlashes(s);
    if t == [] then "/"
    else
      assert !AllSlashes(s) by {
        assert s[|t| - 1] == t[|t| - 1];
      }
      t
  }

  /** A URL that does not end with a slash is left alone. */
  lemma StripKeepsUnslashed(s: string)
    requires s != [] && s[|s| - 1] != '/'
    ensures StripTrailingSlashes(s) == s
  {
  }

  /** Stripping twice strips no more than stripping once. */
  lemma StripIdempotent(s: string)
    ensures StripTrailingSlashes(StripTrailingSlashes(s)) == StripTrailingSlashes(s)
  {
    var r := StripTrailingSlashes(s);
    if r == "/" {
      assert AllSlashes(r);
    }
  }

  /** The end of the run of word characters starting at `k`. */
  function WordRunEnd(s: string, k: nat): (e: nat)
    requires k <= |s|
    ensures k <= e <= |s|
    ensures AllWord(s[k..e])
    ensures forall j :: k <= j < e ==> IsWord(s[j])
    ensures e == |s| || !IsWord(s[e])
    decreases |s| - k
  {
    if k == |s| || !IsWord(s[k]) then k
    else
      var e := WordRunEnd(s, k + 1);
      assert s[k..e] == [s[k]] + s[k + 1..e];
      e
  }

  /** The lookahead `(?=\w+($|\?))` at `k`. */
  predicate LookaheadAt(s: string, k: nat) {
    exists e :: k < e <= |s| && AllWord(s[k..e]) && (e == |s| || s[e] == '?')
  }

  /** `\/\.(?=\w+($|\?))` matches at `i`. */
  predicate CollapsibleAt(s: string, i: nat) {
    i + 2 <= |s| && s[i] == '/' && s[i + 1] == '.' && LookaheadAt(s, i + 2)
  }

  /** The lookahead holds exactly when the maximal word run is non-empty and is
      followed by the end or a `?` (`\w+` backtracks only within that run, and a
      shorter run would be followed by a word character). */
  lemma LookaheadByRunEnd(s: string, k: nat)
    requires k <= |s|
    ensures LookaheadAt(s, k) <==> var e := WordRunEnd(s, k); e > k && (e == |s| || s[e] == '?')
  {
    var e := WordRunEnd(s, k);
    if LookaheadAt(s, k) {
      var e' :| k < e' <= |s| && AllWord(s[k..e']) && (e' == |s| || s[e'] == '?');
      RunEndsAt(s, k, e');
    }
  }

  /** A word run that stops at the end or at a non-word character is the
      maximal one. */
  lemma RunEndsAt(s: string, k: nat, e: nat)
    requires k <= e <= |s| && AllWord(s[k..e]) && (e == |s| || !IsWord(s[e]))
    ensures WordRunEnd(s, k) == e
  {
    forall j | k <= j < e
      ensures IsWord(s[j])
    {
      assert s[k..e][j - k] == s[j];
    }
  }

  /** The first position at or after `from` where `/.` can be collapsed. */
  function FirstCollapsible(s: string, from: nat): (r: Option<nat>)
    ensures r.Some? ==> from <= r.value && CollapsibleAt(s, r.value)
    ensures r.Some? ==> forall j :: from <= j < r.value ==> !CollapsibleAt(s, j)
    ensures r.None? ==> forall j :: from <= j ==> !CollapsibleAt(s, j)
    decreases |s| - from
  {
    if from + 2 > |s| then None
    else if CollapsibleByRun(s, from) then
      CollapsibleIffRun(s, from);
      Some(from)
    else
      CollapsibleIffRun(s, from);
      FirstCollapsible(s, from + 1)
  }

  /** `CollapsibleAt` decided by the maximal word run after `/.`. */
  predicate CollapsibleByRun(s: string, i: nat)
    requires i + 2 <= |s|
  {
    && s[i] == '/' && s[i + 1] == '.'
    && WordRunEnd(s, i + 2) > i + 2
    && (WordRunEnd(s, i + 2) == |s| || s[WordRunEnd(s, i + 2)] == '?')
  }

  lemma CollapsibleIffRun(s: string, i: nat)
    requires i + 2 <= |s|
    ensures CollapsibleAt(s, i) <==> CollapsibleByRun(s, i)
  {
    LookaheadByRunEnd(s, i + 2);
  }

  /** `url.replace(/\/\.(?=\w+($|\?))/, '.')`: only the first match is rewritten. */
  function CollapseDot(s: string): (r: string)
    ensures (forall j :: !CollapsibleAt(s, j)) ==> r == s
    ensures forall i: nat ::
      (CollapsibleAt(s, i) && (forall j :: 0 <= j < i ==> !CollapsibleAt(s, j))) ==> r == s[..i] + s[i + 1..]
  {
    match FirstCollapsible(s, 0)
    case None => s
    case Some(i) =>
      assert forall i': nat :: CollapsibleAt(s, i') && (forall j :: 0 <= j < i' ==> !CollapsibleAt(s, j)) ==> i' == i by {
        forall i': nat | CollapsibleAt(s, i') && (forall j :: 0 <= j < i' ==> !CollapsibleAt(s, j))
          ensures i' == i
        {
          assert !(i < i');
        }
      }
      s[..i] + s[i + 1..]
  }

  lemma DropBackslashAt(s: string, i: nat)
    requires MatchesAt(s, i, "/\\.", false)
    ensures s[..i] + "/." + s[i + 3..] == s[..i + 1] + s[i + 2..]
  {
    assert s[i] == s[i..i + 3][0] && s[i + 2] == s[i..i + 3][2];
    assert s[i + 2..] == [s[i + 2]] + s[i + 3..];
    assert s[..i + 1] == s[..i] + [s[i]];
  }

  /** `url.replace(/\/\\\./, '/.')`: the first `/\.` loses its backslash. */
  function RestoreEscapedDot(s: string): (r: string)
    ensures (forall j :: !MatchesAt(s, j, "/\\.", false)) ==> r == s
    ensures forall i: nat ::
      (MatchesAt(s, i, "/\\.", false) && (forall j :: 0 <= j < i ==> !MatchesAt(s, j, "/\\.", false)))
      ==> r == s[..i + 1] + s[i + 2..]
  {
    match IndexOf(s, "/\\.", 0)
    case None => s
    case Some(i) =>
      assert forall i': nat :: MatchesAt(s, i', "/\\.", false) && (forall j :: 0 <= j < i' ==> !MatchesAt(s, j, "/\\.", false)) ==> i' == i by {
        forall i': nat | MatchesAt(s, i', "/\\.", false) && (forall j :: 0 <= j < i' ==> !MatchesAt(s, j, "/\\.", false))
          ensures i' == i
        {
          assert !(i < i');
        }
      }
      DropBackslashAt(s, i);
      s[..i] + "/." + s[i + 3..]
  }
}

=== FILE: text.dfy ===
/** String scanners standing in for the JavaScript string methods the source
    calls with literal (non-regex) arguments or with simple global patterns. */
module Text {
  import opened Chars
  import opened Results

  /** The pattern occurs at `i`, exactly or up to ASCII letter case. */
  predicate MatchesAt(s: string, i: nat, pat: string, ignoreCase: bool) {
    && i + |pat| <= |s|
    && (if ignoreCase then EqualIgnoringCase(s[i..i + |pat|], pat) else s[i..i + |pat|] == pat)
  }

  /** Concatenation regroups freely. */
  lemma ConcatAssoc(a: string, b: string, c: string)
    ensures a + b + c == a + (b + c)
  {
  }

  /** `s.replace(/pat/g, rep)` (with the `i` flag when `ignoreCase`) for a pattern
      that is a literal: matches are found left to right and do not overlap. */
  function ReplaceAll(s: string, pat: string, rep: string, ignoreCase: bool): string
    requires |pat| > 0
    decreases |s|
  {
    if s == [] then []
    else if MatchesAt(s, 0, pat, ignoreCase) then rep + ReplaceAll(s[|pat|..], pat, rep, ignoreCase)
    else [s[0]] + ReplaceAll(s[1..], pat, rep, ignoreCase)
  }

  /** Where the pattern never occurs, the replacement leaves the string alone. */
  lemma {:induction false} ReplaceAllNoMatch(s: string, pat: string, rep: string, ignoreCase: bool)
    requires |pat| > 0
    requires forall i :: 0 <= i < |s| ==> !MatchesAt(s, i, pat, ignoreCase)
    ensures ReplaceAll(s, pat, rep, ignoreCase) == s
    decreases |s|
  {
    if s != [] {
      assert !MatchesAt(s, 0, pat, ignoreCase);
      forall i | 0 <= i < |s[1..]|
        ensures !MatchesAt(s[1..], i, pat, ignoreCase)
      {
        assert !MatchesAt(s, i + 1, pat, ignoreCase);
        if i + |pat| <= |s[1..]| {
          assert s[1..][i..i + |pat|] == s[i + 1..i + 1 + |pat|];
        }
      }
      ReplaceAllNoMatch(s[1..], pat, rep, ignoreCase);
    }
  }

  /** A slice inside the left operand of a concatenation. */
  lemma PrefixSlice(p: string, rest: string, i: nat, k: nat)
    requires i <= k <= |p|
    ensures (p + rest)[i..k] == p[i..k]
  {
  }

  /** A pattern holding a character the string lacks occurs nowhere in it. */
  lemma NoMatchWithoutChar(s: string, pat: string, k: nat)
    requires k < |pat|
    requires forall i :: 0 <= i < |s| ==> s[i] != pat[k]
    ensures forall i: nat :: !MatchesAt(s, i, pat, false)
  {
    forall i: nat | i + |pat| <= |s|
      ensures !MatchesAt(s, i, pat, false)
    {
      assert s[i..i + |pat|][k] == s[i + k];
    }
  }

  /** `s.indexOf(pat, from)`, with `None` for -1: the first occurrence at or after `from`. */
  function IndexOf(s: string, pat: string, from: nat): (r: Option<nat>)
    ensures r.Some? ==> from <= r.value && MatchesAt(s, r.value, pat, false)
    ensures r.Some? ==> forall j :: from <= j < r.value ==> !MatchesAt(s, j, pat, false)
    ensures r.None? ==> forall j :: from <= j ==> !MatchesAt(s, j, pat, false)
    decreases |s| - from
  {
    if from + |pat| > |s| then None
    else if s[from..from + |pat|] == pat then Some(from)
    else IndexOf(s, pat, from + 1)
  }

  /** `parts.join(sep)`. */
  function Join(parts: seq<string>, sep: string): (r: string)
  {
    if parts == [] then []
    else if |parts| == 1 then parts[0]
    else parts[0] + sep + Join(parts[1..], sep)
  }

  /** `s.split(sep)` for a one-character separator. */
  function Split(s: string, sep: char): (parts: seq<string>)
    ensures |parts| > 0
    ensures forall i :: 0 <= i < |parts| ==> sep !in parts[i]
    decreases |s|
  {
    if s == [] then [[]]
    else
      var rest := Split(s[1..], sep);
      if s[0] == sep then [[]] + rest
      else
        var head := [s[0]] + rest[0];
        [head] + rest[1..]
  }

  /** Splitting a join on its separator gives the parts back, provided no part
      contains the separator. */
  lemma {:induction false} SplitJoin(parts: seq<string>, sep: char)
    requires |parts| > 0
    requires forall i :: 0 <= i < |parts| ==> sep !in parts[i]
    ensures Split(Join(parts, [sep]), sep) == parts
    decreases |parts|
  {
    if |parts| == 1 {
      SplitNoSeparator(parts[0], sep);
    } else {
      SplitJoin(parts[1..], sep);
      SplitAppend(parts[0], Join(parts[1..], [sep]), sep);
    }
  }

  lemma {:induction false} SplitNoSeparator(s: string, sep: char)
    requires sep !in s
    ensures Split(s, sep) == [s]
    decreases |s|
  {
    if s != [] {
      SplitNoSeparator(s[1..], sep);
      assert s[0] != sep;
      assert [s[0]] + s[1..] == s;
    }
  }

  /** A separator-free head followed by the separator splits off as one part. */
  lemma {:induction false} SplitAppend(head: string, tail: string, sep: char)
    requires sep !in head
    ensures Split(head + [sep] + tail, sep) == [head] + Split(tail, sep)
    decreases |head|
  {
    var s := head + [sep] + tail;
    if head == [] {
      assert s[1..] == tail;
    } else {
      assert s[1..] == head[1..] + [sep] + tail;
      SplitAppend(head[1..], tail, sep);
      assert s[0] == head[0] && head[0] != sep;
      assert [head[0]] + head[1..] == head;
    }
  }
}

=== FILE: uri_encoding.dfy ===
/** Percent-encoding: `encodeURIComponent` (section 15.1.3.4 of ECMA-262 5.1)
    and the two RFC 3986 variants the source derives from it by un-escaping
    characters that a URI component may carry literally (index.js:41-77).

    The source's variants are chains of global `replace` calls over the output
    of `encodeURIComponent`; they are modelled as written, with `Text.ReplaceAll`,
    and proved equal to a per-character escape, from which the RFC 3986 grammar
    and the round trip through a percent-decoder follow. */
module UriEncoding {
  import opened Chars
  import opened Text
  import opened Results

  type Byte = b: int | 0 <= b < 256

  /** `uriUnreserved` of ECMA-262 5.1 section 15.1.3: the characters
      `encodeURIComponent` leaves as they are. */
  predicate IsUriUnreserved(c: char) {
    IsAlpha(c) || IsDigit(c) || c in "-_.!~*'()"
  }

  /** The UTF-8 encoding of one Unicode scalar value. */
  function Utf8(c: char): (bs: seq<Byte>)
    ensures 1 <= |bs| <= 4
    ensures (c as int < 0x80) <==> |bs| == 1
    ensures |bs| == 1 ==> bs[0] == c as int
    ensures |bs| > 1 ==> forall i :: 0 <= i < |bs| ==> bs[i] >= 0x80
  {
    var n := c as int;
    if n < 0x80 then [n]
    else if n < 0x800 then [0xC0 + n / 64, 0x80 + n % 64]
    else if n < 0x10000 then [0xE0 + n / 4096, 0x80 + (n / 64) % 64, 0x80 + n % 64]
    else [0xF0 + n / 0x40000, 0x80 + (n / 4096) % 64, 0x80 + (n / 64) % 64, 0x80 + n % 64]
  }

  /** `%XY` with upper-case hexadecimal digits. */
  function PctByte(b: Byte): (r: string)
    ensures |r| == 3 && r[0] == '%'
  {
    ['%', HexDigit(b / 16), HexDigit(b % 16)]
  }

  function PctBytes(bs: seq<Byte>): (r: string)
    ensures |r| == 3 * |bs|
  {
    if bs == [] then [] else PctByte(bs[0]) + PctBytes(bs[1..])
  }

  /** What `encodeURIComponent` writes for one character. */
  function EscapeChar(c: char): string {
    if IsUriUnreserved(c) then [c] else PctBytes(Utf8(c))
  }

  /** `encodeURIComponent(s)`, character by character. */
  function EncodeUriComponent(s: string): string
  {
    if s == [] then [] else EscapeChar(s[0]) + EncodeUriComponent(s[1..])
  }

  /** `encodeURIComponent` works character by character. */
  lemma {:induction false} ComponentAppend(a: string, b: string)
    ensures EncodeUriComponent(a + b) == EncodeUriComponent(a) + EncodeUriComponent(b)
    decreases |a|
  {
    if a != [] {
      assert (a + b)[0] == a[0] && (a + b)[1..] == a[1..] + b;
      ComponentAppend(a[1..], b);
    } else {
      assert a + b == b;
    }
  }

  lemma {:induction false} ComponentKeepsUnreserved(s: string)
    requires forall i :: 0 <= i < |s| ==> IsUriUnreserved(s[i])
    ensures EncodeUriComponent(s) == s
    decreases |s|
  {
    if s != [] {
      ComponentKeepsUnreserved(s[1..]);
      assert [s[0]] + s[1..] == s;
    }
  }

  /** `encodeUriQuery(val, pctEncodeSpaces)` as written: `%40`, `%3A`, `%24`,
      `%2C` are turned back into `@ : $ ,`, then `%20` into `+` unless spaces
      are to stay percent-encoded (index.js:70-77). */
  function EncodeUriQuery(s: string, pctEncodeSpaces: bool): string
  {
    var e := EncodeUriComponent(s);
    var e := ReplaceAll(e, "%40", "@", true);
    var e := ReplaceAll(e, "%3A", ":", true);
    var e := ReplaceAll(e, "%24", "$", false);
    var e := ReplaceAll(e, "%2C", ",", true);
    ReplaceAll(e, "%20", if pctEncodeSpaces then "%20" else "+", false)
  }

  /** `encodeUriSegment(val)` as written: the query encoding with `%20` kept,
      then `%26`, `%3D`, `%2B` turned back into `& = +` (index.js:52-57). */
  function EncodeUriSegment(s: string): string
  {
    var e := EncodeUriQuery(s, true);
    var e := ReplaceAll(e, "%26", "&", true);
    var e := ReplaceAll(e, "%3D", "=", true);
    ReplaceAll(e, "%2B", "+", true)
  }

  // ---------------------------------------------------------------------------
  // Independent per-character definitions

  /** What the query encoder is meant to write for one character. */
  function QueryEscape(c: char, pctEncodeSpaces: bool): (r: string)
  {
    if IsUriUnreserved(c) || c in "@:$," then [c]
    else if c == ' ' then (if pctEncodeSpaces then "%20" else "+")
    else PctBytes(Utf8(c))
  }

  /** What the segment encoder is meant to write for one character. */
  function SegmentEscape(c: char): (r: string)
  {
    if IsUriUnreserved(c) || c in "@:$,&=+" then [c] else PctBytes(Utf8(c))
  }

  function QueryReference(s: string, pctEncodeSpaces: bool): string
  {
    if s == [] then [] else QueryEscape(s[0], pctEncodeSpaces) + QueryReference(s[1..], pctEncodeSpaces)
  }

  function SegmentReference(s: string): string
  {
    if s == [] then [] else SegmentEscape(s[0]) + SegmentReference(s[1..])
  }

  // ---------------------------------------------------------------------------
  // The replace chains act token by token

  /** The output of `encodeURIComponent` read as a sequence of literal
      characters and `%XY` escapes. */
  datatype Token = Lit(c: char) | Pct(b: Byte)

  function RenderToken(t: Token): string {
    match t
    case Lit(c) => [c]
    case Pct(b) => PctByte(b)
  }

  function Render(ts: seq<Token>): string {
    if ts == [] then [] else RenderToken(ts[0]) + Render(ts[1..])
  }

  predicate NoLitPercent(ts: seq<Token>) {
    forall i :: 0 <= i < |ts| ==> ts[i] != Lit('%')
  }

  function ByteTokens(bs: seq<Byte>): (ts: seq<Token>)
    ensures |ts| == |bs|
    ensures forall i :: 0 <= i < |bs| ==> ts[i] == Pct(bs[i])
  {
    if bs == [] then [] else [Pct(bs[0])] + ByteTokens(bs[1..])
  }

  function CharTokens(c: char): seq<Token> {
    if IsUriUnreserved(c) then [Lit(c)] else ByteTokens(Utf8(c))
  }

  function Tokenize(s: string): seq<Token> {
    if s == [] then [] else CharTokens(s[0]) + Tokenize(s[1..])
  }

  /** Replace every escape of byte `b` by the token `r`. */
  function Subst(ts: seq<Token>, b: Byte, r: Token): (us: seq<Token>)
    ensures |us| == |ts|
    ensures forall i :: 0 <= i < |ts| ==> us[i] == (if ts[i] == Pct(b) then r else ts[i])
  {
    if ts == [] then [] else [if ts[0] == Pct(b) then r else ts[0]] + Subst(ts[1..], b, r)
  }

  function QueryTokens(ts: seq<Token>, pctEncodeSpaces: bool): seq<Token> {
    var ts := Subst(ts, 0x40, Lit('@'));
    var ts := Subst(ts, 0x3A, Lit(':'));
    var ts := Subst(ts, 0x24, Lit('$'));
    var ts := Subst(ts, 0x2C, Lit(','));
    Subst(ts, 0x20, if pctEncodeSpaces then Pct(0x20) else Lit('+'))
  }

  function SegmentTokens(ts: seq<Token>): seq<Token> {
    var ts := QueryTokens(ts, true);
    var ts := Subst(ts, 0x26, Lit('&'));
    var ts := Subst(ts, 0x3D, Lit('='));
    Subst(ts, 0x2B, Lit('+'))
  }

  lemma {:induction false} RenderAppend(a: seq<Token>, b: seq<Token>)
    ensures Render(a + b) == Render(a) + Render(b)
    decreases |a|
  {
    if a != [] {
      assert (a + b)[0] == a[0];
      assert (a + b)[1..] == a[1..] + b;
      RenderAppend(a[1..], b);
      assert Render(a + b) == RenderToken(a[0]) + (Render(a[1..]) + Render(b));
    } else {
      assert a + b == b;
    }
  }

  lemma {:induction false} TokenizeRenders(s: string)
    ensures Render(Tokenize(s)) == EncodeUriComponent(s)
    ensures NoLitPercent(Tokenize(s))
    decreases |s|
  {
    if s != [] {
      TokenizeRenders(s[1..]);
      RenderAppend(CharTokens(s[0]), Tokenize(s[1..]));
      CharTokensRender(s[0]);
      NoLitPercentAppend(CharTokens(s[0]), Tokenize(s[1..]));
    }
  }

  lemma CharTokensRender(c: char)
    ensures Render(CharTokens(c)) == EscapeChar(c)
    ensures NoLitPercent(CharTokens(c))
  {
    ByteTokensRender(Utf8(c));
  }

  lemma NoLitPercentAppend(a: seq<Token>, b: seq<Token>)
    requires NoLitPercent(a) && NoLitPercent(b)
    ensures NoLitPercent(a + b)
  {
    assert forall i :: 0 <= i < |a + b| ==> (a + b)[i] == if i < |a| then a[i] else b[i - |a|];
  }

  lemma {:induction false} ByteTokensRender(bs: seq<Byte>)
    ensures Render(ByteTokens(bs)) == PctBytes(bs)
    decreases |bs|
  {
    if bs != [] {
      assert ByteTokens(bs)[1..] == ByteTokens(bs[1..]);
      ByteTokensRender(bs[1..]);
    }
  }

  /** Upper-casing never produces `%` from anything but `%`. */
  lemma UpperPercent(c: char)
    ensures ToUpper(c) == '%' <==> c == '%'
  {
  }

  /** A character other than `%` is copied by a replacement of a `%XY` pattern. */
  lemma ReplaceAllSkip(c: char, rest: string, pat: string, rep: string, ignoreCase: bool)
    requires |pat| > 0 && pat[0] == '%' && c != '%'
    ensures ReplaceAll([c] + rest, pat, rep, ignoreCase) == [c] + ReplaceAll(rest, pat, rep, ignoreCase)
  {
    var s := [c] + rest;
    UpperPercent(c);
    assert !MatchesAt(s, 0, pat, ignoreCase) by {
      if |pat| <= |s| {
        assert s[0..|pat|][0] == c;
      }
    }
    assert s[1..] == rest;
  }

  /** Two escapes match, with or without case folding, exactly when they carry the same byte. */
  lemma PctByteMatch(b: Byte, b': Byte, ignoreCase: bool)
    ensures (if ignoreCase then EqualIgnoringCase(PctByte(b'), PctByte(b)) else PctByte(b') == PctByte(b)) <==> b' == b
  {
    var p, q := PctByte(b), PctByte(b');
    if EqualIgnoringCase(q, p) {
      assert ToUpper(q[1]) == ToUpper(p[1]) && ToUpper(q[2]) == ToUpper(p[2]);
      assert HexValue(q[1]) == HexValue(p[1]) && HexValue(q[2]) == HexValue(p[2]);
    }
  }

  /** An escape at the front is replaced when it carries the pattern's byte,
      and otherwise copied. */
  lemma ReplacePctHead(b': Byte, rest: string, b: Byte, rep: string, ignoreCase: bool)
    ensures ReplaceAll(PctByte(b') + rest, PctByte(b), rep, ignoreCase)
      == (if b' == b then rep else PctByte(b')) + ReplaceAll(rest, PctByte(b), rep, ignoreCase)
  {
    var pat, e := PctByte(b), PctByte(b');
    var s := e + rest;
    assert s[0..3] == e;
    assert s[1..] == e[1..] + rest;
    PctByteMatch(b, b', ignoreCase);
    if b' == b {
      assert MatchesAt(s, 0, pat, ignoreCase);
      assert s[3..] == rest;
    } else {
      assert !MatchesAt(s, 0, pat, ignoreCase);
      ReplacePctTail(e, rest, pat, rep, ignoreCase);
    }
  }

  /** The two hex digits of an escape are copied by a replacement of a `%XY`
      pattern. */
  lemma ReplacePctTail(e: string, rest: string, pat: string, rep: string, ignoreCase: bool)
    requires |e| == 3 && e[1] != '%' && e[2] != '%'
    requires |pat| > 0 && pat[0] == '%'
    ensures ReplaceAll(e[1..] + rest, pat, rep, ignoreCase) == e[1..] + ReplaceAll(rest, pat, rep, ignoreCase)
  {
    assert e[1..] + rest == [e[1]] + ([e[2]] + rest);
    ReplaceAllSkip(e[1], [e[2]] + rest, pat, rep, ignoreCase);
    ReplaceAllSkip(e[2], rest, pat, rep, ignoreCase);
    assert e[1..] == [e[1]] + [e[2]];
  }

  /** One global replacement of the escape of byte `b` acts on the rendering
      exactly as `Subst` acts on the tokens. */
  lemma {:induction false} ReplaceAllRender(ts: seq<Token>, b: Byte, r: Token, ignoreCase: bool)
    requires NoLitPercent(ts)
    ensures ReplaceAll(Render(ts), PctByte(b), RenderToken(r), ignoreCase) == Render(Subst(ts, b, r))
    decreases |ts|
  {
    if ts != [] {
      var rest := Render(ts[1..]);
      assert Render(ts) == RenderToken(ts[0]) + rest;
      assert Subst(ts, b, r)[1..] == Subst(ts[1..], b, r);
      ReplaceAllRender(ts[1..], b, r, ignoreCase);
      match ts[0]
      case Lit(c) =>
        ReplaceAllSkip(c, rest, PctByte(b), RenderToken(r), ignoreCase);
      case Pct(b') =>
        ReplacePctHead(b', rest, b, RenderToken(r), ignoreCase);
    }
  }

  lemma SubstKeepsNoLitPercent(ts: seq<Token>, b: Byte, r: Token)
    requires NoLitPercent(ts) && r != Lit('%')
    ensures NoLitPercent(Subst(ts, b, r))
  {
  }

  /** The literal patterns of the source are escapes of single bytes. */
  lemma PatternBytes()
    ensures PctByte(0x40) == "%40" && PctByte(0x3A) == "%3A" && PctByte(0x24) == "%24"
    ensures PctByte(0x2C) == "%2C" && PctByte(0x20) == "%20" && PctByte(0x26) == "%26"
    ensures PctByte(0x3D) == "%3D" && PctByte(0x2B) == "%2B"
  {
  }

  /** One replacement step of a chain, lifted to tokens. */
  lemma ReplaceStep(ts: seq<Token>, e: string, pat: string, b: Byte, rep: string, r: Token, ignoreCase: bool)
    requires NoLitPercent(ts) && r != Lit('%')
    requires e == Render(ts) && pat == PctByte(b) && rep == RenderToken(r)
    ensures ReplaceAll(e, pat, rep, ignoreCase) == Render(Subst(ts, b, r))
    ensures NoLitPercent(Subst(ts, b, r))
  {
    ReplaceAllRender(ts, b, r, ignoreCase);
  }

  /** The query encoder as written is the token map `QueryTokens`. */
  lemma QueryAsTokens(s: string, pctEncodeSpaces: bool)
    ensures EncodeUriQuery(s, pctEncodeSpaces) == Render(QueryTokens(Tokenize(s), pctEncodeSpaces))
    ensures NoLitPercent(QueryTokens(Tokenize(s), pctEncodeSpaces))
  {
    PatternBytes();
    TokenizeRenders(s);
    var t0 := Tokenize(s);
    var e0 := EncodeUriComponent(s);
    var t1 := Subst(t0, 0x40, Lit('@'));
    var e1 := ReplaceAll(e0, "%40", "@", true);
    ReplaceStep(t0, e0, "%40", 0x40, "@", Lit('@'), true);
    var t2 := Subst(t1, 0x3A, Lit(':'));
    var e2 := ReplaceAll(e1, "%3A", ":", true);
    ReplaceStep(t1, e1, "%3A", 0x3A, ":", Lit(':'), true);
    var t3 := Subst(t2, 0x24, Lit('$'));
    var e3 := ReplaceAll(e2, "%24", "$", false);
    ReplaceStep(t2, e2, "%24", 0x24, "$", Lit('$'), false);
    var t4 := Subst(t3, 0x2C, Lit(','));
    var e4 := ReplaceAll(e3, "%2C", ",", true);
    ReplaceStep(t3, e3, "%2C", 0x2C, ",", Lit(','), true);
    var sp := if pctEncodeSpaces then Pct(0x20) else Lit('+');
    var rep := if pctEncodeSpaces then "%20" else "+";
    ReplaceStep(t4, e4, "%20", 0x20, rep, sp, false);
    assert EncodeUriQuery(s, pctEncodeSpaces) == ReplaceAll(e4, "%20", rep, false);
  }

  /** The segment encoder as written is the token map `SegmentTokens`. */
  lemma SegmentAsTokens(s: string)
    ensures EncodeUriSegment(s) == Render(SegmentTokens(Tokenize(s)))
  {
    PatternBytes();
    QueryAsTokens(s, true);
    var t0 := QueryTokens(Tokenize(s), true);
    var e0 := EncodeUriQuery(s, true);
    var t1 := Subst(t0, 0x26, Lit('&'));
    var e1 := ReplaceAll(e0, "%26", "&", true);
    ReplaceStep(t0, e0, "%26", 0x26, "&", Lit('&'), true);
    var t2 := Subst(t1, 0x3D, Lit('='));
    var e2 := ReplaceAll(e1, "%3D", "=", true);
    ReplaceStep(t1, e1, "%3D", 0x3D, "=", Lit('='), true);
    ReplaceStep(t2, e2, "%2B", 0x2B, "+", Lit('+'), true);
    assert EncodeUriSegment(s) == ReplaceAll(e2, "%2B", "+", true);
  }

  lemma SubstAppend(a: seq<Token>, c: seq<Token>, b: Byte, r: Token)
    ensures Subst(a + c, b, r) == Subst(a, b, r) + Subst(c, b, r)
  {
    var lhs, rhs := Subst(a + c, b, r), Subst(a, b, r) + Subst(c, b, r);
    forall i | 0 <= i < |lhs|
      ensures lhs[i] == rhs[i]
    {
      if i >= |a| {
        assert (a + c)[i] == c[i - |a|];
      }
    }
  }

  lemma QueryTokensAppend(a: seq<Token>, c: seq<Token>, pctEncodeSpaces: bool)
    ensures QueryTokens(a + c, pctEncodeSpaces) == QueryTokens(a, pctEncodeSpaces) + QueryTokens(c, pctEncodeSpaces)
  {
    var a1, c1 := Subst(a, 0x40, Lit('@')), Subst(c, 0x40, Lit('@'));
    var a2, c2 := Subst(a1, 0x3A, Lit(':')), Subst(c1, 0x3A, Lit(':'));
    var a3, c3 := Subst(a2, 0x24, Lit('$')), Subst(c2, 0x24, Lit('$'));
    var a4, c4 := Subst(a3, 0x2C, Lit(',')), Subst(c3, 0x2C, Lit(','));
    SubstAppend(a, c, 0x40, Lit('@'));
    SubstAppend(a1, c1, 0x3A, Lit(':'));
    SubstAppend(a2, c2, 0x24, Lit('$'));
    SubstAppend(a3, c3, 0x2C, Lit(','));
    SubstAppend(a4, c4, 0x20, if pctEncodeSpaces then Pct(0x20) else Lit('+'));
  }

  lemma SegmentTokensAppend(a: seq<Token>, c: seq<Token>)
    ensures SegmentTokens(a + c) == SegmentTokens(a) + SegmentTokens(c)
  {
    QueryTokensAppend(a, c, true);
    var a0, c0 := QueryTokens(a, true), QueryTokens(c, true);
    var a1, c1 := Subst(a0, 0x26, Lit('&')), Subst(c0, 0x26, Lit('&'));
    var a2, c2 := Subst(a1, 0x3D, Lit('=')), Subst(c1, 0x3D, Lit('='));
    SubstAppend(a0, c0, 0x26, Lit('&'));
    SubstAppend(a1, c1, 0x3D, Lit('='));
    SubstAppend(a2, c2, 0x2B, Lit('+'));
  }

  /** Multi-byte characters carry no byte below 0x80, so no replacement touches them. */
  lemma SubstHighBytes(bs: seq<Byte>, b: Byte, r: Token)
    requires b < 0x80
    requires forall i :: 0 <= i < |bs| ==> bs[i] >= 0x80
    ensures Subst(ByteTokens(bs), b, r) == ByteTokens(bs)
  {
  }

  /** No replacement of either chain touches the escapes of a multi-byte character. */
  lemma QueryTokensHigh(bs: seq<Byte>, pctEncodeSpaces: bool)
    requires forall i :: 0 <= i < |bs| ==> bs[i] >= 0x80
    ensures QueryTokens(ByteTokens(bs), pctEncodeSpaces) == ByteTokens(bs)
  {
    SubstHighBytes(bs, 0x40, Lit('@'));
    SubstHighBytes(bs, 0x3A, Lit(':'));
    SubstHighBytes(bs, 0x24, Lit('$'));
    SubstHighBytes(bs, 0x2C, Lit(','));
    SubstHighBytes(bs, 0x20, if pctEncodeSpaces then Pct(0x20) else Lit('+'));
  }

  lemma SegmentTokensHigh(bs: seq<Byte>)
    requires forall i :: 0 <= i < |bs| ==> bs[i] >= 0x80
    ensures SegmentTokens(ByteTokens(bs)) == ByteTokens(bs)
  {
    QueryTokensHigh(bs, true);
    SubstHighBytes(bs, 0x26, Lit('&'));
    SubstHighBytes(bs, 0x3D, Lit('='));
    SubstHighBytes(bs, 0x2B, Lit('+'));
  }

  /** An ASCII character that is escaped: its one escape, after the chain. */
  lemma QuerySingleByte(c: char, pctEncodeSpaces: bool)
    requires c as int < 0x80 && !IsUriUnreserved(c)
    ensures Render(QueryTokens([Pct(c as int)], pctEncodeSpaces)) == QueryEscape(c, pctEncodeSpaces)
  {
    assert Utf8(c) == [c as int];
    assert PctBytes([c as int]) == PctByte(c as int) + PctBytes([]);
  }

  lemma SegmentSingleByte(c: char)
    requires c as int < 0x80 && !IsUriUnreserved(c)
    ensures Render(SegmentTokens([Pct(c as int)])) == SegmentEscape(c)
  {
    assert Utf8(c) == [c as int];
    assert PctBytes([c as int]) == PctByte(c as int) + PctBytes([]);
  }

  lemma QueryCharTokens(c: char, pctEncodeSpaces: bool)
    ensures Render(QueryTokens(CharTokens(c), pctEncodeSpaces)) == QueryEscape(c, pctEncodeSpaces)
  {
    var bs := Utf8(c);
    if IsUriUnreserved(c) {
    } else if |bs| == 1 {
      assert ByteTokens(bs) == [Pct(c as int)];
      QuerySingleByte(c, pctEncodeSpaces);
    } else {
      QueryTokensHigh(bs, pctEncodeSpaces);
      ByteTokensRender(bs);
    }
  }

  lemma SegmentCharTokens(c: char)
    ensures Render(SegmentTokens(CharTokens(c))) == SegmentEscape(c)
  {
    var bs := Utf8(c);
    if IsUriUnreserved(c) {
    } else if |bs| == 1 {
      assert ByteTokens(bs) == [Pct(c as int)];
      SegmentSingleByte(c);
    } else {
      SegmentTokensHigh(bs);
      ByteTokensRender(bs);
    }
  }

  /** The replace chain of `encodeUriQuery` is the per-character query escape. */
  lemma {:induction false} QueryMatchesReference(s: string, pctEncodeSpaces: bool)
    ensures EncodeUriQuery(s, pctEncodeSpaces) == QueryReference(s, pctEncodeSpaces)
  {
    QueryAsTokens(s, pctEncodeSpaces);
    QueryTokensRender(s, pctEncodeSpaces);
  }

  lemma {:induction false} QueryTokensRender(s: string, pctEncodeSpaces: bool)
    ensures Render(QueryTokens(Tokenize(s), pctEncodeSpaces)) == QueryReference(s, pctEncodeSpaces)
    decreases |s|
  {
    if s != [] {
      QueryTokensAppend(CharTokens(s[0]), Tokenize(s[1..]), pctEncodeSpaces);
      RenderAppend(QueryTokens(CharTokens(s[0]), pctEncodeSpaces), QueryTokens(Tokenize(s[1..]), pctEncodeSpaces));
      QueryCharTokens(s[0], pctEncodeSpaces);
      QueryTokensRender(s[1..], pctEncodeSpaces);
    }
  }

  /** The replace chain of `encodeUriSegment` is the per-character segment escape. */
  lemma {:induction false} SegmentMatchesReference(s: string)
    ensures EncodeUriSegment(s) == SegmentReference(s)
  {
    SegmentAsTokens(s);
    SegmentTokensRender(s);
  }

  lemma {:induction false} SegmentTokensRender(s: string)
    ensures Render(SegmentTokens(Tokenize(s))) == SegmentReference(s)
    decreases |s|
  {
    if s != [] {
      SegmentTokensAppend(CharTokens(s[0]), Tokenize(s[1..]));
      RenderAppend(SegmentTokens(CharTokens(s[0])), SegmentTokens(Tokenize(s[1..])));
      SegmentCharTokens(s[0]);
      SegmentTokensRender(s[1..]);
    }
  }
}

=== FILE: uri_properties.dfy ===
/** What the encoders promise: the RFC 3986 character classes of their output,
    the characters they keep literal, and that nothing is lost (a percent-decoder
    recovers the input). */
module UriProperties {
  import opened Chars
  import opened Results
  import opened Text
  import opened UriEncoding

  // ---------------------------------------------------------------------------
  // RFC 3986 grammar

  /** `pchar` of section 3.3 of RFC 3986, without its `pct-encoded` alternative:
      unreserved, sub-delims, `:` and `@`. */
  predicate IsPchar(c: char) {
    IsAlpha(c) || IsDigit(c) || c in "-._~" || c in "!$&'()*+,;=" || c == ':' || c == '@'
  }

  /** `segment = *pchar` (section 3.3 of RFC 3986), `%` only as the start of `%XY`. */
  predicate IsSegment(s: string)
    decreases |s|
  {
    if s == [] then true
    else if s[0] == '%' then |s| >= 3 && IsHexDigit(s[1]) && IsHexDigit(s[2]) && IsSegment(s[3..])
    else IsPchar(s[0]) && IsSegment(s[1..])
  }

  lemma {:induction false} SegmentAppend(a: string, b: string)
    requires IsSegment(a) && IsSegment(b)
    ensures IsSegment(a + b)
    decreases |a|
  {
    if a == [] {
      assert a + b == b;
    } else if a[0] == '%' {
      var ab := a + b;
      assert ab[0] == '%' && ab[1] == a[1] && ab[2] == a[2];
      assert ab[3..] == a[3..] + b;
      SegmentAppend(a[3..], b);
    } else {
      var ab := a + b;
      assert ab[0] == a[0];
      assert ab[1..] == a[1..] + b;
      SegmentAppend(a[1..], b);
    }
  }

  lemma {:induction false} PctBytesSegment(bs: seq<Byte>)
    ensures IsSegment(PctBytes(bs))
    decreases |bs|
  {
    if bs != [] {
      var s := PctBytes(bs);
      PctBytesSegment(bs[1..]);
      assert s[3..] == PctBytes(bs[1..]);
    }
  }

  /** Every character the segment encoder produces is a `pchar` or part of a
      `%XY` escape: the output is an RFC 3986 path segment. */
  lemma {:induction false} SegmentOutputIsPchar(s: string)
    ensures IsSegment(EncodeUriSegment(s))
  {
    SegmentMatchesReference(s);
    SegmentReferenceIsPchar(s);
  }

  lemma {:induction false} SegmentReferenceIsPchar(s: string)
    ensures IsSegment(SegmentReference(s))
    decreases |s|
  {
    if s != [] {
      SegmentReferenceIsPchar(s[1..]);
      PctBytesSegment(Utf8(s[0]));
      SegmentAppend(SegmentEscape(s[0]), SegmentReference(s[1..]));
    }
  }

  /** No literal `&`, `=` or `#`: the characters that would change how a
      query string is read. */
  predicate NoQueryDelimiter(r: string) {
    forall i :: 0 <= i < |r| ==> r[i] != '&' && r[i] != '=' && r[i] != '#'
  }

  lemma NoQueryDelimiterAppend(a: string, b: string)
    requires NoQueryDelimiter(a) && NoQueryDelimiter(b)
    ensures NoQueryDelimiter(a + b)
  {
    forall i | 0 <= i < |a + b|
      ensures (a + b)[i] != '&' && (a + b)[i] != '=' && (a + b)[i] != '#'
    {
      if i >= |a| {
        assert (a + b)[i] == b[i - |a|];
      }
    }
  }

  /** The query encoder's output is made of `pchar`s and escapes too, so it is
      valid in a query (section 3.4 of RFC 3986), and it never carries a literal
      `&`, `=` or `#`, which would change how the query string is read. */
  lemma {:induction false} QueryOutputIsPchar(s: string, pctEncodeSpaces: bool)
    ensures IsSegment(EncodeUriQuery(s, pctEncodeSpaces))
    ensures NoQueryDelimiter(EncodeUriQuery(s, pctEncodeSpaces))
  {
    QueryMatchesReference(s, pctEncodeSpaces);
    QueryReferenceIsPchar(s, pctEncodeSpaces);
    QueryReferenceNoDelimiter(s, pctEncodeSpaces);
  }

  lemma {:induction false} PctBytesHaveNoDelimiters(bs: seq<Byte>)
    ensures forall i :: 0 <= i < |PctBytes(bs)| ==> PctBytes(bs)[i] == '%' || IsHexDigit(PctBytes(bs)[i])
    decreases |bs|
  {
    if bs != [] {
      PctBytesHaveNoDelimiters(bs[1..]);
      var s := PctBytes(bs);
      assert s == PctByte(bs[0]) + PctBytes(bs[1..]);
      forall i | 3 <= i < |s|
        ensures s[i] == '%' || IsHexDigit(s[i])
      {
        assert s[i] == PctBytes(bs[1..])[i - 3];
      }
    }
  }

  lemma {:induction false} QueryReferenceIsPchar(s: string, pctEncodeSpaces: bool)
    ensures IsSegment(QueryReference(s, pctEncodeSpaces))
    decreases |s|
  {
    if s != [] {
      QueryReferenceIsPchar(s[1..], pctEncodeSpaces);
      PctBytesSegment(Utf8(s[0]));
      SegmentAppend(QueryEscape(s[0], pctEncodeSpaces), QueryReference(s[1..], pctEncodeSpaces));
    }
  }

  lemma {:induction false} QueryReferenceNoDelimiter(s: string, pctEncodeSpaces: bool)
    ensures NoQueryDelimiter(QueryReference(s, pctEncodeSpaces))
    decreases |s|
  {
    if s != [] {
      QueryReferenceNoDelimiter(s[1..], pctEncodeSpaces);
      PctBytesHaveNoDelimiters(Utf8(s[0]));
      NoQueryDelimiterAppend(QueryEscape(s[0], pctEncodeSpaces), QueryReference(s[1..], pctEncodeSpaces));
    }
  }

  /** Only unreserved characters and `%`. */
  predicate ComponentChars(r: string) {
    forall i :: 0 <= i < |r| ==> IsUriUnreserved(r[i]) || r[i] == '%'
  }

  lemma ComponentCharsAppend(a: string, b: string)
    requires ComponentChars(a) && ComponentChars(b)
    ensures ComponentChars(a + b)
  {
    forall i | 0 <= i < |a + b|
      ensures IsUriUnreserved((a + b)[i]) || (a + b)[i] == '%'
    {
      if i >= |a| {
        assert (a + b)[i] == b[i - |a|];
      }
    }
  }

  lemma EscapeCharChars(c: char)
    ensures ComponentChars(EscapeChar(c))
  {
    PctBytesHaveNoDelimiters(Utf8(c));
  }

  /** `encodeURIComponent` writes only unreserved characters and escapes. */
  lemma {:induction false} ComponentAlphabet(s: string)
    ensures forall i :: 0 <= i < |EncodeUriComponent(s)| ==> IsUriUnreserved(EncodeUriComponent(s)[i]) || EncodeUriComponent(s)[i] == '%'
    decreases |s|
  {
    if s != [] {
      ComponentAlphabet(s[1..]);
      EscapeCharChars(s[0]);
      ComponentCharsAppend(EscapeChar(s[0]), EncodeUriComponent(s[1..]));
    }
  }

  /** A space: `%20` in a segment, `+` or `%20` in a query. */
  lemma SpaceEncodings()
    ensures EncodeUriSegment(" ") == "%20"
    ensures EncodeUriQuery(" ", false) == "+" && EncodeUriQuery(" ", true) == "%20"
  {
    SpaceSegment(" ");
    SpaceQuery(false);
    SpaceQuery(true);
  }

  lemma SpaceSegment(s: string)
    requires s == [' ']
    ensures EncodeUriSegment(s) == "%20"
  {
    SegmentMatchesReference(s);
    assert Utf8(' ') == [0x20];
    assert PctBytes([0x20]) == PctByte(0x20) + PctBytes([]);
    PatternBytes();
    assert SegmentReference(s) == SegmentEscape(' ') + SegmentReference([]);
  }

  lemma SpaceQuery(pctEncodeSpaces: bool)
    ensures EncodeUriQuery(" ", pctEncodeSpaces) == if pctEncodeSpaces then "%20" else "+"
  {
    QueryMatchesReference(" ", pctEncodeSpaces);
    assert QueryReference(" ", pctEncodeSpaces) == QueryEscape(' ', pctEncodeSpaces) + QueryReference([], pctEncodeSpaces);
  }

  /** A value made only of characters a segment may carry literally is
      written unchanged; `@ : $ , & = +` are among them. */
  lemma {:induction false} SegmentKeepsLiterals(s: string)
    requires forall i :: 0 <= i < |s| ==> IsUriUnreserved(s[i]) || s[i] in "@:$,&=+"
    ensures EncodeUriSegment(s) == s
  {
    SegmentMatchesReference(s);
    SegmentReferenceKeepsLiterals(s);
  }

  lemma {:induction false} SegmentReferenceKeepsLiterals(s: string)
    requires forall i :: 0 <= i < |s| ==> IsUriUnreserved(s[i]) || s[i] in "@:$,&=+"
    ensures SegmentReference(s) == s
    decreases |s|
  {
    if s != [] {
      assert IsUriUnreserved(s[0]) || s[0] in "@:$,&=+";
      SegmentReferenceKeepsLiterals(s[1..]);
      assert [s[0]] + s[1..] == s;
    }
  }

  /** A value made only of characters a query component may carry literally is
      written unchanged; `@ : $ ,` are among them, `& = +` are not. */
  lemma {:induction false} QueryKeepsLiterals(s: string, pctEncodeSpaces: bool)
    requires forall i :: 0 <= i < |s| ==> IsUriUnreserved(s[i]) || s[i] in "@:$,"
    ensures EncodeUriQuery(s, pctEncodeSpaces) == s
  {
    QueryMatchesReference(s, pctEncodeSpaces);
    QueryReferenceKeepsLiterals(s, pctEncodeSpaces);
  }

  lemma {:induction false} QueryReferenceKeepsLiterals(s: string, pctEncodeSpaces: bool)
    requires forall i :: 0 <= i < |s| ==> IsUriUnreserved(s[i]) || s[i] in "@:$,"
    ensures QueryReference(s, pctEncodeSpaces) == s
    decreases |s|
  {
    if s != [] {
      assert IsUriUnreserved(s[0]) || s[0] in "@:$,";
      QueryReferenceKeepsLiterals(s[1..], pctEncodeSpaces);
      assert [s[0]] + s[1..] == s;
    }
  }

  /** The query encoding escapes `&`, `=` and `+`, whatever surrounds them. */
  lemma QueryEscapesDelimiter(c: char, pctEncodeSpaces: bool)
    requires c == '&' || c == '=' || c == '+'
    ensures EncodeUriQuery([c], pctEncodeSpaces) == PctByte(c as int)
    ensures PctByte('&' as int) == "%26" && PctByte('=' as int) == "%3D" && PctByte('+' as int) == "%2B"
  {
    QueryMatchesReference([c], pctEncodeSpaces);
    QueryReferenceSingle(c, pctEncodeSpaces);
    DelimiterEscape(c, pctEncodeSpaces);
    PatternBytes();
  }

  lemma QueryReferenceSingle(c: char, pctEncodeSpaces: bool)
    ensures QueryReference([c], pctEncodeSpaces) == QueryEscape(c, pctEncodeSpaces)
  {
    assert [c][1..] == [];
  }

  lemma DelimiterEscape(c: char, pctEncodeSpaces: bool)
    requires c == '&' || c == '=' || c == '+'
    ensures QueryEscape(c, pctEncodeSpaces) == PctByte(c as int)
  {
    assert Utf8(c) == [c as int];
    assert PctBytes([c as int]) == PctByte(c as int) + PctBytes([]);
  }

  // ---------------------------------------------------------------------------
  // Percent-decoding, the inverse the encoders are checked against

  function ReadByte(s: string, i: nat): (r: Option<Byte>)
  {
    if i + 3 <= |s| && s[i] == '%' && IsHexDigit(s[i + 1]) && IsHexDigit(s[i + 2])
    then Some(16 * HexValue(s[i + 1]) + HexValue(s[i + 2]))
    else None
  }

  /** The six payload bits of a UTF-8 continuation byte `10xxxxxx`. */
  function ReadContinuation(s: string, i: nat): (r: Option<nat>)
    ensures r.Some? ==> r.value < 64
  {
    match ReadByte(s, i)
    case None => None
    case Some(b) => if 0x80 <= b < 0xC0 then Some(b - 0x80) else None
  }

  predicate IsScalar(v: int) {
    0 <= v < 0xD800 || 0xE000 <= v <= 0x10FFFF
  }

  /** One UTF-8 encoded character written as escapes at the start of `s`, and
      how many characters of `s` it took. */
  function DecodeEscape(s: string): (r: Option<(char, nat)>)
    ensures r.Some? ==> 3 <= r.value.1 <= |s|
  {
    match ReadByte(s, 0)
    case None => None
    case Some(b0) =>
      if b0 < 0x80 then Some((b0 as char, 3))
      else if b0 < 0xC0 then None
      else if b0 < 0xE0 then
        match ReadContinuation(s, 3)
        case None => None
        case Some(x1) => Some((((b0 - 0xC0) * 64 + x1) as char, 6))
      else if b0 < 0xF0 then
        match (ReadContinuation(s, 3), ReadContinuation(s, 6))
        case (Some(x1), Some(x2)) =>
          var v := (b0 - 0xE0) * 4096 + x1 * 64 + x2;
          if IsScalar(v) then Some((v as char, 9)) else None
        case _ => None
      else if b0 < 0xF8 then
        match (ReadContinuation(s, 3), ReadContinuation(s, 6), ReadContinuation(s, 9))
        case (Some(x1), Some(x2), Some(x3)) =>
          var v := (b0 - 0xF0) * 0x40000 + x1 * 4096 + x2 * 64 + x3;
          if IsScalar(v) then Some((v as char, 12)) else None
        case _ => None
      else None
  }

  function Prepend(c: char, o: Option<string>): Option<string> {
    if o.None? then None else Some([c] + o.value)
  }

  /** Percent-decoding; `plusAsSpace` reads `+` as a space, the form-encoding
      convention of the query encoder. */
  function PercentDecode(s: string, plusAsSpace: bool): Option<string>
    decreases |s|
  {
    if s == [] then Some([])
    else if s[0] == '%' then
      match DecodeEscape(s)
      case None => None
      case Some(e) => Prepend(e.0, PercentDecode(s[e.1..], plusAsSpace))
    else Prepend(if plusAsSpace && s[0] == '+' then ' ' else s[0], PercentDecode(s[1..], plusAsSpace))
  }

  lemma {:induction false} PctBytesAt(bs: seq<Byte>, j: nat)
    requires j < |bs|
    ensures PctBytes(bs)[3 * j..3 * j + 3] == PctByte(bs[j])
    decreases j
  {
    if j > 0 {
      PctBytesAt(bs[1..], j - 1);
      assert PctBytes(bs) == PctByte(bs[0]) + PctBytes(bs[1..]);
      assert PctBytes(bs)[3 * j..3 * j + 3] == PctBytes(bs[1..])[3 * (j - 1)..3 * (j - 1) + 3];
    }
  }

  lemma ReadPct(s: string, i: nat, b: Byte)
    requires i + 3 <= |s| && s[i..i + 3] == PctByte(b)
    ensures ReadByte(s, i) == Some(b)
  {
    assert s[i] == '%';
    assert s[i + 1] == HexDigit(b / 16);
    assert s[i + 2] == HexDigit(b % 16);
  }

  lemma ReadsEscapedByte(bs: seq<Byte>, rest: string, j: nat)
    requires j < |bs|
    ensures ReadByte(PctBytes(bs) + rest, 3 * j) == Some(bs[j])
  {
    PctBytesAt(bs, j);
    PrefixSlice(PctBytes(bs), rest, 3 * j, 3 * j + 3);
    ReadPct(PctBytes(bs) + rest, 3 * j, bs[j]);
  }

  lemma Decode2(s: string, b0: Byte, b1: Byte)
    requires ReadByte(s, 0) == Some(b0) && ReadByte(s, 3) == Some(b1)
    requires 0xC0 <= b0 < 0xE0 && 0x80 <= b1 < 0xC0
    ensures DecodeEscape(s) == Some((((b0 - 0xC0) * 64 + (b1 - 0x80)) as char, 6))
  {
  }

  lemma Decode3(s: string, b0: Byte, b1: Byte, b2: Byte)
    requires ReadByte(s, 0) == Some(b0) && ReadByte(s, 3) == Some(b1) && ReadByte(s, 6) == Some(b2)
    requires 0xE0 <= b0 < 0xF0 && 0x80 <= b1 < 0xC0 && 0x80 <= b2 < 0xC0
    requires IsScalar((b0 - 0xE0) * 4096 + (b1 - 0x80) * 64 + (b2 - 0x80))
    ensures DecodeEscape(s) == Some((((b0 - 0xE0) * 4096 + (b1 - 0x80) * 64 + (b2 - 0x80)) as char, 9))
  {
  }

  lemma Decode4(s: string, b0: Byte, b1: Byte, b2: Byte, b3: Byte)
    requires ReadByte(s, 0) == Some(b0) && ReadByte(s, 3) == Some(b1)
    requires ReadByte(s, 6) == Some(b2) && ReadByte(s, 9) == Some(b3)
    requires 0xF0 <= b0 < 0xF8 && 0x80 <= b1 < 0xC0 && 0x80 <= b2 < 0xC0 && 0x80 <= b3 < 0xC0
    requires IsScalar((b0 - 0xF0) * 0x40000 + (b1 - 0x80) * 4096 + (b2 - 0x80) * 64 + (b3 - 0x80))
    ensures DecodeEscape(s) == Some((((b0 - 0xF0) * 0x40000 + (b1 - 0x80) * 4096 + (b2 - 0x80) * 64 + (b3 - 0x80)) as char, 12))
  {
  }

  /** The arithmetic of UTF-8: the payload bits of the bytes put back together
      give the code point. */
  lemma Utf8Value(c: char)
    ensures var b: seq<int> := Utf8(c);
      && (|b| == 2 ==> 0xC0 <= b[0] < 0xE0 && 0x80 <= b[1] < 0xC0 && (b[0] - 0xC0) * 64 + (b[1] - 0x80) == c as int)
      && (|b| == 3 ==> 0xE0 <= b[0] < 0xF0 && 0x80 <= b[1] < 0xC0 && 0x80 <= b[2] < 0xC0
                       && (b[0] - 0xE0) * 4096 + (b[1] - 0x80) * 64 + (b[2] - 0x80) == c as int)
      && (|b| == 4 ==> 0xF0 <= b[0] < 0xF8 && 0x80 <= b[1] < 0xC0 && 0x80 <= b[2] < 0xC0 && 0x80 <= b[3] < 0xC0
                       && (b[0] - 0xF0) * 0x40000 + (b[1] - 0x80) * 4096 + (b[2] - 0x80) * 64 + (b[3] - 0x80) == c as int)
  {
    var n := c as int;
    var m := n / 64;
    var k := m / 64;
    assert n == 64 * m + n % 64;
    assert m == 64 * k + m % 64;
    assert k == 64 * (k / 64) + k % 64;
    assert n / 4096 == k;
    assert n / 0x40000 == k / 64;
  }

  /** The UTF-8 escapes of one character decode to that character. */
  lemma Utf8Decodes(c: char, rest: string)
    ensures DecodeEscape(PctBytes(Utf8(c)) + rest) == Some((c, 3 * |Utf8(c)|))
  {
    if |Utf8(c)| == 1 {
      ReadsEscapedByte(Utf8(c), rest, 0);
    } else if |Utf8(c)| == 2 {
      Utf8Decodes2(c, rest);
    } else if |Utf8(c)| == 3 {
      Utf8Decodes3(c, rest);
    } else {
      Utf8Decodes4(c, rest);
    }
  }

  lemma Utf8Decodes2(c: char, rest: string)
    requires |Utf8(c)| == 2
    ensures DecodeEscape(PctBytes(Utf8(c)) + rest) == Some((c, 6))
  {
    Utf8Value(c);
    ReadsEscapedByte(Utf8(c), rest, 0);
    ReadsEscapedByte(Utf8(c), rest, 1);
    Decode2(PctBytes(Utf8(c)) + rest, Utf8(c)[0], Utf8(c)[1]);
  }

  lemma Utf8Decodes3(c: char, rest: string)
    requires |Utf8(c)| == 3
    ensures DecodeEscape(PctBytes(Utf8(c)) + rest) == Some((c, 9))
  {
    Utf8Value(c);
    ReadsEscapedByte(Utf8(c), rest, 0);
    ReadsEscapedByte(Utf8(c), rest, 1);
    ReadsEscapedByte(Utf8(c), rest, 2);
    Decode3(PctBytes(Utf8(c)) + rest, Utf8(c)[0], Utf8(c)[1], Utf8(c)[2]);
  }

  lemma Utf8Decodes4(c: char, rest: string)
    requires |Utf8(c)| == 4
    ensures DecodeEscape(PctBytes(Utf8(c)) + rest) == Some((c, 12))
  {
    var b := Utf8(c);
    Utf8Value(c);
    assert (b[0] as int - 0xF0) * 0x40000 + (b[1] as int - 0x80) * 4096 + (b[2] as int - 0x80) * 64 + (b[3] as int - 0x80) == c as int;
    ReadsEscapedByte(b, rest, 0);
    ReadsEscapedByte(b, rest, 1);
    ReadsEscapedByte(b, rest, 2);
    ReadsEscapedByte(b, rest, 3);
    Decode4(PctBytes(b) + rest, b[0], b[1], b[2], b[3]);
  }

  lemma DecodeEscaped(c: char, rest: string, plusAsSpace: bool)
    ensures PercentDecode(PctBytes(Utf8(c)) + rest, plusAsSpace) == Prepend(c, PercentDecode(rest, plusAsSpace))
  {
    var s := PctBytes(Utf8(c)) + rest;
    Utf8Decodes(c, rest);
    assert s[3 * |Utf8(c)|..] == rest;
  }

  lemma DecodeLiteral(c: char, rest: string, plusAsSpace: bool)
    requires c != '%' && !(plusAsSpace && c == '+')
    ensures PercentDecode([c] + rest, plusAsSpace) == Prepend(c, PercentDecode(rest, plusAsSpace))
  {
    assert ([c] + rest)[1..] == rest;
  }

  /** Decoding undoes the query encoding, whichever way spaces were written:
      a literal `+` in the output always stands for a space. */
  lemma {:induction false} QueryRoundTrip(s: string, pctEncodeSpaces: bool)
    ensures PercentDecode(EncodeUriQuery(s, pctEncodeSpaces), true) == Some(s)
  {
    QueryMatchesReference(s, pctEncodeSpaces);
    QueryReferenceDecodes(s, pctEncodeSpaces);
  }

  lemma {:induction false} QueryReferenceDecodes(s: string, pctEncodeSpaces: bool)
    ensures PercentDecode(QueryReference(s, pctEncodeSpaces), true) == Some(s)
    decreases |s|
  {
    if s != [] {
      var c := s[0];
      var rest := QueryReference(s[1..], pctEncodeSpaces);
      QueryReferenceDecodes(s[1..], pctEncodeSpaces);
      if IsUriUnreserved(c) || c in "@:$," {
        DecodeLiteral(c, rest, true);
      } else if c == ' ' {
        if pctEncodeSpaces {
          DecodeEscaped(' ', rest, true);
          assert PctBytes(Utf8(' ')) == "%20";
        } else {
          assert ("+" + rest)[1..] == rest;
        }
      } else {
        DecodeEscaped(c, rest, true);
      }
      assert [c] + s[1..] == s;
    }
  }

  /** Decoding undoes the segment encoding; `+` is read literally there. */
  lemma {:induction false} SegmentRoundTrip(s: string)
    ensures PercentDecode(EncodeUriSegment(s), false) == Some(s)
  {
    SegmentMatchesReference(s);
    SegmentReferenceDecodes(s);
  }

  lemma {:induction false} SegmentReferenceDecodes(s: string)
    ensures PercentDecode(SegmentReference(s), false) == Some(s)
    decreases |s|
  {
    if s != [] {
      var c := s[0];
      var rest := SegmentReference(s[1..]);
      SegmentReferenceDecodes(s[1..]);
      if IsUriUnreserved(c) || c in "@:$,&=+" {
        DecodeLiteral(c, rest, false);
      } else {
        DecodeEscaped(c, rest, false);
      }
      assert [c] + s[1..] == s;
    }
  }

  /** Decoding undoes `encodeURIComponent`. */
  lemma {:induction false} ComponentRoundTrip(s: string)
    ensures PercentDecode(EncodeUriComponent(s), false) == Some(s)
    decreases |s|
  {
    if s != [] {
      var rest := EncodeUriComponent(s[1..]);
      ComponentRoundTrip(s[1..]);
      DecodeEscapeChar(s[0], rest);
      assert [s[0]] + s[1..] == s;
    }
  }

  /** One character of `encodeURIComponent` decodes back to that character. */
  lemma DecodeEscapeChar(c: char, rest: string)
    ensures PercentDecode(EscapeChar(c) + rest, false) == Prepend(c, PercentDecode(rest, false))
  {
    if IsUriUnreserved(c) {
      DecodeLiteral(c, rest, false);
    } else {
      DecodeEscaped(c, rest, false);
    }
  }

  /** Hence the segment encoder is injective: distinct values give distinct segments. */
  lemma SegmentInjective(s: string, t: string)
    requires EncodeUriSegment(s) == EncodeUriSegment(t)
    ensures s == t
  {
    SegmentRoundTrip(s);
    SegmentRoundTrip(t);
  }

  /** The query encoder is injective too, with either treatment of spaces. */
  lemma QueryInjective(s: string, t: string, pctEncodeSpaces: bool)
    requires EncodeUriQuery(s, pctEncodeSpaces) == EncodeUriQuery(t, pctEncodeSpaces)
    ensures s == t
  {
    QueryRoundTrip(s, pctEncodeSpaces);
    QueryRoundTrip(t, pctEncodeSpaces);
  }
}

=== FILE: values.dfy ===
/** JavaScript values as the pipeline sees them. An object is a list of
    key/value entries in insertion order. A list with a repeated key reads like
    a JavaScript object literal with a repeated key: the first entry fixes the
    position, the last one gives the value (`Properties`). `for-in`, and
    lodash's `forEach` over an object without a numeric `length`, visit the
    resulting properties array indices first, in ascending numeric order, then
    the other keys in insertion order (`Enumerate`). lodash's `forEach` walks a
    value with a numeric `length` like an array instead (`ForEachEntries`). */
module JsValues {
  import opened Chars

  type Fields = seq<(string, Value)>

  /** A function value is represented by its source text (what `String(f)`
      yields), its declared parameter count (its `length`) and the value it
      returns when called, whatever the arguments. */
  datatype Value =
    | Undefined
    | Null
    | Bool(bit: bool)
    | Int(num: int)
    | Str(str: string)
    | Fn(source: string, arity: nat, result: Value)
    | Obj(fields: Fields)

  /** The keys of an object, in order. */
  function Keys(f: Fields): (ks: seq<string>)
    ensures |ks| == |f|
    ensures forall i :: 0 <= i < |f| ==> ks[i] == f[i].0
  {
    if f == [] then [] else [f[0].0] + Keys(f[1..])
  }

  predicate Has(f: Fields, k: string) {
    exists i :: 0 <= i < |f| && f[i].0 == k
  }

  /** `obj[k]` for an own key, `undefined` when the key is absent. */
  function Get(f: Fields, k: string): (v: Value)
    ensures !Has(f, k) ==> v == Undefined
    ensures Has(f, k) ==> exists i :: 0 <= i < |f| && f[i] == (k, v)
  {
    if f == [] then Undefined
    else if f[|f| - 1].0 == k then f[|f| - 1].1
    else Get(f[..|f| - 1], k)
  }

  /** `obj[k] = v`: an existing key keeps its position, a new key is appended. */
  function Set(f: Fields, k: string, v: Value): (r: Fields)
    ensures Has(f, k) ==> |r| == |f|
    ensures !Has(f, k) ==> r == f + [(k, v)]
    ensures Has(r, k)
  {
    if Has(f, k) then SetExisting(f, k, v)
    else
      assert (f + [(k, v)])[|f|].0 == k;
      f + [(k, v)]
  }

  function SetExisting(f: Fields, k: string, v: Value): (r: Fields)
    ensures |r| == |f|
    ensures forall i :: 0 <= i < |f| ==> r[i] == (if f[i].0 == k then (k, v) else f[i])
  {
    if f == [] then []
    else
      var last := f[|f| - 1];
      SetExisting(f[..|f| - 1], k, v) + [if last.0 == k then (k, v) else last]
  }

  /** No key occurs twice: the shape of every object the pipeline builds itself. */
  predicate UniqueKeys(f: Fields) {
    forall i, j :: 0 <= i < j < |f| ==> f[i].0 != f[j].0
  }

  /** `_.extend(dst, src)` for a single source: each entry of `src` assigned in
      turn. A source that is not an object contributes nothing. */
  function Overlay(dst: Fields, src: Value): (r: Fields)
  {
    if src.Obj? then Assign(dst, src.fields) else dst
  }

  function Assign(dst: Fields, src: Fields): (r: Fields)
    decreases |src|
  {
    if src == [] then dst else Assign(Set(dst, src[0].0, src[0].1), src[1..])
  }

  /** The same keys, in the same order, every one holding `v`. */
  function WithValues(f: Fields, v: Value): (r: Fields)
    ensures |r| == |f|
    ensures forall i :: 0 <= i < |f| ==> r[i] == (f[i].0, v)
  {
    if f == [] then [] else WithValues(f[..|f| - 1], v) + [(f[|f| - 1].0, v)]
  }

  /** lodash 2.x's three-argument `extend({}, first, last)`. A function in last
      position is not a source but the assign callback: only `first` is copied,
      and each of its entries becomes what the callback returns for it. Otherwise
      `first` and then `last` are copied, `last` winning. */
  function Extend(first: Value, last: Value): (r: Fields)
    ensures UniqueKeys(r)
    ensures forall k :: Has(r, k) <==> (first.Obj? && Has(first.fields, k)) || (last.Obj? && Has(last.fields, k))
    ensures forall k ::
      Get(r, k) == (if last.Fn? then (if first.Obj? && Has(first.fields, k) then last.result else Undefined)
                    else if last.Obj? && Has(last.fields, k) then Get(last.fields, k)
                    else Prop(first, k))
  {
    var base := Overlay([], first);
    var r := if last.Fn? then WithValues(base, last.result) else Overlay(base, last);
    OverlayGet([], first, "");
    forall k
      ensures Has(r, k) <==> (first.Obj? && Has(first.fields, k)) || (last.Obj? && Has(last.fields, k))
      ensures Get(r, k) ==
        if last.Fn? then (if first.Obj? && Has(first.fields, k) then last.result else Undefined)
        else if last.Obj? && Has(last.fields, k) then Get(last.fields, k)
        else Prop(first, k)
    {
      OverlayGet([], first, k);
      OverlayGet(base, last, k);
      if last.Fn? {
        WithValuesGet(base, last.result, k);
      }
    }
    if last.Fn? then
      WithValuesGet(base, last.result, "");
      r
    else
      OverlayGet(base, last, "");
      r
  }

  /** With a function last, `extend({}, first, fn)` is `first` with every
      value replaced by what `fn` returns. */
  lemma ExtendCallback(f: Fields, fn: Value)
    requires UniqueKeys(f) && fn.Fn?
    ensures Extend(Obj(f), fn) == WithValues(f, fn.result)
  {
    assert [] + f == f;
    AssignDisjoint([], f);
  }

  /** `extend({}, {a: 1, b: 'x'}, function () {})`: the function is the
      callback, so both entries take its return value, `undefined`. */
  lemma ExtendCallbackExample(f: Fields, fn: Value)
    requires f == [("a", Int(1)), ("b", Str("x"))] && fn == Fn("function () {}", 0, Undefined)
    ensures Extend(Obj(f), fn) == [("a", Undefined), ("b", Undefined)]
  {
    ExtendCallback(f, fn);
    var r := WithValues(f, Undefined);
    assert r[0] == ("a", Undefined) && r[1] == ("b", Undefined);
  }

  lemma WithValuesGet(f: Fields, v: Value, k: string)
    ensures Has(WithValues(f, v), k) <==> Has(f, k)
    ensures Get(WithValues(f, v), k) == if Has(f, k) then v else Undefined
    ensures UniqueKeys(f) ==> UniqueKeys(WithValues(f, v))
  {
    var r := WithValues(f, v);
    if Has(f, k) {
      var i :| 0 <= i < |f| && f[i].0 == k;
      assert r[i].0 == k;
    }
    if Has(r, k) {
      var i :| 0 <= i < |r| && r[i].0 == k;
      assert f[i].0 == k;
    }
  }

  /** `v[k]` for a value that is not null or undefined: only objects have own
      keys in this model. */
  function Prop(v: Value, k: string): (r: Value)
    ensures !v.Obj? ==> r == Undefined
  {
    if v.Obj? then Get(v.fields, k) else Undefined
  }

  /** JavaScript truthiness. */
  predicate Truthy(v: Value) {
    match v
    case Undefined => false
    case Null => false
    case Bool(b) => b
    case Int(n) => n != 0
    case Str(s) => s != []
    case Fn(_, _, _) => true
    case Obj(_) => true
  }

  /** `String(v)`. */
  function ToJsString(v: Value): (s: string)
    ensures v.Str? ==> s == v.str
  {
    match v
    case Undefined => "undefined"
    case Null => "null"
    case Bool(b) => if b then "true" else "false"
    case Int(n) => DecimalString(n)
    case Str(s) => s
    case Fn(src, _, _) => src
    case Obj(_) => "[object Object]"
  }

  // ---------------------------------------------------------------------------
  // Reading back what was written

  lemma {:induction false} GetSetSame(f: Fields, k: string, v: Value)
    ensures Get(Set(f, k, v), k) == v
  {
    if Has(f, k) {
      SetExistingGet(f, k, v, k);
    }
  }

  lemma {:induction false} GetSetOther(f: Fields, k: string, v: Value, k': string)
    requires k' != k
    ensures Get(Set(f, k, v), k') == Get(f, k')
    ensures Has(Set(f, k, v), k') <==> Has(f, k')
  {
    if Has(f, k) {
      SetExistingGet(f, k, v, k');
    } else {
      AppendOther(f, k, v, k');
    }
  }

  /** Appending an entry for another key changes nothing about `k'`. */
  lemma AppendOther(f: Fields, k: string, v: Value, k': string)
    requires k' != k
    ensures Get(f + [(k, v)], k') == Get(f, k')
    ensures Has(f + [(k, v)], k') <==> Has(f, k')
  {
    var r := f + [(k, v)];
    assert r[..|r| - 1] == f;
    if Has(f, k') {
      var i :| 0 <= i < |f| && f[i].0 == k';
      assert r[i].0 == k';
    }
  }

  /** A second assignment to the same key overwrites the first in place. */
  lemma SetSet(f: Fields, k: string, x: Value, y: Value)
    ensures Set(Set(f, k, x), k, y) == Set(f, k, y)
  {
    var r := Set(Set(f, k, x), k, y);
    if !Has(f, k) {
      assert forall i :: 0 <= i < |f| ==> f[i].0 != k;
      assert r == f + [(k, y)];
    }
  }

  lemma {:induction false} SetExistingGet(f: Fields, k: string, v: Value, k': string)
    requires Has(f, k)
    ensures Get(SetExisting(f, k, v), k') == (if k' == k then v else Get(f, k'))
    ensures Has(SetExisting(f, k, v), k') <==> Has(f, k')
    decreases |f|
  {
    var r := SetExisting(f, k, v);
    var n := |f|;
    assert Has(r, k') <==> Has(f, k') by {
      if Has(f, k') {
        var i :| 0 <= i < |f| && f[i].0 == k';
        assert r[i].0 == k';
      }
      if Has(r, k') {
        var i :| 0 <= i < |r| && r[i].0 == k';
        assert f[i].0 == k';
      }
    }
    if f[n - 1].0 == k {
      if k' != k {
        assert r[..n - 1] == SetExisting(f[..n - 1], k, v);
        if Has(f[..n - 1], k) {
          SetExistingGet(f[..n - 1], k, v, k');
        } else {
          assert SetExisting(f[..n - 1], k, v) == f[..n - 1];
        }
      }
    } else {
      assert r[..n - 1] == SetExisting(f[..n - 1], k, v);
      assert Has(f[..n - 1], k) by {
        var i :| 0 <= i < |f| && f[i].0 == k;
        assert f[..n - 1][i].0 == k;
      }
      SetExistingGet(f[..n - 1], k, v, k');
    }
  }

  lemma {:induction false} SetPreservesUnique(f: Fields, k: string, v: Value)
    requires UniqueKeys(f)
    ensures UniqueKeys(Set(f, k, v))
  {
  }

  /** `extend` lets the source win: a key the source has reads the source's value,
      any other key reads what the destination had. */
  lemma {:induction false} AssignGet(dst: Fields, src: Fields, k: string)
    ensures Get(Assign(dst, src), k) == (if Has(src, k) then Get(src, k) else Get(dst, k))
    ensures Has(Assign(dst, src), k) <==> Has(src, k) || Has(dst, k)
    decreases |src|
  {
    if src != [] {
      var d' := Set(dst, src[0].0, src[0].1);
      AssignGet(d', src[1..], k);
      if src[0].0 == k {
        GetSetSame(dst, k, src[0].1);
        GetLastEntry(src, k);
      } else {
        GetSetOther(dst, src[0].0, src[0].1, k);
        GetSkipsFirst(src, k);
      }
    }
  }

  /** Dropping a first entry with another key changes no lookup. */
  lemma {:induction false} GetSkipsFirst(f: Fields, k: string)
    requires |f| > 0 && f[0].0 != k
    ensures Get(f, k) == Get(f[1..], k)
    ensures Has(f, k) <==> Has(f[1..], k)
    decreases |f|
  {
    assert Has(f, k) <==> Has(f[1..], k) by {
      if Has(f, k) {
        var i :| 0 <= i < |f| && f[i].0 == k;
        assert f[1..][i - 1].0 == k;
      }
      if Has(f[1..], k) {
        var i :| 0 <= i < |f[1..]| && f[1..][i].0 == k;
        assert f[i + 1].0 == k;
      }
    }
    var n := |f|;
    if n > 1 && f[n - 1].0 != k {
      assert f[1..][..n - 2] == f[..n - 1][1..];
      GetSkipsFirst(f[..n - 1], k);
    }
  }

  /** When the first entry has key `k`, a later entry for `k` wins if there is one. */
  lemma {:induction false} GetLastEntry(f: Fields, k: string)
    requires |f| > 0 && f[0].0 == k
    ensures Get(f, k) == (if Has(f[1..], k) then Get(f[1..], k) else f[0].1)
    decreases |f|
  {
    var n := |f|;
    if n > 1 {
      if f[n - 1].0 == k {
        assert f[1..][n - 2].0 == k;
      } else {
        assert f[1..][..n - 2] == f[..n - 1][1..];
        GetLastEntry(f[..n - 1], k);
        assert Has(f[1..], k) <==> Has(f[..n - 1][1..], k) by {
          if Has(f[1..], k) {
            var i :| 0 <= i < |f[1..]| && f[1..][i].0 == k;
            assert f[..n - 1][1..][i].0 == k;
          }
        }
      }
    }
  }

  lemma {:induction false} AssignPreservesUnique(dst: Fields, src: Fields)
    requires UniqueKeys(dst)
    ensures UniqueKeys(Assign(dst, src))
    decreases |src|
  {
    if src != [] {
      SetPreservesUnique(dst, src[0].0, src[0].1);
      AssignPreservesUnique(Set(dst, src[0].0, src[0].1), src[1..]);
    }
  }

  /** The overlay reading of `extend(dst, src)`, at the level of values. */
  lemma OverlayGet(dst: Fields, src: Value, k: string)
    ensures src.Obj? ==> Get(Overlay(dst, src), k) == (if Has(src.fields, k) then Get(src.fields, k) else Get(dst, k))
    ensures src.Obj? ==> (Has(Overlay(dst, src), k) <==> Has(src.fields, k) || Has(dst, k))
    ensures !src.Obj? ==> Overlay(dst, src) == dst
    ensures UniqueKeys(dst) ==> UniqueKeys(Overlay(dst, src))
  {
    if src.Obj? {
      AssignGet(dst, src.fields, k);
      if UniqueKeys(dst) {
        AssignPreservesUnique(dst, src.fields);
      }
    }
  }

  /** Assigning entries with keys the destination lacks, none repeated, appends
      them unchanged. */
  lemma {:induction false} AssignDisjoint(dst: Fields, src: Fields)
    requires UniqueKeys(dst + src)
    ensures Assign(dst, src) == dst + src
    decreases |src|
  {
    if src != [] {
      var (k, v) := src[0];
      assert !Has(dst, k) by {
        forall i | 0 <= i < |dst|
          ensures dst[i].0 != k
        {
          assert (dst + src)[i] == dst[i] && (dst + src)[|dst|] == src[0];
        }
      }
      assert Set(dst, k, v) == dst + [src[0]];
      assert (dst + [src[0]]) + src[1..] == dst + src;
      AssignDisjoint(dst + [src[0]], src[1..]);
    }
  }

  /** In an object without repeated keys, each entry is what its key reads. */
  lemma GetUnique(f: Fields, i: nat)
    requires UniqueKeys(f) && i < |f|
    ensures Get(f, f[i].0) == f[i].1
  {
    assert Has(f, f[i].0);
  }
  // ---------------------------------------------------------------------------
  // The object a list of entries stands for, and the order JavaScript visits it
  // ---------------------------------------------------------------------------

  /** The properties of the object a list of entries stands for: each key once,
      at the position of its first entry, with the value of its last. This is
      the object `_.extend({}, ...)` builds, entry by entry. */
  function Properties(f: Fields): (r: Fields)
    ensures UniqueKeys(r)
    ensures forall e :: e in r ==> e in f
  {
    AssignPreservesUnique([], f);
    AssignEntries([], f);
    Assign([], f)
  }

  lemma SetEntries(f: Fields, k: string, v: Value)
    ensures forall e :: e in Set(f, k, v) ==> e in f || e == (k, v)
  {
  }

  lemma {:induction false} AssignEntries(dst: Fields, src: Fields)
    ensures forall e :: e in Assign(dst, src) ==> e in dst || e in src
    decreases |src|
  {
    if src != [] {
      SetEntries(dst, src[0].0, src[0].1);
      AssignEntries(Set(dst, src[0].0, src[0].1), src[1..]);
    }
  }

  /** Every key reads the same in the object as in its entries. */
  lemma PropertiesGet(f: Fields, k: string)
    ensures Has(Properties(f), k) <==> Has(f, k)
    ensures Get(Properties(f), k) == Get(f, k)
  {
    AssignGet([], f, k);
  }

  /** A further entry is an assignment: a repeated key keeps its first position
      and takes the new value, a new key goes last. */
  lemma PropertiesAppend(f: Fields, k: string, v: Value)
    ensures Properties(f + [(k, v)]) == Set(Properties(f), k, v)
  {
    AssignAppend([], f, k, v);
  }

  lemma {:induction false} AssignAppend(dst: Fields, src: Fields, k: string, v: Value)
    ensures Assign(dst, src + [(k, v)]) == Set(Assign(dst, src), k, v)
    decreases |src|
  {
    if src == [] {
      assert [] + [(k, v)] == [(k, v)];
      assert [(k, v)][1..] == [];
    } else {
      assert (src + [(k, v)])[0] == src[0];
      assert (src + [(k, v)])[1..] == src[1..] + [(k, v)];
      AssignAppend(Set(dst, src[0].0, src[0].1), src[1..], k, v);
    }
  }

  /** Entries without a repeated key are already the object's properties. */
  lemma PropertiesOfUnique(f: Fields)
    requires UniqueKeys(f)
    ensures Properties(f) == f
  {
    assert [] + f == f;
    AssignDisjoint([], f);
  }

  /** An array index (section 6.1.7 of ECMA-262, 2015 edition): the canonical
      decimal string of an integer below 2^32 - 1, such as `0` or `15` but not
      `015`. */
  predicate IsIndexKey(k: string) {
    AllDigits(k) && NatDigits(DigitsValue(k)) == k && DigitsValue(k) < 0xFFFF_FFFF
  }

  /** The entries whose key is an array index, in order. */
  function IndexEntries(f: Fields): (r: Fields)
    ensures forall e :: e in r <==> e in f && IsIndexKey(e.0)
  {
    if f == [] then []
    else (if IsIndexKey(f[0].0) then [f[0]] else []) + IndexEntries(f[1..])
  }

  /** The entries whose key is not an array index, in order. */
  function NamedEntries(f: Fields): (r: Fields)
    ensures forall e :: e in r <==> e in f && !IsIndexKey(e.0)
  {
    if f == [] then []
    else (if IsIndexKey(f[0].0) then [] else [f[0]]) + NamedEntries(f[1..])
  }

  predicate AllIndexKeys(f: Fields) {
    forall i :: 0 <= i < |f| ==> IsIndexKey(f[i].0)
  }

  /** Array-index entries in ascending numeric order. */
  predicate IndexAscending(f: Fields) {
    && AllIndexKeys(f)
    && forall i, j :: 0 <= i < j < |f| ==> DigitsValue(f[i].0) <= DigitsValue(f[j].0)
  }

  function InsertByIndex(e: (string, Value), f: Fields): (r: Fields)
    requires IsIndexKey(e.0) && IndexAscending(f)
    ensures forall x :: x in r <==> x == e || x in f
    ensures |r| == |f| + 1
    ensures IndexAscending(r)
  {
    if f == [] then [e]
    else if DigitsValue(e.0) <= DigitsValue(f[0].0) then
      ConsAscending(e, f);
      [e] + f
    else
      var rest := InsertByIndex(e, f[1..]);
      InsertedAbove(e, f, rest);
      ConsAscending(f[0], rest);
      [f[0]] + rest
  }

  /** An index entry no greater than any of an ascending list may lead it. */
  lemma ConsAscending(x: (string, Value), f: Fields)
    requires IsIndexKey(x.0) && IndexAscending(f)
    requires f != [] ==> DigitsValue(x.0) <= DigitsValue(f[0].0)
    ensures IndexAscending([x] + f)
  {
  }

  /** What is inserted after the head of an ascending list stays above it. */
  lemma InsertedAbove(e: (string, Value), f: Fields, rest: Fields)
    requires f != [] && IndexAscending(f) && IsIndexKey(e.0)
    requires DigitsValue(f[0].0) < DigitsValue(e.0)
    requires IndexAscending(rest) && forall x :: x in rest <==> x == e || x in f[1..]
    ensures rest != [] ==> DigitsValue(f[0].0) <= DigitsValue(rest[0].0)
  {
    if rest != [] {
      assert rest[0] in rest;
      if rest[0] != e {
        var m :| 0 <= m < |f[1..]| && f[1..][m] == rest[0];
        assert f[m + 1] == rest[0];
      }
    }
  }

  function SortByIndex(f: Fields): (r: Fields)
    requires AllIndexKeys(f)
    ensures forall x :: x in r <==> x in f
    ensures IndexAscending(r)
  {
    if f == [] then []
    else
      assert f[0] in f;
      InsertByIndex(f[0], SortByIndex(f[1..]))
  }

  /** The order in which `for-in` (and lodash's `forEach`, without a numeric
      `length`) visits an object's own keys, the ordinary [[OwnPropertyKeys]]
      order (section 9.1.12 of ECMA-262, 2015 edition): array indices first in
      ascending numeric order, then the other keys in insertion order. */
  function Enumerate(f: Fields): (r: Fields)
    ensures forall e :: e in r <==> e in Properties(f)
  {
    var p := Properties(f);
    assert forall e :: e in IndexEntries(p) ==> IsIndexKey(e.0);
    SortByIndex(IndexEntries(p)) + NamedEntries(p)
  }

  /** The visiting order keeps the object: each key once, reading what the
      entries give it. */
  lemma EnumerateGet(f: Fields, k: string)
    ensures UniqueKeys(Enumerate(f))
    ensures Has(Enumerate(f), k) <==> Has(f, k)
    ensures Get(Enumerate(f), k) == Get(f, k)
  {
    var p := Properties(f);
    EnumerateUnique(f);
    GetSameEntries(Enumerate(f), p, k);
    PropertiesGet(f, k);
  }

  lemma EnumerateUnique(f: Fields)
    ensures UniqueKeys(Enumerate(f))
  {
    var p := Properties(f);
    assert forall e :: e in IndexEntries(p) ==> IsIndexKey(e.0);
    IndexEntriesUnique(p);
    SortUnique(IndexEntries(p));
    NamedEntriesUnique(p);
    UniqueAppend(SortByIndex(IndexEntries(p)), NamedEntries(p));
  }

  /** The visiting order: array indices first, strictly ascending, then the
      other keys in the order the object holds them. */
  lemma EnumerateOrder(f: Fields)
    ensures var r := Enumerate(f);
      forall i, j :: 0 <= i < j < |r| && IsIndexKey(r[j].0) ==>
        IsIndexKey(r[i].0) && DigitsValue(r[i].0) < DigitsValue(r[j].0)
    ensures NamedEntries(Enumerate(f)) == NamedEntries(Properties(f))
  {
    var p := Properties(f);
    assert forall e :: e in IndexEntries(p) ==> IsIndexKey(e.0);
    EnumerateUnique(f);
    IndexThenNamed(SortByIndex(IndexEntries(p)), NamedEntries(p));
    NamedEntriesAppend(SortByIndex(IndexEntries(p)), NamedEntries(p));
    NamedOfIndexOnly(SortByIndex(IndexEntries(p)));
    NamedOfNamed(NamedEntries(p));
  }

  lemma IndexThenNamed(a: Fields, b: Fields)
    requires IndexAscending(a) && UniqueKeys(a + b)
    requires forall y :: y in b ==> !IsIndexKey(y.0)
    ensures forall i, j :: 0 <= i < j < |a + b| && IsIndexKey((a + b)[j].0) ==>
      IsIndexKey((a + b)[i].0) && DigitsValue((a + b)[i].0) < DigitsValue((a + b)[j].0)
  {
    forall i, j | 0 <= i < j < |a + b| && IsIndexKey((a + b)[j].0)
      ensures IsIndexKey((a + b)[i].0) && DigitsValue((a + b)[i].0) < DigitsValue((a + b)[j].0)
    {
      assert j < |a|;
      assert (a + b)[i] == a[i] && (a + b)[j] == a[j];
    }
  }

  /** Without array-index keys, an object is visited in insertion order. */
  lemma EnumerateNamed(f: Fields)
    requires forall i :: 0 <= i < |f| ==> !IsIndexKey(f[i].0)
    ensures Enumerate(f) == Properties(f)
  {
    var p := Properties(f);
    assert forall e :: e in p ==> !IsIndexKey(e.0);
    IndexEntriesNone(p);
    NamedOfNamed(p);
  }

  lemma {:induction false} IndexEntriesNone(f: Fields)
    requires forall e :: e in f ==> !IsIndexKey(e.0)
    ensures IndexEntries(f) == []
    decreases |f|
  {
    if f != [] {
      assert f[0] in f;
      assert forall e :: e in f[1..] ==> e in f;
      IndexEntriesNone(f[1..]);
    }
  }

  lemma UniqueCons(x: (string, Value), t: Fields)
    requires UniqueKeys(t) && forall e :: e in t ==> e.0 != x.0
    ensures UniqueKeys([x] + t)
  {
    forall i, j | 0 <= i < j < |[x] + t|
      ensures ([x] + t)[i].0 != ([x] + t)[j].0
    {
      if i == 0 {
        assert ([x] + t)[j] == t[j - 1] && t[j - 1] in t;
      } else {
        assert ([x] + t)[i] == t[i - 1] && ([x] + t)[j] == t[j - 1];
      }
    }
  }

  lemma UniqueTail(f: Fields)
    requires UniqueKeys(f) && f != []
    ensures UniqueKeys(f[1..]) && forall e :: e in f[1..] ==> e.0 != f[0].0
  {
    forall e | e in f[1..]
      ensures e.0 != f[0].0
    {
      var m :| 0 <= m < |f[1..]| && f[1..][m] == e;
      assert f[m + 1] == e;
    }
  }

  lemma {:induction false} IndexEntriesUnique(f: Fields)
    requires UniqueKeys(f)
    ensures UniqueKeys(IndexEntries(f))
    decreases |f|
  {
    if f != [] {
      UniqueTail(f);
      IndexEntriesUnique(f[1..]);
      if IsIndexKey(f[0].0) {
        UniqueCons(f[0], IndexEntries(f[1..]));
      } else {
        assert IndexEntries(f) == IndexEntries(f[1..]);
      }
    }
  }

  lemma {:induction false} NamedEntriesUnique(f: Fields)
    requires UniqueKeys(f)
    ensures UniqueKeys(NamedEntries(f))
    decreases |f|
  {
    if f != [] {
      UniqueTail(f);
      NamedEntriesUnique(f[1..]);
      if !IsIndexKey(f[0].0) {
        UniqueCons(f[0], NamedEntries(f[1..]));
      } else {
        assert NamedEntries(f) == NamedEntries(f[1..]);
      }
    }
  }

  lemma {:induction false} InsertUnique(e: (string, Value), f: Fields)
    requires IsIndexKey(e.0) && IndexAscending(f)
    requires UniqueKeys(f) && forall x :: x in f ==> x.0 != e.0
    ensures UniqueKeys(InsertByIndex(e, f))
    decreases |f|
  {
    if f == [] {
    } else if DigitsValue(e.0) <= DigitsValue(f[0].0) {
      UniqueCons(e, f);
    } else {
      UniqueTail(f);
      assert forall x :: x in f[1..] ==> x in f;
      InsertUnique(e, f[1..]);
      assert f[0] in f;
      UniqueCons(f[0], InsertByIndex(e, f[1..]));
    }
  }

  lemma {:induction false} SortUnique(f: Fields)
    requires AllIndexKeys(f) && UniqueKeys(f)
    ensures UniqueKeys(SortByIndex(f))
    decreases |f|
  {
    if f != [] {
      UniqueTail(f);
      SortUnique(f[1..]);
      InsertUnique(f[0], SortByIndex(f[1..]));
    }
  }

  lemma UniqueAppend(a: Fields, b: Fields)
    requires UniqueKeys(a) && UniqueKeys(b)
    requires forall x :: x in a ==> IsIndexKey(x.0)
    requires forall y :: y in b ==> !IsIndexKey(y.0)
    ensures UniqueKeys(a + b)
  {
    forall i, j | 0 <= i < j < |a + b|
      ensures (a + b)[i].0 != (a + b)[j].0
    {
      if j < |a| {
        assert (a + b)[i] == a[i] && (a + b)[j] == a[j];
      } else if i >= |a| {
        assert (a + b)[i] == b[i - |a|] && (a + b)[j] == b[j - |a|];
      } else {
        assert (a + b)[i] == a[i] && a[i] in a;
        assert (a + b)[j] == b[j - |a|] && b[j - |a|] in b;
      }
    }
  }

  /** Two objects without repeated keys holding the same entries read alike. */
  lemma GetSameEntries(a: Fields, b: Fields, k: string)
    requires UniqueKeys(a) && UniqueKeys(b)
    requires forall e :: e in a <==> e in b
    ensures Has(a, k) <==> Has(b, k)
    ensures Get(a, k) == Get(b, k)
  {
    if Has(a, k) {
      var i :| 0 <= i < |a| && a[i].0 == k;
      GetUnique(a, i);
      assert a[i] in b;
      var j :| 0 <= j < |b| && b[j] == a[i];
      GetUnique(b, j);
    }
    if Has(b, k) {
      var j :| 0 <= j < |b| && b[j].0 == k;
      assert b[j] in a;
      var i :| 0 <= i < |a| && a[i] == b[j];
      assert a[i].0 == k;
    }
  }

  lemma {:induction false} NamedEntriesAppend(a: Fields, b: Fields)
    ensures NamedEntries(a + b) == NamedEntries(a) + NamedEntries(b)
    decreases |a|
  {
    if a == [] {
      assert a + b == b;
    } else {
      assert (a + b)[0] == a[0] && (a + b)[1..] == a[1..] + b;
      NamedEntriesAppend(a[1..], b);
    }
  }

  lemma NamedOfIndexOnly(a: Fields)
    requires forall x :: x in a ==> IsIndexKey(x.0)
    ensures NamedEntries(a) == []
  {
    if NamedEntries(a) != [] {
      assert NamedEntries(a)[0] in NamedEntries(a);
    }
  }

  lemma {:induction false} NamedOfNamed(f: Fields)
    requires forall e :: e in f ==> !IsIndexKey(e.0)
    ensures NamedEntries(f) == f
    decreases |f|
  {
    if f != [] {
      assert f[0] in f;
      assert forall e :: e in f[1..] ==> e in f;
      NamedOfNamed(f[1..]);
      assert [f[0]] + f[1..] == f;
    }
  }

  // ---------------------------------------------------------------------------
  // lodash's forEach
  // ---------------------------------------------------------------------------

  /** `k` is the decimal name of an index below `n`. */
  predicate IsIndexBelow(k: string, n: int) {
    AllDigits(k) && NatDigits(DigitsValue(k)) == k && DigitsValue(k) < n
  }

  /** lodash 2.x's `forEach` reads `collection.length` and walks the
      collection like an array whenever that is a number: a string (its
      length), a function (its parameter count), or an object with a numeric
      own `length` entry. */
  predicate IsArrayLike(v: Value) {
    v.Str? || v.Fn? || (v.Obj? && Get(v.fields, "length").Int?)
  }

  function ArrayLength(v: Value): int
    requires IsArrayLike(v)
  {
    match v
    case Str(s) => |s|
    case Fn(_, n, _) => n
    case Obj(f) => Get(f, "length").num
  }

  /** `v[k]` at an array index: an object's entry, a string's character; a
      function has no such own entries. */
  function Element(v: Value, k: string): Value {
    match v
    case Obj(f) => Get(f, k)
    case Str(s) => if IsIndexBelow(k, |s|) then Str([s[DigitsValue(k)]]) else Undefined
    case _ => Undefined
  }

  /** The pairs `(String(i), v[i])` for `i` from 0 below `n`. */
  function IndexWalk(v: Value, n: int): (r: Fields)
    ensures |r| == if n < 0 then 0 else n
    ensures forall i :: 0 <= i < |r| ==> r[i] == (NatDigits(i), Element(v, NatDigits(i)))
    decreases n
  {
    if n <= 0 then [] else IndexWalk(v, n - 1) + [(NatDigits(n - 1), Element(v, NatDigits(n - 1)))]
  }

  /** The (key, value) pairs lodash 2.x's `forEach(v, fn)` calls `fn` with, in
      order: an array-like value by index, ascending, up to its `length`; an
      object otherwise by its own properties in `for-in` order; anything else
      not at all (`forOwn` skips primitives, and `null` or `undefined` has
      length 0). */
  function ForEachEntries(v: Value): (r: Fields)
    ensures UniqueKeys(r)
    ensures IsArrayLike(v) ==> |r| == if ArrayLength(v) < 0 then 0 else ArrayLength(v)
    ensures IsArrayLike(v) ==> forall i :: 0 <= i < |r| ==> r[i] == (NatDigits(i), Element(v, NatDigits(i)))
    ensures !IsArrayLike(v) && v.Obj? ==> forall e :: e in r <==> e in Properties(v.fields)
    ensures !IsArrayLike(v) && !v.Obj? ==> r == []
  {
    if IsArrayLike(v) then
      IndexWalkUnique(v, ArrayLength(v));
      IndexWalk(v, ArrayLength(v))
    else if v.Obj? then
      EnumerateUnique(v.fields);
      Enumerate(v.fields)
    else []
  }

  lemma IndexWalkUnique(v: Value, n: int)
    ensures UniqueKeys(IndexWalk(v, n))
  {
    var r := IndexWalk(v, n);
    forall i, j | 0 <= i < j < |r|
      ensures r[i].0 != r[j].0
    {
      NatDigitsValue(i);
      NatDigitsValue(j);
    }
  }

  /** Whether `forEach(v, fn)` calls `fn` with key `k`, stated without the walk. */
  predicate Visits(v: Value, k: string) {
    if IsArrayLike(v) then IsIndexBelow(k, ArrayLength(v)) else v.Obj? && Has(v.fields, k)
  }

  /** The value `forEach(v, fn)` passes with key `k`; `undefined` if it never
      passes `k`. */
  function Visited(v: Value, k: string): Value {
    if Visits(v, k) then Element(v, k) else Undefined
  }

  /** The walk visits exactly the keys `Visits` names, once each, with the
      values `Visited` gives them. */
  lemma ForEachGet(v: Value, k: string)
    ensures Has(ForEachEntries(v), k) <==> Visits(v, k)
    ensures Get(ForEachEntries(v), k) == Visited(v, k)
  {
    var r := ForEachEntries(v);
    if IsArrayLike(v) {
      var n := ArrayLength(v);
      if Has(r, k) {
        var i :| 0 <= i < |r| && r[i].0 == k;
        NatDigitsValue(i);
        GetUnique(r, i);
      }
      if IsIndexBelow(k, n) {
        var i := DigitsValue(k);
        assert r[i].0 == k;
        GetUnique(r, i);
      }
    } else if v.Obj? {
      EnumerateGet(v.fields, k);
    }
  }

  /** Without a numeric `length`, `forEach` reads an object the way property
      access does. */
  lemma VisitedPlain(v: Value, k: string)
    requires !IsArrayLike(v)
    ensures Visits(v, k) <==> v.Obj? && Has(v.fields, k)
    ensures Visited(v, k) == Prop(v, k)
  {
  }

  /** An array-like walk visits the index names below the length and nothing
      else, not even the named entries beside them. */
  lemma ArrayLikeSkipsNames(v: Value, k: string)
    requires IsArrayLike(v) && !AllDigits(k)
    ensures !Has(ForEachEntries(v), k)
  {
    ForEachGet(v, k);
  }
}
